=== FILE: README.md ===
# Booking scraper and warehouse load, modelled in Dafny

The repository scrapes Booking.com listings for Moroccan cities, cleans the
scraped batches with pandas, and loads them into a Snowflake star schema.
This project models the sequential logic at the centre of that pipeline
and proves what it promises:

- **The cleaning stage** (`transform` in `etl/transform.py`), in modules
  `Transform` and `Timestamps`:
  - batch concatenation and keep-first duplicate removal;
  - `normalize_timestamp`: epoch milliseconds to ISO 8601 UTC, with the
    proleptic Gregorian calendar written out;
  - the Marrakech/Tangier city override;
  - the `weighted_avg` column, inserted right after `general_review_count`;
  - the discarded count check;
  - the four quality filters;
  - the zone backfill by `get_zone_from_address`.
- **The warehouse load** (`olap_modeling` in `etl/OLAP_modeling.py`), in
  modules `Merge` and `Olap`:
  - one generic `MERGE ... WHEN NOT MATCHED THEN INSERT` over a table with
    an `IDENTITY(1,1)` counter, under SQL `=` (NULL never matches) or
    null-safe matching;
  - the five statements in order, with the fact source an inner join
    against the freshly merged DIM_CATEGORY.
- **Scraper helpers** (`booking/scraping_all_booking_with_categories.py`),
  in module `Booking`: `extract_zone`, `is_apartment`,
  `validate_apartment_data`, `validate_coordinates`, and the string steps
  of `normalize_price` and `clean_latin_text`.
- **Fragments of the threaded scraper**
  (`multi_thread_booking_scraper_backup.py`), in module `Threaded`:
  - the URL split among threads and which chunks are submitted;
  - `url_builder`;
  - the digits-only price range;
  - the category relabelling of `extract_category`;
  - `normalize_traveler_type`;
  - the CSV header union and default filling of `write_batch`.
    `save_batch_to_csv` (lines 851-905) has the same header and row logic.

Shared building blocks live in `Wrappers` (`Option`, `Result` and Python's
exception kinds), `Seqs` (filter, keep-first de-duplication, flatten,
sub-sequences) and `Strings` (Python's `in`, `split`, `join`, `strip`,
`lower`, one-character `replace`, digit strings, string order).

Python values are modelled as follows:

- Missing cells (`NaN`, `None`, SQL NULL) are `None` or `Null`.
- Numbers are `real` or `int`.
- Python's `float()` and `unicodedata.normalize('NFKD', ...)` are function
  parameters.
- Raised exceptions become `Failure` values.

## Model

| member | source | states |
|---|---|---|
| Transform.Concat | etl/transform.py:13-19 | Fails with ValueError exactly when there are no batches; otherwise the columns are the duplicate-free union of the batches' columns |
| Transform.ConcatRows | etl/transform.py:19 | The concatenated rows are the batches' rows batch after batch (`ignore_index=True`) |
| Transform.DropDuplicates | etl/transform.py:22-24 | Rows are compared on every staging cell, the eight the stage never reads included, and an integer and a float timestamp of equal value are one cell, as pandas compares numbers by value; no two rows left are equal; a row is kept iff it was in the input; survivors keep the order of their first occurrences |
| Transform.DropDuplicatesIsDedup | etl/transform.py:22-24 | The `if not all_duplicates.empty` guard changes nothing: the stage is keep-first de-duplication on every input |
| Transform.NormalizeRows | etl/transform.py:41 | Succeeds iff every row's timestamp converts; then each row changes only in its timestamp, which is the converted value; otherwise ValueError |
| Transform.NormalizeRowsIdempotent | etl/transform.py:36-41 | Mapping `normalize_timestamp` over an already normalised batch changes nothing |
| Transform.SpellingsSurviveDedup | etl/transform.py:22-24 | Two rows that differ only in how their timestamp is written (a millisecond count and formatted text) both survive de-duplication |
| Transform.DuplicatesAfterNormalize | etl/transform.py:22-41 | Because de-duplication runs before normalisation, two such rows become exact duplicates in the output |
| Transform.DuplicatesAfterNormalizeExample | etl/transform.py:22-41 | A concrete pair exists: 1700000000000 ms and "2023-11-14T22:13:20+00:00" end as duplicates |
| Transform.OverrideCity | etl/transform.py:49 | Row by row, the city becomes the town when the address is present and contains it; every other column and every other row is unchanged |
| Transform.FixCities | etl/transform.py:49-50 | A non-empty batch in which no row has an address raises AttributeError (the column is `float64` and has no `.str`); otherwise one row out per row in |
| Transform.FixCitiesSpec | etl/transform.py:49-50 | The override fails only when no row has an address; when it succeeds, Tangier in the address gives Tangier, even when Marrakech is also there; Marrakech alone gives Marrakech; a null address or neither name leaves the row as it was |
| Transform.WeightedAvg | etl/transform.py:54-66 | Undefined iff the five segment counts sum to zero; otherwise the average times the count sum is the score-times-count sum |
| Transform.WeightedAvgBounds | etl/transform.py:54-66 | With all five counts positive the average is defined and lies between the lowest and highest segment score |
| Transform.AvgBetween | etl/transform.py:54-66 | Any bounds on all five segment scores also bound the weighted average |
| Transform.InsertAfter | etl/transform.py:69-72 | A missing anchor raises KeyError; success iff the anchor occurs once and the name is new; the name then sits right after the anchor, and the other columns keep their order |
| Transform.InsertThenDrop | etl/transform.py:72 | Dropping the inserted column gives back the original columns |
| Transform.DropColumn | etl/transform.py:83 | `drop(columns=[...])` leaves exactly the other columns, in their order |
| Transform.AddWeightedAvg | etl/transform.py:54-72 | Every row gets the weighted average of its own scores and counts; the column order is that of InsertAfter |
| Transform.CountCheck | etl/transform.py:75-83 | The rows are untouched and no `count_sum` column remains |
| Transform.CountCheckNoop | etl/transform.py:75-83 | The count check leaves the table exactly as it was iff there was no `count_sum` column beforehand |
| Transform.QualityFilter | etl/transform.py:87-111 | The output is a sub-sequence of the input |
| Transform.QualityFilterSpec | etl/transform.py:87-111 | The four queries in a row keep exactly the rows with all scores in (0,10), all counts positive, coordinates in the open ranges and 0 <= min_price <= max_price, in their order |
| Transform.ScoresInRange | etl/transform.py:87-95 | The first query: all six review scores strictly between 0 and 10 |
| Transform.CountsPositive | etl/transform.py:98-105 | The second query: all six review counts positive |
| Transform.CoordinatesValid | etl/transform.py:108 | The third query: latitude in (-90, 90) and longitude in (-180, 180) |
| Transform.PricesValid | etl/transform.py:111 | The fourth query: 0 <= min_price <= max_price |
| Transform.RowValid | etl/transform.py:87-111 | A row passes all four queries |
| Transform.AddressParts | etl/transform.py:119 | Every part is non-empty, has no whitespace at either end and holds no double space; together the parts hold every non-whitespace character of the address, in order |
| Transform.ZoneOfParts | etl/transform.py:122-144 | Returns the first part starting with a zone identifier; failing that, the part before the first part at index > 0 naming a region; None iff neither exists |
| Transform.ZoneFromAddress | etl/transform.py:115-144 | A null address gives NA; a zone found is one of the address's parts, so it is trimmed and non-empty |
| Transform.BackfillZones | etl/transform.py:149-150 | Rows with a zone are unchanged; a row without one gets the zone its address yields and nothing else changes |
| Transform.BackfillIdempotent | etl/transform.py:149-150 | Backfilling a second time changes nothing |
| Transform.TransformBatches | etl/transform.py:19-150 | The stage on the batches read: no batch at all raises ValueError as `pd.concat([])` does; Transform.TransformOutput states what a successful run stages |
| Transform.TransformOutput | etl/transform.py:19-150 | Every staged row passes all quality checks and has a weighted average strictly between 0 and 10; `weighted_avg` directly follows `general_review_count` |
| Transform.StagedRows | etl/transform.py:87-150 | Filtering and backfilling rows whose average was derived from their own scores gives valid rows with averages in (0,10) |
| Transform.StagedColumns | etl/transform.py:69-83 | After the count check, `weighted_avg` still directly follows `general_review_count` |
| Timestamps.NormalizeTimestamp | etl/transform.py:36-39 | A non-numeric value is returned unchanged; a numeric one becomes formatted text or, for a year outside 1..9999, a ValueError |
| Timestamps.NormalizeReadsBack | etl/transform.py:38 | The text a number becomes reads back to the instant the number denotes, as milliseconds since the epoch in UTC |
| Timestamps.NormalizeIdempotent | etl/transform.py:36-39 | Normalising an already normalised value changes nothing |
| Timestamps.NormalizeExample | etl/transform.py:38 | 1700000000000 ms becomes "2023-11-14T22:13:20+00:00" |
| Timestamps.IsoRoundTrip | etl/transform.py:38 | Every ISO string `fromtimestamp(...).isoformat()` produces parses back to its microsecond count |
| Timestamps.IsoFromMicros | etl/transform.py:38 | Fails, with ValueError, exactly when the instant's year is outside 1..9999 |
| Timestamps.WholeMillis | etl/transform.py:37-38 | The integer count n and the float n.0 are the same cell and both denote n * 1000 microseconds |
| Timestamps.FormatMicros | etl/transform.py:38 | Rendered text parses back to the instant; the only failure is ValueError |
| Timestamps.CivilRoundTrip | etl/transform.py:38 | The calendar date of a day count converts back to the same day count |
| Timestamps.MicrosInstant | etl/transform.py:38 | Splitting an instant into date, time of day and microseconds loses nothing |
| Timestamps.ParseIsoText | etl/transform.py:38 | The ISO layout `YYYY-MM-DDTHH:MM:SS[.ffffff]+00:00` reads back every field it writes |
| Timestamps.RoundHalfEven | etl/transform.py:38 | A float millisecond count is rounded to within half a microsecond, strictly nearer unless the fraction is exactly one half, and then to the even neighbour (Python's `round`) |
| Merge.KeyMatchesSpec | etl/OLAP_modeling.py:199 | Under SQL `=` a key with a NULL column matches nothing; on NULL-free keys, and always under null-safe matching, a match is plain equality |
| Merge.EmptyTable | etl/OLAP_modeling.py:78-87 | A newly created table is empty and its identity counter starts at 1 |
| Merge.Number | etl/OLAP_modeling.py:79 | The inserted records keep their order; each gets an id at least the counter's value and below the counter plus their number, and the ids increase along them, so no two are equal |
| Merge.MergeInsert | etl/OLAP_modeling.py:91-117 | The old rows stay a prefix; the counter advances by the number of rows added |
| Merge.Unmatched | etl/OLAP_modeling.py:103-104 | The rows offered for insertion are source rows that match no target row, and every source row that matches none is offered |
| Merge.MergeAppends | etl/OLAP_modeling.py:91-117 | Append-only: the stored rows are unchanged and in place, and the appended rows are exactly the unmatched source rows, in source order |
| Merge.MergeNumbering | etl/OLAP_modeling.py:78-117 | Ids stay increasing and below the counter; every new id exceeds every existing one |
| Merge.MergeCovers | etl/OLAP_modeling.py:103-104 | After the merge every source row whose key has no NULL, or every row under null-safe matching, has a matching target row |
| Merge.MergeNothingNew | etl/OLAP_modeling.py:103-104 | When every source row already matches, the merge leaves the table as it is |
| Merge.MergeIdempotent | etl/OLAP_modeling.py:90-117 | A second identical merge adds nothing, when matching is null-safe or no source key has a NULL column |
| Merge.MergeReinsertsNullKeys | etl/OLAP_modeling.py:199-207 | Under SQL `=`, a source row with a NULL key column is appended by every run |
| Merge.MergeKeepsKeysUnique | etl/OLAP_modeling.py:130-138 | If target keys are unique and source keys are unique, target keys stay unique |
| Merge.MergeInsertedSpec | etl/OLAP_modeling.py:103-104 | A row is appended iff it is in the source and matches no target row that existed before the statement |
| Merge.MergeInsertsTogether | etl/OLAP_modeling.py:273-274 | Source rows with the same key are appended together or not at all |
| Merge.DistinctKeysUnique | etl/OLAP_modeling.py:133 | A duplicate-free source whose key determines the row has unique keys |
| Merge.MergeMatchingAgrees | etl/OLAP_modeling.py:130-138 | When no source key has a NULL, the statement under SQL `=` does exactly what it does under null-safe matching |
| Merge.MergeIntoEmpty | etl/OLAP_modeling.py:78-117 | Into an empty table every source row is inserted, numbered consecutively from the counter |
| Olap.EmptyWarehouse | etl/OLAP_modeling.py:77-240 | The five created tables are empty with their counters at 1 |
| Olap.PropertySource | etl/OLAP_modeling.py:94-100 | DISTINCT over the five property columns: no repeats, and exactly the staging rows' projections |
| Olap.CategorySource | etl/OLAP_modeling.py:133-134 | DISTINCT categories: no repeats, and exactly the staging categories |
| Olap.DateSource | etl/OLAP_modeling.py:159-165 | No DISTINCT: the i-th row has the i-th staging timestamp, so a timestamp staged n times is offered n times; every row's calendar parts are those of its own timestamp |
| Olap.LocationSource | etl/OLAP_modeling.py:194-197 | DISTINCT (city, zone) pairs: no repeats, and exactly the staging pairs |
| Olap.JoinedSpec | etl/OLAP_modeling.py:269-271 | One staging row joins exactly the DIM_CATEGORY rows whose category equals its own non-NULL category |
| Olap.FactSource | etl/OLAP_modeling.py:246-272 | The joined rows, staging row by staging row; Olap.FactJoinSpec states which rows they are |
| Olap.FactJoinSpec | etl/OLAP_modeling.py:246-272 | A fact source row comes from a staging row and a DIM_CATEGORY row with equal non-NULL category, carrying that row's id; staging rows without a match are dropped |
| Olap.Load | etl/OLAP_modeling.py:91-321 | All five tables are append-only across a run |
| Olap.LoadNumbering | etl/OLAP_modeling.py:78-321 | A run keeps all five identity columns increasing and below their counters |
| Olap.LoadCovers | etl/OLAP_modeling.py:91-208 | After a run every staging row has its property, category, date and location in the dimensions, for every key with no NULL column |
| Olap.FactInsertedSpec | etl/OLAP_modeling.py:273-274 | A joined row is inserted into the fact table iff no pre-existing fact row has its timestamp |
| Olap.FactInsertedTogether | etl/OLAP_modeling.py:273-274 | Joined rows sharing a new timestamp are all inserted |
| Olap.LoadIdempotent | etl/OLAP_modeling.py:90 | Running the load twice equals running it once, under null-safe matching or when no staging key column is NULL |
| Olap.LocationRerunGrows | etl/OLAP_modeling.py:191-208 | A staging row whose zone is NULL makes every re-run append to DIM_LOCATION |
| Olap.PropertyUrlRepeats | etl/OLAP_modeling.py:94-103 | One URL with two addresses yields two DIM_PROPERTY rows with the same key on a first load |
| Olap.DateTimestampRepeats | etl/OLAP_modeling.py:158-167 | Two staging rows with one timestamp yield two DIM_DATE rows with the same key on a first load |
| Olap.PropertyStaysUnique | etl/OLAP_modeling.py:94-103 | When the URL determines the other four columns: under SQL `=`, no two DIM_PROPERTY rows with non-NULL URLs share a URL (NULL URLs are inserted again on every run); under null-safe matching, no two rows share a URL |
| Olap.DateStaysUnique | etl/OLAP_modeling.py:158-167 | When staging timestamps are distinct: under SQL `=`, no two DIM_DATE rows with non-NULL timestamps share one (NULL ones repeat on every run); under null-safe matching, no two rows share one |
| Olap.CategoryStaysUnique | etl/OLAP_modeling.py:130-138 | Under SQL `=`, no two DIM_CATEGORY rows with non-NULL categories share one; under null-safe matching, no two rows share one |
| Olap.CategoryRerunGrows | etl/OLAP_modeling.py:130-138 | A staged NULL category is appended to DIM_CATEGORY again on every further run |
| Olap.CategoryKeysDistinct | etl/OLAP_modeling.py:130-138 | With no NULL category staged, the code as written leaves no repeated category at all, NULL included |
| Olap.LocationStaysUnique | etl/OLAP_modeling.py:191-208 | Under SQL `=`, no two DIM_LOCATION rows whose city and zone are both non-NULL share the pair; under null-safe matching, no two rows share it |
| Olap.LocationKeysDistinct | etl/OLAP_modeling.py:191-208 | With no NULL city or zone staged, the code as written leaves no repeated (city, zone) pair at all |
| Booking.CommaParts | booking/scraping_all_booking_with_categories.py:185 | One part more than the address has commas; every part is stripped and comma-free; together the parts hold every character of the address that is neither a comma nor whitespace, in order |
| Strings.SplitCount | booking/scraping_all_booking_with_categories.py:185 | `split` on one character gives one piece more than the character occurs, and no piece holds it |
| Booking.ExtractZone | booking/scraping_all_booking_with_categories.py:180-204 | "Unknown" for a None or empty address; otherwise the zone its comma parts name |
| Booking.DistrictZone | booking/scraping_all_booking_with_categories.py:189-204 | The zone named by the parts; Booking.DistrictZoneSpec and Booking.DistrictZoneUnknown state it |
| Booking.DistrictZoneSpec | booking/scraping_all_booking_with_categories.py:189-202 | With the first district part at i: "previous - part" when a non-empty part precedes it, the part alone otherwise |
| Booking.DistrictZoneUnknown | booking/scraping_all_booking_with_categories.py:189-204 | "Unknown" iff no part contains "Arrondissement" or "District" |
| Booking.IsApartment | booking/scraping_all_booking_with_categories.py:222-243 | An empty title is never an apartment |
| Booking.IsApartmentSpec | booking/scraping_all_booking_with_categories.py:222-243 | True iff the title is non-empty, its lower case holds no excluded keyword, and an indicator occurs in the lower-cased title or page source |
| Booking.ValidateApartmentData | booking/scraping_all_booking_with_categories.py:139-148 | Valid only with a title key |
| Booking.ValidateApartmentDataSpec | booking/scraping_all_booking_with_categories.py:139-148 | Valid iff the title is truthy and one of price_per_night, address or zone is truthy |
| Booking.ValidateApartmentDataReads | booking/scraping_all_booking_with_categories.py:139-148 | The verdict depends on the title and the three required fields only; any other key may change without changing it |
| Booking.ValidateCoordinates | booking/scraping_all_booking_with_categories.py:125-136 | Both or neither coordinate is returned; returned ones are within [-90,90] and [-180,180] |
| Booking.ValidateCoordinatesSpec | booking/scraping_all_booking_with_categories.py:125-136 | A pair is returned iff both strings parse and are in range, and it is the parsed pair |
| Booking.PriceText | booking/scraping_all_booking_with_categories.py:112-117 | The cleaned text holds only digits and '.', never ',' |
| Booking.PriceTextSeparators | booking/scraping_all_booking_with_categories.py:112-117 | After spaces and other characters are removed: with both ',' and '.' present every comma is deleted and the rest kept in order; with commas only, each comma becomes '.' in its place; without commas the text is unchanged |
| Booking.PriceTextThousands | booking/scraping_all_booking_with_categories.py:112-115 | "1,234.50" is cleaned to "1234.50": the comma is a thousands separator |
| Booking.PriceTextDecimalComma | booking/scraping_all_booking_with_categories.py:112-117 | "12,5" is cleaned to "12.5": a lone comma is a decimal separator |
| Booking.PriceTextDigits | booking/scraping_all_booking_with_categories.py:112-117 | The clean-up keeps the input's digits, all of them and in order |
| Booking.NormalizePrice | booking/scraping_all_booking_with_categories.py:107-122 | None for empty text; otherwise `float()` is applied to a text of digits and '.' only that holds exactly the input's digits, in order |
| Booking.NormalizePriceClean | booking/scraping_all_booking_with_categories.py:107-122 | A non-empty text of digits and '.' reaches `float()` unchanged |
| Booking.CollapseSpaces | booking/scraping_all_booking_with_categories.py:103 | No two adjacent whitespace characters; whitespace is written as ' '; other characters come from the input |
| Booking.CollapseRun | booking/scraping_all_booking_with_categories.py:103 | A maximal whitespace run between two pieces becomes exactly one ' ', and each side is collapsed on its own |
| Booking.StripCollapse | booking/scraping_all_booking_with_categories.py:103 | Collapsing and then stripping gives the words of the text (`split()`) joined by single spaces |
| Booking.CollapseKeeps | booking/scraping_all_booking_with_categories.py:103 | Collapsing whitespace runs keeps every other character, all of them and in order |
| Booking.TidyLatin | booking/scraping_all_booking_with_categories.py:101-103 | The non-whitespace characters of the result are exactly the input's allowed non-whitespace characters, in order |
| Booking.TidyLatinWords | booking/scraping_all_booking_with_categories.py:101-103 | The result is the words of the allowed characters, joined by single spaces |
| Booking.CollapseFixed | booking/scraping_all_booking_with_categories.py:103 | Text already single-spaced with ' ' is left alone |
| Booking.TidyLatinShape | booking/scraping_all_booking_with_categories.py:101-103 | The clean-up leaves only allowed characters, single ' ' separators, and no whitespace at the ends |
| Booking.TidyLatinIdempotent | booking/scraping_all_booking_with_categories.py:101-103 | Cleaning cleaned text changes nothing |
| Booking.CleanLatinText | booking/scraping_all_booking_with_categories.py:95-104 | Empty text comes back as it is; every result is trimmed, single-spaced and holds only allowed characters; its non-whitespace characters are exactly the allowed non-whitespace characters of the NFKD form, in order; it is the words of the allowed characters of the NFKD form joined by single spaces |
| Threaded.ChunkUrls | multi_thread_booking_scraper_backup.py:772-781 | ZeroDivisionError iff there are no threads; a negative count gives no chunks; otherwise exactly one chunk per thread |
| Threaded.ChunkSizes | multi_thread_booking_scraper_backup.py:772-781 | Every chunk but the last has `len // n` URLs; the last takes the remainder |
| Threaded.ChunkUrlsPartition | multi_thread_booking_scraper_backup.py:772-781 | The chunks concatenated in thread order are the URL list |
| Threaded.Submitted | multi_thread_booking_scraper_backup.py:796-799 | Every submitted chunk is a non-empty chunk, and every non-empty chunk is submitted |
| Threaded.SubmittedCoversAll | multi_thread_booking_scraper_backup.py:796-799 | Only non-empty chunks are submitted, and together they still hold every URL in order |
| Threaded.EveryThreadBusy | multi_thread_booking_scraper_backup.py:772-799 | With at least as many URLs as threads, no chunk is empty |
| Threaded.UrlBuilder | multi_thread_booking_scraper_backup.py:95-120 | One URL per destination, each starting with the search base URL |
| Threaded.UrlBuilderParses | multi_thread_booking_scraper_backup.py:106-117 | Splitting the query string on '&' gives back the six parameters in order, `ss` first with the destination |
| Threaded.PriceDigits | multi_thread_booking_scraper_backup.py:351 | Only digit characters remain |
| Threaded.Prices | multi_thread_booking_scraper_backup.py:347-356 | A price is listed iff some price text has digits whose value it is |
| Threaded.PricesEmpty | multi_thread_booking_scraper_backup.py:347-358 | No price is parsed iff no price text holds a digit |
| Threaded.PriceRange | multi_thread_booking_scraper_backup.py:358-360 | Set iff some price was parsed; then min <= max, both are parsed prices, and they bound all of them |
| Threaded.FirstGroup | multi_thread_booking_scraper_backup.py:268 | The leftmost `(...)` group with a non-empty body free of ')' |
| Threaded.BreadcrumbCategorySpec | multi_thread_booking_scraper_backup.py:266-272 | The stripped text when it has no group; otherwise the body of its first group, non-empty and free of ')' |
| Threaded.Relabel | multi_thread_booking_scraper_backup.py:274-279 | "Guest House" becomes "Riad", "Condo Hotel" becomes "Apartment-Hotel", any other label is kept |
| Threaded.RelabelIdempotent | multi_thread_booking_scraper_backup.py:274-279 | Relabelling a relabelled category changes nothing |
| Threaded.ExtractCategory | multi_thread_booking_scraper_backup.py:266-279 | The returned category is never "Guest House" or "Condo Hotel" |
| Threaded.Underscored | multi_thread_booking_scraper_backup.py:571 | Character by character: a space or hyphen becomes '_', anything else is lower-cased; so no space, hyphen or upper-case letter is left |
| Threaded.NormalizeTravelerType | multi_thread_booking_scraper_backup.py:570-581 | The field name has no space, hyphen or upper-case letter |
| Threaded.NormalizeTravelerTypeSpec | multi_thread_booking_scraper_backup.py:570-581 | An underscored spelling in the table becomes its target, any other is kept underscored; a result that is itself a spelling in the table maps to itself |
| Threaded.SoloExample | multi_thread_booking_scraper_backup.py:570-581 | "Solo traveller" becomes "solo_travelers" |
| Threaded.GroupExample | multi_thread_booking_scraper_backup.py:570-581 | "Group of friends" becomes "groups_friends" |
| Threaded.FamilyExample | multi_thread_booking_scraper_backup.py:570-581 | "Family" becomes "families" |
| Threaded.UnderscoredFixed | multi_thread_booking_scraper_backup.py:571 | Text without upper case, spaces or hyphens is left alone |
| Threaded.NormalizeTravelerTypeIdempotent | multi_thread_booking_scraper_backup.py:570-581 | Normalising a normalised traveller type changes nothing |
| Threaded.Fieldnames | multi_thread_booking_scraper_backup.py:38-55 | Strictly sorted, and a field is in the header iff a record of the batch or the existing header has it |
| Threaded.Default | multi_thread_booking_scraper_backup.py:83-89 | A missing field is written as None exactly for category, address, zone, city and WiFi Speed, as '' exactly for property_url, and as 0 otherwise |
| Threaded.FillRow | multi_thread_booking_scraper_backup.py:76-90 | One cell per header field; Threaded.FillRowSpec states the cells |
| Threaded.FillRowSpec | multi_thread_booking_scraper_backup.py:76-90 | The row handed to the writer has a cell for every header field: the record's value where it has one, the field's default otherwise |
| Threaded.WriteBatch | multi_thread_booking_scraper_backup.py:33-90 | Nothing for an empty batch; otherwise a sorted header covering every record's fields and every field of the existing header, and nothing else, and one full row per record. In the row handed to the writer, a present field holds its value, a missing one '' for property_url, None for category, address, zone, city and WiFi Speed, and 0 otherwise |

## Findings

| source | as written | input that shows it | evidently intended | confidence | as-written member | corrected member |
|---|---|---|---|---|---|---|
| etl/OLAP_modeling.py:191-208 | `ON target.city = source."city" AND target.zone = source."zone"` never matches a NULL zone, so the row is inserted again on every run | a staging row with `zone` NULL (the zone backfill may leave it missing) | the comment at line 90 promises an idempotent load; null-safe key matching gives it | not executed | Olap.LocationRerunGrows | Olap.LoadIdempotent |
| etl/OLAP_modeling.py:130-138 | `ON source."category" = target.category` never matches a NULL category, so the row is inserted again on every run | a staging row with `category` NULL (the scraper starts every record with `'category': None`) | the same idempotent load; null-safe key matching gives it | not executed | Olap.CategoryRerunGrows | Olap.LoadIdempotent |

`Olap.LoadIdempotent` is proved for null-safe matching (`Matching.NullSafe`,
which is `IS NOT DISTINCT FROM`) on any staging data. Under SQL `=` it holds
only when no key column is NULL. The same defect applies to NULL URLs and
timestamps. It matters most for DIM_LOCATION, because zones are often
missing. `Olap.CategoryKeysDistinct` and `Olap.LocationKeysDistinct` show
that the code as written does keep those dimensions free of repeats when
nothing NULL is staged.

## Left out

- File and network I/O:
  - reading the raw CSVs and writing the CSV and Parquet outputs;
  - the artifact name built from `datetime.now()` (`etl/transform.py:152-163`);
  - Snowflake sessions and the loader;
  - Nominatim geocoding;
  - Selenium navigation and element lookups.

  A batch is a value, and element texts are parameters.
- Threads, locks and queues: `ThreadSafeCSVWriter`'s lock, the executor,
  the progress queue and `worker_thread`. Only the chunk split and the
  submit filter are modelled. Worker thread numbers (`i + 1`) are not kept.
- `write_batch`/`save_batch_to_csv`:
  - the choice between write and append mode;
  - whether a header line is written;
  - reading the existing header from the file.

  These depend on the file system. The existing header is a parameter.
  One consequence is not modelled: in append mode the rows are written
  under the new sorted union header, but the header line already in the
  file is not rewritten
  (`multi_thread_booking_scraper_backup.py:55`, `:66-73`). A batch that
  brings a new field therefore writes its cells in columns that no longer
  match the file's header line. This reading of the code is plausible but
  unverified.
- Transform.TransformBatches: a scraped row's `weightedAvg` is taken to be
  `None`. The model does not tie that field to the column labels. In the
  source, a batch that already has a `weighted_avg` column makes
  `insert` raise ValueError (`InsertAfter` on the labels), so a derived
  value never reaches the output. A row carrying `Some(_)` before
  derivation would still take part in the de-duplication with that value.
- `pd.to_datetime` at `etl/transform.py:30`: it turns every cell into a
  pandas `Timestamp`, so the numeric branch of `normalize_timestamp` is
  unreachable in the real pipeline. The helper is modelled on its own, and
  a formatted value is carried as its text.
- Floating point: scores, averages, coordinates and prices are exact
  `real`s.
  - NaN and infinity are not modelled. A zero count sum gives `None`, not
    NaN.
  - `float()` is a parameter `parse`.
  - Float millisecond timestamps are rounded to microseconds half-to-even,
    as Python does on exact values.
- Timestamps.NormalizeTimestamp: `ts / 1000` is a float division in
  Python, and `fromtimestamp` rounds that double. The model uses the exact
  quotient. From |ms| >= 2^33 * 1000 (after about 2242, before about 1698)
  the double can be more than half a microsecond off: 8589934592001 ms
  renders as `.000999` in Python and `.001000` in the model. Also, beyond
  about 6.7e19 ms Python raises OSError or OverflowError, where the model
  raises ValueError.
- Timestamps.NormalizeReadsBack: holds for the exact quotient only, so not
  for Python once |ms| >= 2^33 * 1000 (see the line above).
- Timestamps.FormatMicros: its only failure is ValueError; the OSError and
  OverflowError of very large values are not modelled.
- Transform.NormalizeRows: its failures are ValueError for the same
  reason.
- `unicodedata.normalize('NFKD', ...)` is a parameter of `CleanLatinText`.
- `Strings.Lower` folds ASCII and Latin-1 upper-case letters only.
  `str.lower` on other scripts is not modelled.
- Booking.CleanLatinText: the source's `if not text` also returns `None`
  unchanged; the model takes strings only, so only the empty string takes
  that branch.
- `str.isdigit` (`Threaded.PriceDigits`) and the regular expression class
  `\d` (`normalize_price`) are ASCII `0`-`9` only in the model. Python also
  accepts other digits: `isdigit` takes '²', and `\d` takes the
  Arabic-Indic digits. Such characters are not modelled.
- The order in which Snowflake returns DISTINCT and join rows is not
  specified. The model fixes one: first occurrence for DISTINCT, staging
  order then DIM_CATEGORY order for the join. Only the order statements
  (Merge.MergeAppends, Merge.MergeIntoEmpty) depend on this choice; the
  other lemmas are about which rows appear.
- Merge.Number: the ids are idealised as consecutive from the counter and
  increasing in insert order. Snowflake promises only that identity values
  are unique; a sequence may skip values, and a NOORDER one (the default)
  need not increase. Merge.MergeNumbering, Merge.MergeIntoEmpty and
  Olap.LoadNumbering inherit this; the uniqueness they imply is what the
  warehouse guarantees.
- DIM_DATE's day, month, year and weekday come from Snowflake built-ins.
  They are the parameter `parts`.
- Threaded.UrlBuilder: `date.today()` and tomorrow's date are the
  parameters `checkin` and `checkout`.
- Threaded.UrlBuilderParses requires that no value contains '&'. The
  source does not URL-encode values, so a destination containing '&'
  really would not split back.
- Threaded.PriceRange: the `except ValueError: continue` branch is not
  modelled. It is taken when `isdigit` admits a character that `int()`
  rejects, such as '²' in "120²": the source skips that price, the model
  keeps 120. With ASCII-only digits, as above, the branch cannot arise in
  the model.
- Threaded.ExtractCategory: the `WebDriverWait` lookup and the
  `except ... return None` around it are browser I/O. The model starts
  from the breadcrumb text.
- Transform.QualityFilter: the queries compare NaN as false, so a row with
  a missing score is dropped. The model has no NaN scores.
- `Threaded.Fieldnames`'s `sorted(...)` uses code-point order, which is
  the string order `StrLess`.
- scrap_reviews_backup.py, etl/etl_flow.py and etl/load2snowflake.py are
  not part of this model. They are Selenium scripts, orchestration and
  warehouse plumbing.

=== FILE: booking.dfy ===
/** The pure helpers of the single-threaded apartment scraper: the zone
    read off a geocoded address, the apartment classifier on a listing
    title, and the record checks and text clean-ups of `DataValidator`. */
module Booking {
  import opened Wrappers
  import opened Seqs
  import opened Strings

  // ---------------------------------------------------------------------
  // GeocodeService.extract_zone

  /** The comma-separated part names a district. */
  predicate NamesDistrict(part: string) {
    Contains(part, "Arrondissement") || Contains(part, "District")
  }

  /** A character that is neither a comma nor whitespace. */
  predicate NotCommaSpace(c: char) {
    c != ',' && NotSpace(c)
  }

  /** `[p.strip() for p in address.split(",")]`: one part more than there
      are commas, each part comma-free and stripped, and together the parts
      hold every character of the address other than commas and
      whitespace, in order. */
  function CommaParts(address: string): (parts: seq<string>)
    ensures |parts| == CountChar(address, ',') + 1
    ensures forall k :: 0 <= k < |parts| ==> IsTrimmed(parts[k]) && ',' !in parts[k]
    ensures FilterChars(Flatten(parts), NotSpace) == FilterChars(address, NotCommaSpace)
  {
    var pieces := Split(address, ",");
    var parts := seq(|pieces|, k requires 0 <= k < |pieces| => Strip(pieces[k]));
    SplitCount(address, ",");
    forall k | 0 <= k < |parts|
      ensures ',' !in parts[k]
      ensures FilterChars(pieces[k], NotCommaSpace) == FilterChars(parts[k], NotSpace)
    {
      StripChars(pieces[k]);
      FilterCharsSame(pieces[k], NotCommaSpace, NotSpace);
      StripKeeps(pieces[k]);
    }
    FlattenKeeps(pieces, parts, NotCommaSpace, NotSpace);
    JoinKeeps(pieces, ",", NotCommaSpace);
    parts
  }

  /** The zone the parts of an address name: the first part naming a
      district, prefixed by "<part before it> - " when the part before it
      is non-empty; "Unknown" when no part names one. */
  function DistrictZone(parts: seq<string>): string {
    var i := FindIndex(parts, NamesDistrict);
    if i == |parts| then "Unknown"
    else if i > 0 && parts[i - 1] != "" then parts[i - 1] + " - " + parts[i]
    else parts[i]
  }

  /** `extract_zone`: "Unknown" for a missing or empty address, otherwise
      the zone its comma-separated parts name. */
  function ExtractZone(address: Option<string>): (zone: string)
    ensures address.None? || address == Some("") ==> zone == "Unknown"
    ensures address.Some? && address.value != "" ==> zone == DistrictZone(CommaParts(address.value))
  {
    if address.None? || address.value == "" then "Unknown"
    else DistrictZone(CommaParts(address.value))
  }

  /** The zone in terms of the first district part, wherever it is. */
  lemma DistrictZoneSpec(parts: seq<string>, i: nat)
    requires i < |parts| && NamesDistrict(parts[i])
    requires forall j :: 0 <= j < i ==> !NamesDistrict(parts[j])
    ensures DistrictZone(parts) == if i > 0 && parts[i - 1] != "" then parts[i - 1] + " - " + parts[i] else parts[i]
  {
    var k := FindIndex(parts, NamesDistrict);
    assert k == i;
  }

  /** "Unknown" exactly when no part names a district: a district part never
      reads "Unknown", since it contains "Arrondissement" or "District" and
      "Unknown" contains neither. */
  lemma DistrictZoneUnknown(parts: seq<string>)
    ensures DistrictZone(parts) == "Unknown" <==> forall k :: 0 <= k < |parts| ==> !NamesDistrict(parts[k])
  {
    var i := FindIndex(parts, NamesDistrict);
    if i < |parts| {
      var z := DistrictZone(parts);
      if i > 0 && parts[i - 1] != "" {
        assert |z| > |"Unknown"|;
      } else {
        UnknownNamesNoDistrict();
      }
    }
  }

  lemma UnknownNamesNoDistrict()
    ensures !NamesDistrict("Unknown")
  {
  }

  // ---------------------------------------------------------------------
  // PropertyClassifier.is_apartment

  /** Title words that mark a listing as something other than an apartment. */
  const ExcludedKeywords: seq<string> := [
    "hotel", "hôtel", "riad", "villa", "palace", "resort", "lodge",
    "hostel", "auberge", "maison d'hôtes", "guest house", "boutique",
    "spa", "club", "camping", "dar ", "atelier", "pension"]

  /** Words that mark a listing as an apartment. */
  const ApartmentIndicators: seq<string> := [
    "apartment", "appartement", "studio", "flat", "appart",
    "logement", "residence", "résidence", "suite", "loft"]

  /** Some word of `words` occurs in `s`. */
  function ContainsAny(s: string, words: seq<string>): (b: bool)
    ensures b <==> exists k :: 0 <= k < |words| && Occurs(s, words[k])
  {
    if |words| == 0 then false
    else if Contains(s, words[0]) then true
    else
      var b := ContainsAny(s, words[1..]);
      assert forall k :: 1 <= k < |words| ==> words[k] == words[1..][k - 1];
      b
  }

  /** `is_apartment`: no excluded keyword in the lower-cased title, then an
      apartment indicator in the lower-cased title or page source. */
  function IsApartment(title: string, pageSource: string): (b: bool)
    ensures title == "" ==> !b
  {
    if title == "" then false
    else
      var t := Lower(title);
      if ContainsAny(t, ExcludedKeywords) then false
      else if ContainsAny(t, ApartmentIndicators) then true
      else if pageSource != "" then ContainsAny(Lower(pageSource), ApartmentIndicators)
      else false
  }

  /** The classifier as one condition, both directions. The page source can
      only add an indicator: it never overrides an excluded title word. */
  lemma IsApartmentSpec(title: string, pageSource: string)
    ensures IsApartment(title, pageSource) <==>
      && title != ""
      && (forall k :: 0 <= k < |ExcludedKeywords| ==> !Occurs(Lower(title), ExcludedKeywords[k]))
      && exists k :: 0 <= k < |ApartmentIndicators| &&
           (Occurs(Lower(title), ApartmentIndicators[k]) || Occurs(Lower(pageSource), ApartmentIndicators[k]))
  {
    if pageSource == "" {
      assert Lower(pageSource) == "";
    }
  }

  // ---------------------------------------------------------------------
  // DataValidator

  /** A scraped field value, with Python's truthiness. */
  datatype Value = NoneValue | Str(s: string) | Int(n: int) | Num(x: real)

  predicate Truthy(v: Value) {
    match v
    case NoneValue => false
    case Str(s) => s != ""
    case Int(n) => n != 0
    case Num(x) => x != 0.0
  }

  /** `data.get(key)`: `None` for an absent key. */
  function Get(data: map<string, Value>, key: string): Value {
    if key in data then data[key] else NoneValue
  }

  /** The fields of which a valid record needs at least one. */
  const RequiredFields: seq<string> := ["price_per_night", "address", "zone"]

  /** `validate_apartment_data`: a truthy title and at least one truthy
      required field. */
  function ValidateApartmentData(data: map<string, Value>): (ok: bool)
    ensures ok ==> "title" in data
  {
    if !Truthy(Get(data, "title")) then false
    else Truthy(Get(data, "price_per_night")) || Truthy(Get(data, "address")) || Truthy(Get(data, "zone"))
  }

  lemma ValidateApartmentDataSpec(data: map<string, Value>)
    ensures ValidateApartmentData(data) <==>
      Truthy(Get(data, "title")) && exists k :: 0 <= k < |RequiredFields| && Truthy(Get(data, RequiredFields[k]))
  {
    if Truthy(Get(data, "price_per_night")) {
      assert RequiredFields[0] == "price_per_night";
    }
    if Truthy(Get(data, "address")) {
      assert RequiredFields[1] == "address";
    }
    if Truthy(Get(data, "zone")) {
      assert RequiredFields[2] == "zone";
    }
  }

  /** Only the title and the three required fields are read: setting any
      other key leaves the verdict as it was. */
  lemma ValidateApartmentDataReads(data: map<string, Value>, key: string, v: Value)
    requires key != "title" && key !in RequiredFields
    ensures ValidateApartmentData(data[key := v]) == ValidateApartmentData(data)
  {
    assert RequiredFields == ["price_per_night", "address", "zone"];
    assert Get(data[key := v], "title") == Get(data, "title");
    assert Get(data[key := v], "price_per_night") == Get(data, "price_per_night");
    assert Get(data[key := v], "address") == Get(data, "address");
    assert Get(data[key := v], "zone") == Get(data, "zone");
  }

  /** `validate_coordinates`: both strings parse (`float()`, the parameter
      `parse`) and lie within [-90, 90] and [-180, 180]; otherwise
      `(None, None)`. */
  function ValidateCoordinates(lat: string, lng: string, parse: string -> Option<real>): (r: (Option<real>, Option<real>))
    ensures r.0.Some? <==> r.1.Some?
    ensures r.0.Some? ==> -90.0 <= r.0.value <= 90.0 && -180.0 <= r.1.value <= 180.0
  {
    match (parse(lat), parse(lng))
    case (Some(a), Some(b)) =>
      if -90.0 <= a <= 90.0 && -180.0 <= b <= 180.0 then (Some(a), Some(b)) else (None, None)
    case _ => (None, None)
  }

  /** The pair kept is the parsed pair, and it is rejected only when a
      string does not parse or a value is out of range. */
  lemma ValidateCoordinatesSpec(lat: string, lng: string, parse: string -> Option<real>)
    ensures ValidateCoordinates(lat, lng, parse).0.Some? <==>
      parse(lat).Some? && parse(lng).Some?
      && -90.0 <= parse(lat).value <= 90.0 && -180.0 <= parse(lng).value <= 180.0
    ensures ValidateCoordinates(lat, lng, parse).0.Some? ==>
      ValidateCoordinates(lat, lng, parse) == (parse(lat), parse(lng))
  {
  }

  /** The characters `normalize_price` keeps: `[\d.,]`. */
  predicate PriceChar(c: char) {
    IsDigit(c) || c == '.' || c == ','
  }

  /** The characters `replace(' ', '')` keeps. */
  predicate NotBlank(c: char) {
    c != ' '
  }

  predicate NotComma(c: char) {
    c != ','
  }

  /** `re.sub(r'[^\d.,]', '', text.replace(' ', ''))`: the digits and
      separators of the text, in order. */
  function PriceChars(text: string): (r: string)
    ensures forall k :: 0 <= k < |r| ==> PriceChar(r[k])
  {
    FilterChars(FilterChars(text, NotBlank), PriceChar)
  }

  /** The string `normalize_price` hands to `float()`: spaces removed, then
      everything but digits, '.' and ','; with both separators present the
      commas are thousands separators and go, with only commas present each
      is a decimal comma and becomes '.'. */
  function PriceText(text: string): (r: string)
    ensures forall k :: 0 <= k < |r| ==> IsDigit(r[k]) || r[k] == '.'
    ensures ',' !in r
  {
    var clean := PriceChars(text);
    if ',' in clean && '.' in clean then FilterChars(clean, NotComma)
    else if ',' in clean then ReplaceChar(clean, ',', '.')
    else clean
  }

  /** The two separator rules: with both ',' and '.' present the commas
      are deleted and the dots stay where they are; with commas only, each
      comma becomes a '.' in place; without commas nothing changes. */
  lemma PriceTextSeparators(text: string)
    ensures var clean, r := PriceChars(text), PriceText(text);
      && (',' in clean && '.' in clean ==> r == FilterChars(clean, NotComma))
      && (',' in clean && '.' !in clean ==>
            |r| == |clean| && forall k :: 0 <= k < |r| ==> r[k] == (if clean[k] == ',' then '.' else clean[k]))
      && (',' !in clean ==> r == clean)
  {
  }

  /** A thousands separator goes. */
  lemma PriceTextThousands()
    ensures PriceText("1,234.50") == "1234.50"
  {
    ThousandsCase("1,234.50");
  }

  /** The characters of "1,234.50", one by one. */
  predicate ThousandsSample(s: string)
  {
    && |s| == 8 && s[0] == '1' && s[1] == ',' && s[2] == '2' && s[3] == '3'
    && s[4] == '4' && s[5] == '.' && s[6] == '5' && s[7] == '0'
  }

  lemma ThousandsCase(s: string)
    requires ThousandsSample(s)
    ensures PriceText(s) == ['1', '2', '3', '4', '.', '5', '0']
  {
    ThousandsClean(s);
    BothSeparators(s);
    ThousandsDrop(s);
    ThousandsJoin(s);
  }

  lemma ThousandsDrop(s: string)
    requires ThousandsSample(s)
    ensures FilterChars(s, NotComma) == [s[0]] + s[2..]
  {
    CommaAtOne(s);
  }

  lemma ThousandsClean(s: string)
    requires ThousandsSample(s)
    ensures PriceChars(s) == s
  {
    PriceCharsAll(s);
  }

  lemma ThousandsJoin(s: string)
    requires ThousandsSample(s)
    ensures [s[0]] + s[2..] == ['1', '2', '3', '4', '.', '5', '0']
  {
  }

  /** Deleting the comma at index 1 of text that has no other comma. */
  lemma CommaAtOne(s: string)
    requires |s| > 1 && s[0] != ',' && s[1] == ',' && ',' !in s[2..]
    ensures FilterChars(s, NotComma) == [s[0]] + s[2..]
  {
    assert s == [s[0]] + [','] + s[2..];
    DropOneComma(s[0], s[2..]);
  }

  lemma BothSeparators(s: string)
    requires PriceChars(s) == s && |s| > 5 && s[1] == ',' && s[5] == '.'
    ensures PriceText(s) == FilterChars(s, NotComma)
  {
    assert s[1] in s && s[5] in s;
  }

  /** Text made of prices' characters only passes the first clean-up whole. */
  lemma PriceCharsAll(s: string)
    requires forall k :: 0 <= k < |s| ==> NotBlank(s[k]) && PriceChar(s[k])
    ensures PriceChars(s) == s
  {
    FilterCharsAll(s, NotBlank);
    FilterCharsAll(s, PriceChar);
  }

  lemma DropOneComma(x: char, tail: string)
    requires x != ',' && ',' !in tail
    ensures FilterChars([x] + [','] + tail, NotComma) == [x] + tail
  {
    assert [x] + [','] + tail == [x] + ([','] + tail);
    FilterCharsCons(x, [','] + tail, NotComma);
    FilterCharsCons(',', tail, NotComma);
    FilterCharsAll(tail, NotComma);
  }

  /** A decimal comma becomes a point. */
  lemma PriceTextDecimalComma()
    ensures PriceText("12,5") == "12.5"
  {
    DecimalCommaCase("12,5");
  }

  /** The characters of "12,5", one by one. */
  predicate DecimalSample(s: string) {
    |s| == 4 && s[0] == '1' && s[1] == '2' && s[2] == ',' && s[3] == '5'
  }

  lemma DecimalCommaCase(s: string)
    requires DecimalSample(s)
    ensures PriceText(s) == ['1', '2', '.', '5']
  {
    DecimalClean(s);
    CommaOnly(s);
    DecimalJoin(s);
  }

  lemma DecimalClean(s: string)
    requires DecimalSample(s)
    ensures PriceChars(s) == s && ',' in s && '.' !in s
  {
    PriceCharsAll(s);
    assert s[2] in s;
  }

  lemma CommaOnly(s: string)
    requires PriceChars(s) == s && ',' in s && '.' !in s
    ensures PriceText(s) == ReplaceChar(s, ',', '.')
  {
  }

  lemma DecimalJoin(s: string)
    requires DecimalSample(s)
    ensures ReplaceChar(s, ',', '.') == ['1', '2', '.', '5']
  {
  }

  /** The digits survive the clean-up unchanged and in order; only the
      separators are rewritten. */
  lemma PriceTextDigits(text: string)
    ensures FilterChars(PriceText(text), IsDigit) == FilterChars(text, IsDigit)
  {
    var noSpace := FilterChars(text, NotBlank);
    var clean := FilterChars(noSpace, PriceChar);
    FilterCharsDigits(text, NotBlank);
    FilterCharsDigits(noSpace, PriceChar);
    if ',' in clean && '.' in clean {
      FilterCharsDigits(clean, NotComma);
    } else if ',' in clean {
      ReplaceCommaDigits(clean);
    }
  }

  /** A character filter that keeps every digit keeps the digit sequence. */
  lemma {:induction false} FilterCharsDigits(s: string, keep: char -> bool)
    requires forall c :: IsDigit(c) ==> keep(c)
    ensures FilterChars(FilterChars(s, keep), IsDigit) == FilterChars(s, IsDigit)
  {
    if |s| > 0 {
      FilterCharsDigits(s[1..], keep);
      var rest := FilterChars(s[1..], keep);
      if keep(s[0]) {
        assert ([s[0]] + rest)[1..] == rest;
      }
    }
  }

  lemma {:induction false} ReplaceCommaDigits(s: string)
    ensures FilterChars(ReplaceChar(s, ',', '.'), IsDigit) == FilterChars(s, IsDigit)
  {
    if |s| > 0 {
      ReplaceCommaDigits(s[1..]);
      assert ReplaceChar(s, ',', '.')[1..] == ReplaceChar(s[1..], ',', '.');
    }
  }

  /** Only digits and '.'. */
  predicate PriceClean(s: string) {
    forall k :: 0 <= k < |s| ==> IsDigit(s[k]) || s[k] == '.'
  }

  /** `normalize_price`: `None` for an empty text or a clean-up `float()`
      (the parameter `parse`) rejects. `float()` only ever sees digits and
      '.', holding the input's digits in their order. */
  function NormalizePrice(text: string, parse: string -> Option<real>): (r: Option<real>)
    ensures text == "" ==> r.None?
    ensures text != "" ==> exists clean ::
      PriceClean(clean) && FilterChars(clean, IsDigit) == FilterChars(text, IsDigit) && r == parse(clean)
  {
    if text == "" then None
    else
      PriceTextDigits(text);
      parse(PriceText(text))
  }

  /** A price text that is already clean reaches `float()` as it is. */
  lemma NormalizePriceClean(text: string, parse: string -> Option<real>)
    requires text != "" && PriceClean(text)
    ensures NormalizePrice(text, parse) == parse(text)
  {
    FilterCharsAll(text, NotBlank);
    FilterCharsAll(text, PriceChar);
  }

  /** The characters `clean_latin_text` keeps:
      `[a-zA-Z0-9À-ÖØ-öø-ÿ \-',.]`. */
  predicate LatinChar(c: char) {
    || ('a' <= c <= 'z') || ('A' <= c <= 'Z') || ('0' <= c <= '9')
    || ('À' <= c <= 'Ö') || ('Ø' <= c <= 'ö') || ('ø' <= c <= 'ÿ')
    || c == ' ' || c == '-' || c == '\'' || c == ',' || c == '.'
  }

  /** No two adjacent whitespace characters. */
  predicate SingleSpaced(s: string) {
    forall k :: 0 <= k < |s| - 1 ==> !(IsSpace(s[k]) && IsSpace(s[k + 1]))
  }

  /** `re.sub(r'\s+', ' ', s)`: every run of whitespace becomes one space.
      The recursion is `Collapse`; this function carries its contract. */
  function CollapseSpaces(s: string): (r: string)
    ensures SingleSpaced(r)
    ensures |r| > 0 && IsSpace(r[0]) ==> |s| > 0 && IsSpace(s[0])
    ensures forall k :: 0 <= k < |r| ==> r[k] == ' ' || (!IsSpace(r[k]) && r[k] in s)
  {
    CollapseShape(s);
    Collapse(s)
  }

  /** A whitespace run at the front becomes one ' '; any other character
      is kept. */
  function Collapse(s: string): string
    decreases |s|
  {
    if |s| == 0 then ""
    else if IsSpace(s[0]) then
      var t := TrimLeft(s);
      assert |t| < |s|;
      [' '] + Collapse(t)
    else [s[0]] + Collapse(s[1..])
  }

  lemma {:induction false} CollapseShape(s: string)
    ensures var r := Collapse(s);
      && SingleSpaced(r)
      && (|r| > 0 && IsSpace(r[0]) ==> |s| > 0 && IsSpace(s[0]))
      && (forall k :: 0 <= k < |r| ==> r[k] == ' ' || (!IsSpace(r[k]) && r[k] in s))
    decreases |s|
  {
    if |s| > 0 {
      if IsSpace(s[0]) {
        var t := TrimLeft(s);
        CollapseShape(t);
        var c := Collapse(t);
        assert forall k :: 0 <= k < |c| && c[k] in t ==> c[k] in s;
        assert forall k :: 0 < k < |c| + 1 ==> ([' '] + c)[k] == c[k - 1];
      } else {
        CollapseShape(s[1..]);
        var c := Collapse(s[1..]);
        assert forall k :: 0 < k < |c| + 1 ==> ([s[0]] + c)[k] == c[k - 1];
      }
    }
  }

  /** The collapse keeps every character that is not whitespace, in order:
      it only rewrites the whitespace runs. */
  lemma {:induction false} CollapseKeeps(s: string)
    ensures FilterChars(CollapseSpaces(s), NotSpace) == FilterChars(s, NotSpace)
    decreases |s|
  {
    if |s| > 0 {
      if IsSpace(s[0]) {
        var t := TrimLeft(s);
        CollapseKeeps(t);
        CollapseKeepsSpace(s, CollapseSpaces(t));
      } else {
        CollapseKeeps(s[1..]);
        CollapseKeepsOther(s, CollapseSpaces(s[1..]));
      }
    }
  }

  lemma CollapseKeepsSpace(s: string, c: string)
    requires FilterChars(c, NotSpace) == FilterChars(TrimLeft(s), NotSpace)
    ensures FilterChars([' '] + c, NotSpace) == FilterChars(s, NotSpace)
  {
    TrimLeftKeeps(s);
    FilterCharsCons(' ', c, NotSpace);
  }

  lemma CollapseKeepsOther(s: string, c: string)
    requires |s| > 0 && FilterChars(c, NotSpace) == FilterChars(s[1..], NotSpace)
    ensures FilterChars([s[0]] + c, NotSpace) == FilterChars(s, NotSpace)
  {
    FilterCharsCons(s[0], c, NotSpace);
    FilterCharsCons(s[0], s[1..], NotSpace);
    assert [s[0]] + s[1..] == s;
  }

  /** The whitespace run `w` between `a` and `b` becomes exactly one ' ',
      and the text on either side is collapsed on its own. */
  lemma CollapseRun(a: string, w: string, b: string)
    requires |w| > 0 && AllSpace(w)
    requires |a| == 0 || !IsSpace(a[|a| - 1])
    requires |b| == 0 || !IsSpace(b[0])
    ensures CollapseSpaces(a + w + b) == CollapseSpaces(a) + " " + CollapseSpaces(b)
  {
    RunCollapses(a, w, b);
    Regroup3(a, w, b);
  }

  lemma {:induction false} RunCollapses(a: string, w: string, b: string)
    requires |w| > 0 && AllSpace(w)
    requires |a| == 0 || !IsSpace(a[|a| - 1])
    requires |b| == 0 || !IsSpace(b[0])
    ensures Collapse(a + (w + b)) == Collapse(a) + " " + Collapse(b)
    decreases |a|
  {
    if |a| == 0 {
      RunAtFront(a, w, b);
    } else if IsSpace(a[0]) {
      var t := TrimLeft(a);
      TrimLeftConcat(a, w + b);
      RunCollapses(t, w, b);
      RunAfterSpace(a, w + b, t, Collapse(b));
    } else {
      RunCollapses(a[1..], w, b);
      RunAfterChar(a, w + b, Collapse(b));
    }
  }

  lemma RunAtFront(a: string, w: string, b: string)
    requires |a| == 0 && |w| > 0 && AllSpace(w)
    requires |b| == 0 || !IsSpace(b[0])
    ensures Collapse(a + (w + b)) == Collapse(a) + " " + Collapse(b)
  {
    ConcatTail(w, b);
    EmptyConcat(a, w + b);
    EmptyConcat(Collapse(a), " ");
    TrimLeftSpaces(w, b);
  }

  /** The step of `RunCollapses` past leading whitespace of `a`. */
  lemma RunAfterSpace(a: string, x: string, t: string, cb: string)
    requires |a| > 0 && IsSpace(a[0]) && t == TrimLeft(a) && TrimLeft(a + x) == t + x
    requires Collapse(t + x) == Collapse(t) + " " + cb
    ensures Collapse(a + x) == Collapse(a) + " " + cb
  {
    ConcatTail(a, x);
    Regroup([' '], Collapse(t), " ", cb);
  }

  /** The step of `RunCollapses` past a first character of `a` that is not
      whitespace. */
  lemma RunAfterChar(a: string, x: string, cb: string)
    requires |a| > 0 && !IsSpace(a[0])
    requires Collapse(a[1..] + x) == Collapse(a[1..]) + " " + cb
    ensures Collapse(a + x) == Collapse(a) + " " + cb
  {
    ConcatTail(a, x);
    Regroup([a[0]], Collapse(a[1..]), " ", cb);
  }

  /** A run of characters other than whitespace passes through the
      collapse unchanged. */
  lemma {:induction false} WordCollapses(w: string, rest: string)
    requires forall j :: 0 <= j < |w| ==> NotSpace(w[j])
    ensures Collapse(w + rest) == w + Collapse(rest)
    decreases |w|
  {
    if |w| > 0 {
      ConcatTail(w, rest);
      WordCollapses(w[1..], rest);
      ConsHead(w, Collapse(rest));
    } else {
      assert w + rest == rest;
    }
  }

  /** " " when `s` ends in whitespace, "" otherwise. */
  function TrailingSpace(s: string): (r: string)
    ensures AllSpace(r)
  {
    if |s| > 0 && IsSpace(s[|s| - 1]) then OneSpace() else ""
  }

  /** The one-space string. */
  function OneSpace(): (r: string)
    ensures r == " " && AllSpace(r)
  {
    assert " "[0] == ' ';
    " "
  }

  /** Collapsing text that does not start with whitespace gives its words
      joined by single spaces, followed by one space when it ends in
      whitespace. */
  lemma {:induction false} WordsCollapse(s: string)
    requires |s| == 0 || !IsSpace(s[0])
    ensures Collapse(s) == Join(Words(s), " ") + TrailingSpace(s)
    decreases |s|, 1
  {
    if |s| > 0 {
      var n := FindIndex(s, IsSpace);
      FirstWord(s, n);
      var w, rest := s[..n], s[n..];
      if |rest| == 0 {
        LastWordCollapses(s, w, rest);
      } else {
        RestCollapses(s, w, rest);
      }
    }
  }

  /** `WordsCollapse` past a first word that whitespace follows. */
  lemma {:induction false} RestCollapses(s: string, w: string, rest: string)
    requires IsWord(w) && s == w + rest && |rest| > 0 && IsSpace(rest[0])
    requires Words(s) == [w] + Words(rest) && Collapse(s) == w + Collapse(rest)
    ensures Collapse(s) == Join(Words(s), " ") + TrailingSpace(s)
    decreases |s|, 0
  {
    var t := TrimLeft(rest);
    if |t| > 0 {
      WordsCollapse(t);
      MoreWordsCollapse(s, w, rest, t);
    } else {
      TrailingRunCollapses(s, w, rest);
    }
  }

  /** The first word of text that does not start with whitespace: it heads
      the words and passes through the collapse. */
  lemma FirstWord(s: string, n: nat)
    requires |s| > 0 && !IsSpace(s[0]) && n == FindIndex(s, IsSpace)
    ensures 0 < n <= |s| && IsWord(s[..n]) && s == s[..n] + s[n..]
    ensures n < |s| ==> IsSpace(s[n])
    ensures Words(s) == [s[..n]] + Words(s[n..])
    ensures Collapse(s) == s[..n] + Collapse(s[n..])
  {
    WordPrefix(s, n);
    SplitAt(s, n);
    assert TrimLeft(s) == s;
    WordCollapses(s[..n], s[n..]);
  }

  /** `WordsCollapse` when the text is a single word. */
  lemma LastWordCollapses(s: string, w: string, rest: string)
    requires IsWord(w) && s == w + rest && |rest| == 0
    requires Words(s) == [w] + Words(rest) && Collapse(s) == w + Collapse(rest)
    ensures Collapse(s) == Join(Words(s), " ") + TrailingSpace(s)
  {
    assert rest == "" && Collapse(rest) == "" && Words(rest) == [];
    LastWord(s, w);
  }

  lemma LastWord(s: string, w: string)
    requires IsWord(w) && s == w + ""
    ensures w + "" == Join([w] + [], " ") + TrailingSpace(s)
  {
    ConsRest(w, []);
    EmptyConcat("", w);
    LastOfSuffix(s, w);
  }

  /** `WordsCollapse` when the first word is followed by whitespace only. */
  lemma TrailingRunCollapses(s: string, w: string, rest: string)
    requires IsWord(w) && s == w + rest && |rest| > 0 && IsSpace(rest[0]) && TrimLeft(rest) == ""
    requires Words(s) == [w] + Words(rest) && Collapse(s) == w + Collapse(rest)
    ensures Collapse(s) == Join(Words(s), " ") + TrailingSpace(s)
  {
    WordsTrimLeft(rest);
    assert Collapse(rest) == " ";
    ConsRest(w, []);
    SpaceTail(s, rest);
  }

  /** `WordsCollapse` when more words follow the first. */
  lemma MoreWordsCollapse(s: string, w: string, rest: string, t: string)
    requires IsWord(w) && s == w + rest && |rest| > 0 && IsSpace(rest[0])
    requires t == TrimLeft(rest) && |t| > 0
    requires Words(s) == [w] + Words(rest) && Collapse(s) == w + Collapse(rest)
    requires Collapse(t) == Join(Words(t), " ") + TrailingSpace(t)
    ensures Collapse(s) == Join(Words(s), " ") + TrailingSpace(s)
  {
    WordsTrimLeft(rest);
    SpaceFront(rest);
    WordsAfter(s, w, rest, t);
    Assemble(w, Collapse(rest), Join(Words(t), " "), TrailingSpace(t));
  }

  /** Leading whitespace collapses to one ' '. */
  lemma SpaceFront(s: string)
    requires |s| > 0 && IsSpace(s[0])
    ensures Collapse(s) == " " + Collapse(TrimLeft(s))
  {
  }

  /** The pieces of `WordsCollapse` put back together. */
  lemma Assemble(w: string, c: string, j: string, tail: string)
    requires c == " " + (j + tail)
    ensures w + c == w + " " + j + tail
  {
    Regroup(w, " ", j, tail);
  }

  /** The step of `WordsCollapse` past the first word. */
  lemma WordsAfter(s: string, w: string, rest: string, t: string)
    requires s == w + rest && 0 < |t| <= |rest| && t == rest[|rest| - |t|..] && !IsSpace(t[0])
    ensures TrailingSpace(t) == TrailingSpace(s)
    ensures |Words(t)| > 0
    ensures Join([w] + Words(t), " ") == w + " " + Join(Words(t), " ")
  {
    SuffixOfSuffix(w, rest, t);
    LastOfSuffix(s, t);
    WordsNonEmpty(t);
    JoinCons(w, Words(t), " ");
  }

  /** Text that starts with a character other than whitespace has a word. */
  lemma WordsNonEmpty(t: string)
    requires |t| > 0 && !IsSpace(t[0])
    ensures |Words(t)| > 0
  {
    assert TrimLeft(t) == t;
  }

  /** Text ending in a whitespace-only remainder ends in whitespace. */
  lemma SpaceTail(s: string, rest: string)
    requires 0 < |rest| <= |s| && rest == s[|s| - |rest|..] && AllSpace(rest[..|rest| - 0])
    ensures TrailingSpace(s) == " "
  {
    assert rest[..|rest|] == rest;
    assert s[|s| - 1] == rest[|rest| - 1];
  }

  /** `re.sub(r'\s+', ' ', s).strip()` is `' '.join(s.split())`: the words
      of `s` separated by single spaces. */
  lemma StripCollapse(s: string)
    ensures Strip(CollapseSpaces(s)) == Join(Words(s), " ")
  {
    StripCollapses(s);
  }

  lemma StripCollapses(s: string)
    ensures Strip(Collapse(s)) == Join(Words(s), " ")
  {
    var t := TrimLeft(s);
    WordsTrimLeft(s);
    WordsCollapse(t);
    JoinWordsTrimmed(Words(t));
    var lead := LeadCollapse(s);
    StripAssemble(Collapse(s), lead, Join(Words(t), " "), TrailingSpace(t));
  }

  /** `strip()` of the pieces of `StripCollapses` put back together. */
  lemma StripAssemble(c: string, lead: string, j: string, tail: string)
    requires c == lead + (j + tail)
    requires AllSpace(lead) && AllSpace(tail) && IsTrimmed(j)
    ensures Strip(c) == j
  {
    Regroup3(lead, j, tail);
    StripAround(lead, j, tail);
  }

  /** The collapse of leading whitespace: one ' ', or nothing. */
  lemma LeadCollapse(s: string) returns (lead: string)
    ensures AllSpace(lead)
    ensures Collapse(s) == lead + Collapse(TrimLeft(s))
  {
    if |s| > 0 && IsSpace(s[0]) {
      lead := " ";
    } else {
      lead := "";
      EmptyConcat(lead, Collapse(s));
    }
  }

  /** Text with only single ' ' as whitespace is left alone by the collapse. */
  lemma {:induction false} CollapseFixed(s: string)
    requires SingleSpaced(s)
    requires forall k :: 0 <= k < |s| ==> IsSpace(s[k]) ==> s[k] == ' '
    ensures CollapseSpaces(s) == s
  {
    if |s| > 0 {
      CollapseFixed(s[1..]);
      if IsSpace(s[0]) {
        assert TrimLeft(s) == TrimLeft(s[1..]);
        assert |s| == 1 || !IsSpace(s[1]);
        assert TrimLeft(s[1..]) == s[1..];
      }
    }
  }

  /** The tidied text is the words of the kept characters, separated by
      single spaces. */
  lemma TidyLatinWords(s: string)
    ensures TidyLatin(s) == Join(Words(FilterChars(s, LatinChar)), " ")
  {
    StripCollapse(FilterChars(s, LatinChar));
  }

  /** A kept character other than whitespace. */
  predicate LatinVisible(c: char) {
    LatinChar(c) && !IsSpace(c)
  }

  /** The clean-up after normalisation: filter, collapse, strip. Every kept
      character other than whitespace survives, in order; only the
      whitespace is rearranged. */
  function TidyLatin(s: string): (r: string)
    ensures FilterChars(r, NotSpace) == FilterChars(s, LatinVisible)
  {
    var kept := FilterChars(s, LatinChar);
    CollapseKeeps(kept);
    StripKeeps(CollapseSpaces(kept));
    FilterCharsTwice(s, LatinChar, NotSpace, LatinVisible);
    Strip(CollapseSpaces(kept))
  }

  /** Text whose characters are all kept and whose only whitespace is
      single spaces. */
  predicate LatinSpaced(s: string) {
    && (forall k :: 0 <= k < |s| ==> LatinChar(s[k]) && (IsSpace(s[k]) ==> s[k] == ' '))
    && SingleSpaced(s)
  }

  /** The tidied text holds only kept characters, has no whitespace at
      either end, and has no whitespace but single spaces. */
  lemma TidyLatinShape(s: string)
    ensures IsTrimmed(TidyLatin(s)) && LatinSpaced(TidyLatin(s))
  {
    var kept := FilterChars(s, LatinChar);
    CollapseLatin(kept);
    StripLatin(CollapseSpaces(kept));
  }

  lemma CollapseLatin(s: string)
    requires forall k :: 0 <= k < |s| ==> LatinChar(s[k])
    ensures LatinSpaced(CollapseSpaces(s))
  {
  }

  lemma StripLatin(s: string)
    requires LatinSpaced(s)
    ensures LatinSpaced(Strip(s))
  {
    var i, j := StripInfix(s);
    LatinSpacedInfix(s, i, j);
  }

  /** `strip()` returns a contiguous piece of its input. */
  lemma StripInfix(s: string) returns (i: int, j: int)
    ensures 0 <= i <= j <= |s| && Strip(s) == s[i..j]
  {
    i := |s| - |TrimLeft(s)|;
    j := i + |Strip(s)|;
    assert SpaceBounded(s, Strip(s), i);
  }

  /** Every infix of single-spaced Latin text is single-spaced Latin text. */
  lemma LatinSpacedInfix(s: string, i: int, j: int)
    requires LatinSpaced(s) && 0 <= i <= j <= |s|
    ensures LatinSpaced(s[i..j])
  {
    var r := s[i..j];
    forall k | 0 <= k < |r| ensures LatinChar(r[k]) && (IsSpace(r[k]) ==> r[k] == ' ') {
      assert r[k] == s[i + k];
    }
    forall k | 0 <= k < |r| - 1 ensures !(IsSpace(r[k]) && IsSpace(r[k + 1])) {
      assert r[k] == s[i + k] && r[k + 1] == s[i + k + 1];
    }
  }

  /** The clean-up is idempotent. */
  lemma TidyLatinIdempotent(s: string)
    ensures TidyLatin(TidyLatin(s)) == TidyLatin(s)
  {
    var r := TidyLatin(s);
    TidyLatinShape(s);
    FilterCharsAll(r, LatinChar);
    CollapseFixed(r);
    StripTrimmed(r);
  }

  /** `clean_latin_text`: empty text is returned as it is; otherwise the
      Unicode NFKD decomposition (the parameter `nfkd`) is tidied. */
  function CleanLatinText(text: string, nfkd: string -> string): (r: string)
    ensures text == "" ==> r == ""
    ensures IsTrimmed(r) && LatinSpaced(r)
    ensures text != "" ==> FilterChars(r, NotSpace) == FilterChars(nfkd(text), LatinVisible)
    ensures text != "" ==> r == Join(Words(FilterChars(nfkd(text), LatinChar)), " ")
  {
    if text == "" then text
    else
      TidyLatinShape(nfkd(text));
      TidyLatinWords(nfkd(text));
      TidyLatin(nfkd(text))
  }
}

=== FILE: merge.dfy ===
/** The warehouse load's one statement shape, `MERGE INTO target USING
    source ON <key match> WHEN NOT MATCHED THEN INSERT (...)`, on a table
    with an `IDENTITY(1,1)` surrogate key. Every source row is checked
    against the target as it was before the statement; the rows that match
    nothing are appended, numbered by the identity counter. */
module Merge {
  import opened Seqs

  /** A cell value as SQL sees it. */
  datatype SqlValue = Null | Text(text: string) | Number(number: real)

  /** How the `ON` clause compares key columns: SQL `=` (under which a NULL
      never matches anything, not even another NULL) or the null-safe
      comparison (`IS NOT DISTINCT FROM`). */
  datatype Matching = SqlEquality | NullSafe

  predicate ValueMatches(m: Matching, a: SqlValue, b: SqlValue) {
    match m
    case SqlEquality => a != Null && b != Null && a == b
    case NullSafe => a == b
  }

  /** The `ON` clause: every key column matches. */
  predicate KeyMatches(m: Matching, a: seq<SqlValue>, b: seq<SqlValue>) {
    |a| == |b| && forall i :: 0 <= i < |a| ==> ValueMatches(m, a[i], b[i])
  }

  /** No key column is NULL. */
  predicate NullFree(k: seq<SqlValue>) {
    forall i :: 0 <= i < |k| ==> k[i] != Null
  }

  /** Both comparisons agree with plain equality on NULL-free keys, and
      SQL `=` never matches a key with a NULL in it. */
  lemma KeyMatchesSpec(m: Matching, a: seq<SqlValue>, b: seq<SqlValue>)
    ensures NullFree(a) ==> (KeyMatches(m, a, b) <==> a == b)
    ensures m.NullSafe? ==> (KeyMatches(m, a, b) <==> a == b)
    ensures m.SqlEquality? && !NullFree(a) ==> !KeyMatches(m, a, b)
    ensures KeyMatches(m, a, b) ==> a == b
  {
    if |a| == |b| && (forall i :: 0 <= i < |a| ==> a[i] == b[i]) {
      assert a == b;
    }
  }

  /** A stored row: its surrogate id and its columns. */
  datatype Entry<R> = Entry(id: int, rec: R)

  /** A table with an identity column: its rows in insertion order and the
      next id the counter will hand out. */
  datatype Table<R> = Table(entries: seq<Entry<R>>, nextId: int)

  /** `CREATE TABLE ... (id INT IDENTITY(1,1), ...)`: empty, counting from 1. */
  function EmptyTable<R>(): (t: Table<R>)
    ensures |t.entries| == 0 && t.nextId == 1
  {
    Table([], 1)
  }

  /** Ids increase along the table and stay below the counter. */
  predicate WellNumbered<R>(t: Table<R>) {
    && (forall i, j :: 0 <= i < j < |t.entries| ==> t.entries[i].id < t.entries[j].id)
    && (forall i :: 0 <= i < |t.entries| ==> t.entries[i].id < t.nextId)
  }

  /** Some stored row's key matches the key of `x`. */
  predicate Matched<R>(t: Table<R>, key: R -> seq<SqlValue>, m: Matching, x: R) {
    exists k :: 0 <= k < |t.entries| && KeyMatches(m, key(t.entries[k].rec), key(x))
  }

  /** The identity counter at work: the records keep their order, and each
      gets its own id, at least `first` and below `first + |recs|`, the ids
      increasing along the sequence. */
  function Number<R>(recs: seq<R>, first: int): (r: seq<Entry<R>>)
    ensures |r| == |recs|
    ensures forall k :: 0 <= k < |r| ==> r[k].rec == recs[k]
    ensures forall k :: 0 <= k < |r| ==> first <= r[k].id < first + |recs|
    ensures forall i, j :: 0 <= i < j < |r| ==> r[i].id < r[j].id
  {
    seq(|recs|, k requires 0 <= k < |recs| => Entry(first + k, recs[k]))
  }

  /** The source rows the statement inserts: those matching no target row. */
  function Unmatched<R>(t: Table<R>, source: seq<R>, key: R -> seq<SqlValue>, m: Matching): (r: seq<R>)
    ensures forall k :: 0 <= k < |r| ==> r[k] in source && !Matched(t, key, m, r[k])
    ensures forall k :: 0 <= k < |source| && !Matched(t, key, m, source[k]) ==> source[k] in r
  {
    FilterIndexed(source, x => !Matched(t, key, m, x));
    Filter(source, x => !Matched(t, key, m, x))
  }

  /** `MERGE ... WHEN NOT MATCHED THEN INSERT`. */
  function MergeInsert<R>(t: Table<R>, source: seq<R>, key: R -> seq<SqlValue>, m: Matching): (r: Table<R>)
    ensures t.entries <= r.entries
    ensures r.nextId == t.nextId + (|r.entries| - |t.entries|)
  {
    var added := Unmatched(t, source, key, m);
    Table(t.entries + Number(added, t.nextId), t.nextId + |added|)
  }

  /** Append-only: the rows already stored stay, unchanged and in place; the
      rows added are exactly the unmatched source rows, in source order. */
  lemma MergeAppends<R>(t: Table<R>, source: seq<R>, key: R -> seq<SqlValue>, m: Matching)
    ensures var r := MergeInsert(t, source, key, m);
      && r.entries[..|t.entries|] == t.entries
      && forall k :: 0 <= k < |r.entries| - |t.entries| ==>
           r.entries[|t.entries| + k].rec == Unmatched(t, source, key, m)[k]
  {
  }

  /** The identity counter hands out new ids, larger than every id already
      stored. */
  lemma MergeNumbering<R>(t: Table<R>, source: seq<R>, key: R -> seq<SqlValue>, m: Matching)
    requires WellNumbered(t)
    ensures var r := MergeInsert(t, source, key, m);
      && WellNumbered(r)
      && forall i, j :: 0 <= i < |t.entries| <= j < |r.entries| ==> r.entries[i].id < r.entries[j].id
  {
  }

  /** Coverage: after the statement every source row has a match in the
      target, except (under SQL `=`) rows whose key has a NULL. */
  lemma MergeCovers<R>(t: Table<R>, source: seq<R>, key: R -> seq<SqlValue>, m: Matching, x: R)
    requires x in source
    requires m.NullSafe? || NullFree(key(x))
    ensures Matched(MergeInsert(t, source, key, m), key, m, x)
  {
    var r := MergeInsert(t, source, key, m);
    KeyMatchesSpec(m, key(x), key(x));
    if !Matched(t, key, m, x) {
      var added := Unmatched(t, source, key, m);
      FilterMembers(source, y => !Matched(t, key, m, y));
      var k :| 0 <= k < |added| && added[k] == x;
      assert r.entries[|t.entries| + k].rec == x;
    } else {
      var k :| 0 <= k < |t.entries| && KeyMatches(m, key(t.entries[k].rec), key(x));
      assert r.entries[k] == t.entries[k];
    }
  }

  /** Rows that are all matched are not inserted: the merge changes nothing. */
  lemma MergeNothingNew<R>(t: Table<R>, source: seq<R>, key: R -> seq<SqlValue>, m: Matching)
    requires forall x :: x in source ==> Matched(t, key, m, x)
    ensures MergeInsert(t, source, key, m) == t
  {
    var added := Unmatched(t, source, key, m);
    assert forall k :: 0 <= k < |source| ==> source[k] in source;
    FilterNone(source, x => !Matched(t, key, m, x));
    assert t.entries + Number(added, t.nextId) == t.entries;
  }

  /** Idempotence: running the same statement again adds nothing, provided
      every source key is free of NULLs or the comparison is null-safe. */
  lemma MergeIdempotent<R>(t: Table<R>, source: seq<R>, key: R -> seq<SqlValue>, m: Matching)
    requires m.NullSafe? || forall x :: x in source ==> NullFree(key(x))
    ensures MergeInsert(MergeInsert(t, source, key, m), source, key, m) == MergeInsert(t, source, key, m)
  {
    var once := MergeInsert(t, source, key, m);
    forall x | x in source ensures Matched(once, key, m, x) {
      MergeCovers(t, source, key, m, x);
    }
    MergeNothingNew(once, source, key, m);
  }

  /** Under SQL `=`, a source row with a NULL in its key matches nothing, so
      every run of the statement inserts it once more. */
  lemma MergeReinsertsNullKeys<R>(t: Table<R>, source: seq<R>, key: R -> seq<SqlValue>, x: R)
    requires x in source && !NullFree(key(x))
    ensures var r := MergeInsert(t, source, key, SqlEquality);
      |r.entries| > |t.entries| && exists k :: |t.entries| <= k < |r.entries| && r.entries[k].rec == x
  {
    var r := MergeInsert(t, source, key, SqlEquality);
    assert !Matched(t, key, SqlEquality, x) by {
      forall k | 0 <= k < |t.entries| ensures !KeyMatches(SqlEquality, key(t.entries[k].rec), key(x)) {
        KeyMatchesSpec(SqlEquality, key(x), key(t.entries[k].rec));
      }
    }
    var added := Unmatched(t, source, key, SqlEquality);
    FilterMembers(source, y => !Matched(t, key, SqlEquality, y));
    var k :| 0 <= k < |added| && added[k] == x;
    assert r.entries[|t.entries| + k].rec == x;
  }

  /** No two stored rows have matching keys. */
  predicate KeyUnique<R>(t: Table<R>, key: R -> seq<SqlValue>, m: Matching) {
    forall i, j :: 0 <= i < j < |t.entries| ==> !KeyMatches(m, key(t.entries[i].rec), key(t.entries[j].rec))
  }

  /** No two source rows have matching keys. */
  predicate SourceKeyUnique<R>(source: seq<R>, key: R -> seq<SqlValue>, m: Matching) {
    forall i, j :: 0 <= i < j < |source| ==> !KeyMatches(m, key(source[i]), key(source[j]))
  }

  lemma KeyMatchesSymmetric(m: Matching, a: seq<SqlValue>, b: seq<SqlValue>)
    ensures KeyMatches(m, a, b) == KeyMatches(m, b, a)
  {
  }

  /** Key uniqueness survives a merge whose source has unique keys. */
  lemma MergeKeepsKeysUnique<R>(t: Table<R>, source: seq<R>, key: R -> seq<SqlValue>, m: Matching)
    requires KeyUnique(t, key, m) && SourceKeyUnique(source, key, m)
    ensures KeyUnique(MergeInsert(t, source, key, m), key, m)
  {
    var r := MergeInsert(t, source, key, m);
    var added := Unmatched(t, source, key, m);
    UnmatchedKeyUnique(source, key, m, x => !Matched(t, key, m, x));
    FilterPreserves(source, x => !Matched(t, key, m, x), x => true);
    var n := |t.entries|;
    forall i, j | 0 <= i < j < |r.entries|
      ensures !KeyMatches(m, key(r.entries[i].rec), key(r.entries[j].rec))
    {
      if j >= n && i < n {
        var x := added[j - n];
        assert r.entries[j].rec == x && r.entries[i] == t.entries[i];
        assert !Matched(t, key, m, x);
        KeyMatchesSymmetric(m, key(t.entries[i].rec), key(x));
      } else if i >= n {
        assert r.entries[i].rec == added[i - n] && r.entries[j].rec == added[j - n];
      } else {
        assert r.entries[i] == t.entries[i] && r.entries[j] == t.entries[j];
      }
    }
  }

  /** Filtering a source with unique keys leaves a source with unique keys. */
  lemma {:induction false} UnmatchedKeyUnique<R>(source: seq<R>, key: R -> seq<SqlValue>, m: Matching, p: R -> bool)
    requires SourceKeyUnique(source, key, m)
    ensures SourceKeyUnique(Filter(source, p), key, m)
  {
    if |source| > 0 {
      var rest := source[1..];
      assert SourceKeyUnique(rest, key, m) by {
        forall i, j | 0 <= i < j < |rest| ensures !KeyMatches(m, key(rest[i]), key(rest[j])) {
          assert rest[i] == source[i + 1] && rest[j] == source[j + 1];
        }
      }
      UnmatchedKeyUnique(rest, key, m, p);
      var f := Filter(rest, p);
      if p(source[0]) {
        FilterMembers(rest, p);
        forall j | 0 <= j < |f| ensures !KeyMatches(m, key(source[0]), key(f[j])) {
          assert f[j] in f;
          var i := IndexOf(rest, f[j]);
          assert source[i + 1] == f[j];
        }
        var g := [source[0]] + f;
        forall i, j | 0 <= i < j < |g| ensures !KeyMatches(m, key(g[i]), key(g[j])) {
          if i > 0 {
            assert g[i] == f[i - 1] && g[j] == f[j - 1];
          } else {
            assert g[j] == f[j - 1];
          }
        }
      }
    }
  }

  /** The source row `x` is among the rows the statement appended. */
  ghost predicate Inserted<R>(t: Table<R>, r: Table<R>, x: R) {
    exists k :: |t.entries| <= k < |r.entries| && r.entries[k].rec == x
  }

  /** A row is inserted exactly when it is in the source and its key
      matches no row already in the target. */
  lemma MergeInsertedSpec<R>(t: Table<R>, source: seq<R>, key: R -> seq<SqlValue>, m: Matching, x: R)
    ensures Inserted(t, MergeInsert(t, source, key, m), x) <==> x in source && !Matched(t, key, m, x)
  {
    var r := MergeInsert(t, source, key, m);
    var added := Unmatched(t, source, key, m);
    var n := |t.entries|;
    FilterMembers(source, y => !Matched(t, key, m, y));
    if Inserted(t, r, x) {
      var k :| n <= k < |r.entries| && r.entries[k].rec == x;
      assert added[k - n] == x;
      assert x in added;
    }
    if x in source && !Matched(t, key, m, x) {
      var k := IndexOf(added, x);
      assert r.entries[n + k].rec == x;
    }
  }

  /** Source rows with the same key share one fate: when one of them is
      inserted, so is every other. */
  lemma MergeInsertsTogether<R>(t: Table<R>, source: seq<R>, key: R -> seq<SqlValue>, m: Matching, x: R, y: R)
    requires y in source && key(x) == key(y)
    requires Inserted(t, MergeInsert(t, source, key, m), x)
    ensures Inserted(t, MergeInsert(t, source, key, m), y)
  {
    MergeInsertedSpec(t, source, key, m, x);
    MergeInsertedSpec(t, source, key, m, y);
  }

  /** A duplicate-free source in which the key determines the whole row has
      no two rows with matching keys. */
  lemma DistinctKeysUnique<R>(source: seq<R>, key: R -> seq<SqlValue>, m: Matching)
    requires Distinct(source)
    requires forall i, j :: 0 <= i < |source| && 0 <= j < |source| && key(source[i]) == key(source[j]) ==> source[i] == source[j]
    ensures SourceKeyUnique(source, key, m)
  {
    forall i, j | 0 <= i < j < |source| ensures !KeyMatches(m, key(source[i]), key(source[j])) {
      KeyMatchesSpec(m, key(source[i]), key(source[j]));
    }
  }

  /** When no source key has a NULL, SQL `=` and the null-safe comparison
      make the statement do the same thing. */
  lemma MergeMatchingAgrees<R>(t: Table<R>, source: seq<R>, key: R -> seq<SqlValue>)
    requires forall x :: x in source ==> NullFree(key(x))
    ensures MergeInsert(t, source, key, SqlEquality) == MergeInsert(t, source, key, NullSafe)
  {
    forall x | x in source ensures Matched(t, key, SqlEquality, x) == Matched(t, key, NullSafe, x) {
      forall k | 0 <= k < |t.entries|
        ensures KeyMatches(SqlEquality, key(t.entries[k].rec), key(x)) == KeyMatches(NullSafe, key(t.entries[k].rec), key(x))
      {
        KeyMatchesSymmetric(SqlEquality, key(t.entries[k].rec), key(x));
        KeyMatchesSpec(SqlEquality, key(x), key(t.entries[k].rec));
        KeyMatchesSpec(NullSafe, key(x), key(t.entries[k].rec));
        KeyMatchesSymmetric(NullSafe, key(t.entries[k].rec), key(x));
      }
    }
    FilterExt(source, x => !Matched(t, key, SqlEquality, x), x => !Matched(t, key, NullSafe, x));
  }

  /** Into an empty table every source row is inserted, in order. */
  lemma MergeIntoEmpty<R(!new)>(t: Table<R>, source: seq<R>, key: R -> seq<SqlValue>, m: Matching)
    requires t.entries == []
    ensures MergeInsert(t, source, key, m).entries == Number(source, t.nextId)
  {
    FilterAll(source, x => !Matched(t, key, m, x));
  }

  /** Two source rows with matching keys, merged into an empty table, both
      land in it. */
  lemma MergeTwoIntoEmpty<R(!new)>(t: Table<R>, x: R, y: R, key: R -> seq<SqlValue>, m: Matching)
    requires t.entries == [] && KeyMatches(m, key(x), key(y))
    ensures !KeyUnique(MergeInsert(t, [x, y], key, m), key, m)
  {
    MergeIntoEmpty(t, [x, y], key, m);
    var r := MergeInsert(t, [x, y], key, m);
    assert r.entries[0].rec == x && r.entries[1].rec == y;
  }
}

=== FILE: olap.dfy ===
/** `olap_modeling`: the star schema loaded from the staging table
    `BOOKING_PROPERTIES` by five `MERGE ... WHEN NOT MATCHED THEN INSERT`
    statements, run in the order DIM_PROPERTY, DIM_CATEGORY, DIM_DATE,
    DIM_LOCATION, FACT_PROPERTY_REVIEWS. Every table has an `IDENTITY(1,1)`
    surrogate key; `CREATE TABLE IF NOT EXISTS` keeps whatever a previous
    run left, so a run starts from the warehouse as it is. */
module Olap {
  import opened Seqs
  import opened Merge

  /** One staging row, reduced to the columns the statements read. The
      twenty fact measures (review counts, scores, prices) are carried
      along untouched, in the fact table's column order. */
  datatype Staged = Staged(
    url: SqlValue, address: SqlValue, wifiSpeed: SqlValue,
    latitude: SqlValue, longitude: SqlValue,
    category: SqlValue, city: SqlValue, zone: SqlValue,
    timestamp: SqlValue, measures: seq<SqlValue>)

  datatype PropertyRec = PropertyRec(url: SqlValue, address: SqlValue, wifiSpeed: SqlValue, latitude: SqlValue, longitude: SqlValue)

  /** A DIM_DATE row: the timestamp and its day, month, year and weekday. */
  datatype DateRec = DateRec(timestamp: SqlValue, parts: seq<SqlValue>)

  datatype LocationRec = LocationRec(city: SqlValue, zone: SqlValue)

  /** A FACT_PROPERTY_REVIEWS row: timestamp, the DIM_CATEGORY id, measures. */
  datatype FactRec = FactRec(timestamp: SqlValue, categoryId: int, measures: seq<SqlValue>)

  datatype Warehouse = Warehouse(
    property: Table<PropertyRec>,
    category: Table<SqlValue>,
    date: Table<DateRec>,
    location: Table<LocationRec>,
    fact: Table<FactRec>)

  /** The five `CREATE TABLE IF NOT EXISTS` statements on a fresh schema. */
  function EmptyWarehouse(): (w: Warehouse)
    ensures |w.property.entries| == |w.category.entries| == |w.date.entries| == 0
    ensures |w.location.entries| == |w.fact.entries| == 0
    ensures w.property.nextId == w.category.nextId == w.date.nextId == w.location.nextId == w.fact.nextId == 1
  {
    Warehouse(EmptyTable(), EmptyTable(), EmptyTable(), EmptyTable(), EmptyTable())
  }

  /** The ON clause of each statement, as the key it compares. */
  function PropertyKey(p: PropertyRec): seq<SqlValue> { [p.url] }
  function CategoryKey(c: SqlValue): seq<SqlValue> { [c] }
  function DateKey(d: DateRec): seq<SqlValue> { [d.timestamp] }
  function LocationKey(l: LocationRec): seq<SqlValue> { [l.city, l.zone] }
  function FactKey(f: FactRec): seq<SqlValue> { [f.timestamp] }

  function PropertyOf(s: Staged): PropertyRec {
    PropertyRec(s.url, s.address, s.wifiSpeed, s.latitude, s.longitude)
  }

  function LocationOf(s: Staged): LocationRec {
    LocationRec(s.city, s.zone)
  }

  /** `SELECT <cols> FROM BOOKING_PROPERTIES`: one projected row per staging
      row, in staging order. */
  function Project<T>(staging: seq<Staged>, f: Staged -> T): (r: seq<T>)
    ensures |r| == |staging|
    ensures forall i :: 0 <= i < |staging| ==> r[i] == f(staging[i])
  {
    seq(|staging|, i requires 0 <= i < |staging| => f(staging[i]))
  }

  /** The DIM_PROPERTY source: `SELECT DISTINCT` over the five columns (a
      row is a duplicate only when all five agree, NULLs counting as equal). */
  function PropertySource(staging: seq<Staged>): (r: seq<PropertyRec>)
    ensures Distinct(r)
    ensures forall p :: p in r <==> exists i :: 0 <= i < |staging| && p == PropertyOf(staging[i])
  {
    var all := Project(staging, PropertyOf);
    assert forall i :: 0 <= i < |staging| ==> all[i] == PropertyOf(staging[i]);
    Dedup(all)
  }

  /** The DIM_CATEGORY source: `SELECT DISTINCT "category"`. */
  function CategorySource(staging: seq<Staged>): (r: seq<SqlValue>)
    ensures Distinct(r)
    ensures forall c :: c in r <==> exists i :: 0 <= i < |staging| && c == staging[i].category
  {
    var all := Project(staging, (s: Staged) => s.category);
    assert forall i :: 0 <= i < |staging| ==> all[i] == staging[i].category;
    Dedup(all)
  }

  /** The DIM_DATE source: one row per staging row, with no DISTINCT, so a
      timestamp staged n times is offered n times. The calendar parts come
      from the warehouse's DAY, MONTH, YEAR and DAYOFWEEK, here the
      parameter `parts`, and always belong to the row's own timestamp. */
  function DateSource(staging: seq<Staged>, parts: SqlValue -> seq<SqlValue>): (r: seq<DateRec>)
    ensures |r| == |staging|
    ensures forall i :: 0 <= i < |staging| ==> r[i].timestamp == staging[i].timestamp
    ensures forall d :: d in r ==> d.parts == parts(d.timestamp)
  {
    Project(staging, (s: Staged) => DateRec(s.timestamp, parts(s.timestamp)))
  }

  /** The DIM_LOCATION source: `SELECT DISTINCT "city", "zone"`. */
  function LocationSource(staging: seq<Staged>): (r: seq<LocationRec>)
    ensures Distinct(r)
    ensures forall l :: l in r <==> exists i :: 0 <= i < |staging| && l == LocationOf(staging[i])
  {
    var all := Project(staging, LocationOf);
    assert forall i :: 0 <= i < |staging| ==> all[i] == LocationOf(staging[i]);
    Dedup(all)
  }

  /** The DIM_CATEGORY rows an inner join on `bp."category" = dc.category`
      pairs with the staging row `bp`; SQL `=` never pairs a NULL. */
  predicate JoinsWith(bp: Staged, e: Entry<SqlValue>) {
    ValueMatches(SqlEquality, bp.category, e.rec)
  }

  /** The fact rows one staging row contributes to the join, in DIM_CATEGORY
      order. */
  function Joined(bp: Staged, category: Table<SqlValue>): seq<FactRec> {
    var hits := Filter(category.entries, e => JoinsWith(bp, e));
    seq(|hits|, k requires 0 <= k < |hits| => FactRec(bp.timestamp, hits[k].id, bp.measures))
  }

  lemma JoinedSpec(bp: Staged, category: Table<SqlValue>, f: FactRec)
    ensures f in Joined(bp, category) <==>
      exists e :: e in category.entries && JoinsWith(bp, e) && f == FactRec(bp.timestamp, e.id, bp.measures)
  {
    var hits := Filter(category.entries, e => JoinsWith(bp, e));
    var r := Joined(bp, category);
    FilterMembers(category.entries, e => JoinsWith(bp, e));
    if f in r {
      var k := IndexOf(r, f);
      assert hits[k] in hits;
    }
    if exists e :: e in category.entries && JoinsWith(bp, e) && f == FactRec(bp.timestamp, e.id, bp.measures) {
      var e :| e in category.entries && JoinsWith(bp, e) && f == FactRec(bp.timestamp, e.id, bp.measures);
      var k := IndexOf(hits, e);
      assert r[k] == f;
    }
  }

  /** The fact source: `BOOKING_PROPERTIES bp JOIN DIM_CATEGORY dc`, one
      output row per matching pair, staging row by staging row. */
  function FactSource(staging: seq<Staged>, category: Table<SqlValue>): seq<FactRec> {
    Flatten(seq(|staging|, i requires 0 <= i < |staging| => Joined(staging[i], category)))
  }

  /** The inner join, stated row by row: a fact row comes from a staging row
      whose non-NULL category equals a DIM_CATEGORY row's, and carries that
      row's id; a staging row whose category matches none is dropped. */
  lemma FactJoinSpec(staging: seq<Staged>, category: Table<SqlValue>, f: FactRec)
    ensures f in FactSource(staging, category) <==>
      exists i, e :: 0 <= i < |staging| && e in category.entries
        && staging[i].category != Null && staging[i].category == e.rec
        && f == FactRec(staging[i].timestamp, e.id, staging[i].measures)
  {
    var ss := seq(|staging|, i requires 0 <= i < |staging| => Joined(staging[i], category));
    FlattenMember(ss, f);
    if f in FactSource(staging, category) {
      var b :| 0 <= b < |ss| && f in ss[b];
      JoinedSpec(staging[b], category, f);
    }
    if exists i, e :: 0 <= i < |staging| && e in category.entries
        && staging[i].category != Null && staging[i].category == e.rec
        && f == FactRec(staging[i].timestamp, e.id, staging[i].measures)
    {
      var i, e :| 0 <= i < |staging| && e in category.entries
        && staging[i].category != Null && staging[i].category == e.rec
        && f == FactRec(staging[i].timestamp, e.id, staging[i].measures);
      assert JoinsWith(staging[i], e);
      JoinedSpec(staging[i], category, f);
      assert f in ss[i];
    }
  }

  /** `olap_modeling`: the five statements in order. The fact source joins
      DIM_CATEGORY as the category statement has just left it. `m` is the
      comparison the MERGE `ON` clauses use; the code as written uses SQL `=`. */
  function Load(w: Warehouse, staging: seq<Staged>, parts: SqlValue -> seq<SqlValue>, m: Matching): (r: Warehouse)
    ensures w.property.entries <= r.property.entries && w.category.entries <= r.category.entries
    ensures w.date.entries <= r.date.entries && w.location.entries <= r.location.entries
    ensures w.fact.entries <= r.fact.entries
  {
    var property := MergeInsert(w.property, PropertySource(staging), PropertyKey, m);
    var category := MergeInsert(w.category, CategorySource(staging), CategoryKey, m);
    var date := MergeInsert(w.date, DateSource(staging, parts), DateKey, m);
    var location := MergeInsert(w.location, LocationSource(staging), LocationKey, m);
    var fact := MergeInsert(w.fact, FactSource(staging, category), FactKey, m);
    Warehouse(property, category, date, location, fact)
  }

  /** All five tables number their rows properly. */
  predicate WarehouseNumbered(w: Warehouse) {
    && WellNumbered(w.property) && WellNumbered(w.category) && WellNumbered(w.date)
    && WellNumbered(w.location) && WellNumbered(w.fact)
  }

  /** The identity columns keep handing out new, increasing ids. */
  lemma LoadNumbering(w: Warehouse, staging: seq<Staged>, parts: SqlValue -> seq<SqlValue>, m: Matching)
    requires WarehouseNumbered(w)
    ensures WarehouseNumbered(Load(w, staging, parts, m))
  {
    var category := MergeInsert(w.category, CategorySource(staging), CategoryKey, m);
    MergeNumbering(w.property, PropertySource(staging), PropertyKey, m);
    MergeNumbering(w.category, CategorySource(staging), CategoryKey, m);
    MergeNumbering(w.date, DateSource(staging, parts), DateKey, m);
    MergeNumbering(w.location, LocationSource(staging), LocationKey, m);
    MergeNumbering(w.fact, FactSource(staging, category), FactKey, m);
  }

  /** After a load every staging row has its property, category, date and
      location in the dimensions, unless (under SQL `=`) the key is NULL. */
  lemma LoadCovers(w: Warehouse, staging: seq<Staged>, parts: SqlValue -> seq<SqlValue>, m: Matching, i: nat)
    requires i < |staging|
    ensures var r := Load(w, staging, parts, m);
      && (m.NullSafe? || staging[i].url != Null ==> Matched(r.property, PropertyKey, m, PropertyOf(staging[i])))
      && (m.NullSafe? || staging[i].category != Null ==> Matched(r.category, CategoryKey, m, staging[i].category))
      && (m.NullSafe? || staging[i].timestamp != Null ==>
            Matched(r.date, DateKey, m, DateRec(staging[i].timestamp, parts(staging[i].timestamp))))
      && (m.NullSafe? || (staging[i].city != Null && staging[i].zone != Null) ==>
            Matched(r.location, LocationKey, m, LocationOf(staging[i])))
  {
    var s := staging[i];
    var r := Load(w, staging, parts, m);
    if m.NullSafe? || s.url != Null {
      PropertyCovered(w.property, staging, m, i);
    }
    if m.NullSafe? || s.category != Null {
      CategoryCovered(w.category, staging, m, i);
    }
    if m.NullSafe? || s.timestamp != Null {
      DateCovered(w.date, staging, parts, m, i);
    }
    if m.NullSafe? || (s.city != Null && s.zone != Null) {
      LocationCovered(w.location, staging, m, i);
    }
  }

  lemma PropertyCovered(t: Table<PropertyRec>, staging: seq<Staged>, m: Matching, i: nat)
    requires i < |staging| && (m.NullSafe? || staging[i].url != Null)
    ensures Matched(MergeInsert(t, PropertySource(staging), PropertyKey, m), PropertyKey, m, PropertyOf(staging[i]))
  {
    MergeCovers(t, PropertySource(staging), PropertyKey, m, PropertyOf(staging[i]));
  }

  lemma CategoryCovered(t: Table<SqlValue>, staging: seq<Staged>, m: Matching, i: nat)
    requires i < |staging| && (m.NullSafe? || staging[i].category != Null)
    ensures Matched(MergeInsert(t, CategorySource(staging), CategoryKey, m), CategoryKey, m, staging[i].category)
  {
    MergeCovers(t, CategorySource(staging), CategoryKey, m, staging[i].category);
  }

  lemma DateCovered(t: Table<DateRec>, staging: seq<Staged>, parts: SqlValue -> seq<SqlValue>, m: Matching, i: nat)
    requires i < |staging| && (m.NullSafe? || staging[i].timestamp != Null)
    ensures Matched(MergeInsert(t, DateSource(staging, parts), DateKey, m), DateKey, m,
      DateRec(staging[i].timestamp, parts(staging[i].timestamp)))
  {
    var d := DateRec(staging[i].timestamp, parts(staging[i].timestamp));
    assert DateSource(staging, parts)[i] == d;
    MergeCovers(t, DateSource(staging, parts), DateKey, m, d);
  }

  lemma LocationCovered(t: Table<LocationRec>, staging: seq<Staged>, m: Matching, i: nat)
    requires i < |staging| && (m.NullSafe? || (staging[i].city != Null && staging[i].zone != Null))
    ensures Matched(MergeInsert(t, LocationSource(staging), LocationKey, m), LocationKey, m, LocationOf(staging[i]))
  {
    var l := LocationOf(staging[i]);
    if m.SqlEquality? {
      assert NullFree(LocationKey(l)) by {
        assert LocationKey(l) == [staging[i].city, staging[i].zone];
      }
    }
    MergeCovers(t, LocationSource(staging), LocationKey, m, l);
  }

  /** The fact statement inserts a joined row exactly when no fact row
      already has its timestamp (NULL timestamps never match under SQL `=`). */
  lemma FactInsertedSpec(w: Warehouse, staging: seq<Staged>, parts: SqlValue -> seq<SqlValue>, m: Matching, x: FactRec)
    ensures var r := Load(w, staging, parts, m);
      Inserted(w.fact, r.fact, x) <==> x in FactSource(staging, r.category) && !Matched(w.fact, FactKey, m, x)
  {
    var r := Load(w, staging, parts, m);
    MergeInsertedSpec(w.fact, FactSource(staging, r.category), FactKey, m, x);
  }

  /** Joined rows sharing a timestamp are inserted together or not at all. */
  lemma FactInsertedTogether(w: Warehouse, staging: seq<Staged>, parts: SqlValue -> seq<SqlValue>, m: Matching, x: FactRec, y: FactRec)
    requires y in FactSource(staging, Load(w, staging, parts, m).category) && x.timestamp == y.timestamp
    requires Inserted(w.fact, Load(w, staging, parts, m).fact, x)
    ensures Inserted(w.fact, Load(w, staging, parts, m).fact, y)
  {
    var r := Load(w, staging, parts, m);
    assert FactKey(x) == FactKey(y);
    MergeInsertsTogether(w.fact, FactSource(staging, r.category), FactKey, m, x, y);
  }

  /** The key columns of a staging row are all present. */
  predicate KeysPresent(s: Staged) {
    s.url != Null && s.category != Null && s.timestamp != Null && s.city != Null && s.zone != Null
  }

  lemma PropertyKeysNullFree(staging: seq<Staged>)
    requires forall i :: 0 <= i < |staging| ==> KeysPresent(staging[i])
    ensures forall x :: x in PropertySource(staging) ==> NullFree(PropertyKey(x))
  {
  }

  lemma CategoryKeysNullFree(staging: seq<Staged>)
    requires forall i :: 0 <= i < |staging| ==> KeysPresent(staging[i])
    ensures forall x :: x in CategorySource(staging) ==> NullFree(CategoryKey(x))
  {
  }

  lemma DateKeysNullFree(staging: seq<Staged>, parts: SqlValue -> seq<SqlValue>)
    requires forall i :: 0 <= i < |staging| ==> KeysPresent(staging[i])
    ensures forall x :: x in DateSource(staging, parts) ==> NullFree(DateKey(x))
  {
    forall x | x in DateSource(staging, parts) ensures NullFree(DateKey(x)) {
      var i := IndexOf(DateSource(staging, parts), x);
      assert x.timestamp == staging[i].timestamp;
    }
  }

  lemma LocationKeysNullFree(staging: seq<Staged>)
    requires forall i :: 0 <= i < |staging| ==> KeysPresent(staging[i])
    ensures forall x :: x in LocationSource(staging) ==> NullFree(LocationKey(x))
  {
    forall x | x in LocationSource(staging) ensures NullFree(LocationKey(x)) {
      var i :| 0 <= i < |staging| && x == LocationOf(staging[i]);
      assert LocationKey(x) == [staging[i].city, staging[i].zone];
    }
  }

  lemma FactKeysNullFree(staging: seq<Staged>, category: Table<SqlValue>)
    requires forall i :: 0 <= i < |staging| ==> KeysPresent(staging[i])
    ensures forall x :: x in FactSource(staging, category) ==> NullFree(FactKey(x))
  {
    forall x | x in FactSource(staging, category) ensures NullFree(FactKey(x)) {
      FactJoinSpec(staging, category, x);
    }
  }

  /** The idempotence the load is meant to have: running it a second time
      on the same staging table changes no table, provided the comparison
      is null-safe or no staging row has a NULL key column. */
  lemma LoadIdempotent(w: Warehouse, staging: seq<Staged>, parts: SqlValue -> seq<SqlValue>, m: Matching)
    requires m.NullSafe? || forall i :: 0 <= i < |staging| ==> KeysPresent(staging[i])
    ensures Load(Load(w, staging, parts, m), staging, parts, m) == Load(w, staging, parts, m)
  {
    var once := Load(w, staging, parts, m);
    if m.SqlEquality? {
      PropertyKeysNullFree(staging);
      CategoryKeysNullFree(staging);
      DateKeysNullFree(staging, parts);
      LocationKeysNullFree(staging);
      FactKeysNullFree(staging, once.category);
    }
    MergeIdempotent(w.property, PropertySource(staging), PropertyKey, m);
    MergeIdempotent(w.category, CategorySource(staging), CategoryKey, m);
    MergeIdempotent(w.date, DateSource(staging, parts), DateKey, m);
    MergeIdempotent(w.location, LocationSource(staging), LocationKey, m);
    MergeIdempotent(w.fact, FactSource(staging, once.category), FactKey, m);
  }

  /** The code as written is not idempotent: a staging row whose zone is
      NULL (the address yielded no zone) matches no DIM_LOCATION row under
      SQL `=`, so every further run appends it to DIM_LOCATION again. */
  lemma LocationRerunGrows(w: Warehouse, staging: seq<Staged>, parts: SqlValue -> seq<SqlValue>, i: nat)
    requires i < |staging| && staging[i].zone == Null
    ensures var once := Load(w, staging, parts, SqlEquality);
      |Load(once, staging, parts, SqlEquality).location.entries| > |once.location.entries|
  {
    var once := Load(w, staging, parts, SqlEquality);
    var l := LocationOf(staging[i]);
    assert l in LocationSource(staging);
    assert LocationKey(l)[1] == Null;
    MergeReinsertsNullKeys(once.location, LocationSource(staging), LocationKey, l);
  }

  /** The same holds for DIM_CATEGORY: a staging row whose category is NULL
      matches nothing under SQL `=`, so every further run appends it again. */
  lemma CategoryRerunGrows(w: Warehouse, staging: seq<Staged>, parts: SqlValue -> seq<SqlValue>, i: nat)
    requires i < |staging| && staging[i].category == Null
    ensures var once := Load(w, staging, parts, SqlEquality);
      |Load(once, staging, parts, SqlEquality).category.entries| > |once.category.entries|
  {
    var once := Load(w, staging, parts, SqlEquality);
    var c := staging[i].category;
    assert c in CategorySource(staging);
    assert CategoryKey(c)[0] == Null;
    MergeReinsertsNullKeys(once.category, CategorySource(staging), CategoryKey, c);
  }

  /** DIM_PROPERTY's source is DISTINCT over five columns, not over the key:
      one URL seen with two addresses yields two rows with the same URL. */
  lemma PropertyUrlRepeats(w: Warehouse, a: Staged, b: Staged, parts: SqlValue -> seq<SqlValue>, m: Matching)
    requires w.property.entries == []
    requires a.url == b.url && a.url != Null && a.address != b.address
    ensures !KeyUnique(Load(w, [a, b], parts, m).property, PropertyKey, m)
  {
    var pa, pb := PropertyOf(a), PropertyOf(b);
    PropertySourcePair(a, b);
    LoadProperty(w, [a, b], parts, m);
    assert PropertyKey(pa) == PropertyKey(pb) == [a.url];
    KeyMatchesSpec(m, [a.url], [a.url]);
    MergeTwoIntoEmpty(w.property, pa, pb, PropertyKey, m);
  }

  lemma PropertySourcePair(a: Staged, b: Staged)
    requires PropertyOf(a) != PropertyOf(b)
    ensures PropertySource([a, b]) == [PropertyOf(a), PropertyOf(b)]
  {
    var pa, pb := PropertyOf(a), PropertyOf(b);
    assert Project([a, b], PropertyOf) == [pa, pb];
    DedupDistinct([pa, pb]);
  }

  /** DIM_PROPERTY after a load is the first statement's result. */
  lemma LoadProperty(w: Warehouse, staging: seq<Staged>, parts: SqlValue -> seq<SqlValue>, m: Matching)
    ensures Load(w, staging, parts, m).property == MergeInsert(w.property, PropertySource(staging), PropertyKey, m)
  {
  }

  /** DIM_DATE's source has no DISTINCT: two staging rows scraped at the
      same instant give two DIM_DATE rows with the same timestamp. */
  lemma DateTimestampRepeats(w: Warehouse, a: Staged, b: Staged, parts: SqlValue -> seq<SqlValue>, m: Matching)
    requires w.date.entries == []
    requires a.timestamp == b.timestamp && a.timestamp != Null
    ensures !KeyUnique(Load(w, [a, b], parts, m).date, DateKey, m)
  {
    var da, db := DateRec(a.timestamp, parts(a.timestamp)), DateRec(b.timestamp, parts(b.timestamp));
    var src := DateSource([a, b], parts);
    assert src == [da, db];
    var r := Load(w, [a, b], parts, m).date;
    assert r == MergeInsert(w.date, [da, db], DateKey, m);
    KeyMatchesSpec(m, DateKey(da), DateKey(db));
    MergeTwoIntoEmpty(w.date, da, db, DateKey, m);
  }

  /** DIM_PROPERTY keeps one row per URL when the URL determines the other
      four columns in the staging table and the table had one row per URL. */
  lemma PropertyStaysUnique(w: Warehouse, staging: seq<Staged>, parts: SqlValue -> seq<SqlValue>, m: Matching)
    requires KeyUnique(w.property, PropertyKey, m)
    requires forall i, j :: 0 <= i < |staging| && 0 <= j < |staging| && staging[i].url == staging[j].url ==>
      PropertyOf(staging[i]) == PropertyOf(staging[j])
    ensures KeyUnique(Load(w, staging, parts, m).property, PropertyKey, m)
  {
    var src := PropertySource(staging);
    forall i, j | 0 <= i < |src| && 0 <= j < |src| && PropertyKey(src[i]) == PropertyKey(src[j])
      ensures src[i] == src[j]
    {
      assert src[i] in src && src[j] in src;
      var a :| 0 <= a < |staging| && src[i] == PropertyOf(staging[a]);
      var b :| 0 <= b < |staging| && src[j] == PropertyOf(staging[b]);
      assert PropertyKey(src[i])[0] == staging[a].url;
    }
    DistinctKeysUnique(src, PropertyKey, m);
    MergeKeepsKeysUnique(w.property, src, PropertyKey, m);
  }

  /** DIM_DATE keeps one row per timestamp when the staging timestamps are
      pairwise distinct and the table had one row per timestamp. */
  lemma DateStaysUnique(w: Warehouse, staging: seq<Staged>, parts: SqlValue -> seq<SqlValue>, m: Matching)
    requires KeyUnique(w.date, DateKey, m)
    requires forall i, j :: 0 <= i < j < |staging| ==> staging[i].timestamp != staging[j].timestamp
    ensures KeyUnique(Load(w, staging, parts, m).date, DateKey, m)
  {
    var src := DateSource(staging, parts);
    forall i, j | 0 <= i < j < |src| ensures !KeyMatches(m, DateKey(src[i]), DateKey(src[j])) {
      KeyMatchesSpec(m, DateKey(src[i]), DateKey(src[j]));
      assert DateKey(src[i])[0] == staging[i].timestamp;
    }
    MergeKeepsKeysUnique(w.date, src, DateKey, m);
  }

  /** DIM_CATEGORY keeps one row per category: its source is DISTINCT over
      the key itself. Under SQL `=` this speaks only of non-NULL categories;
      NULL ones repeat (CategoryRerunGrows). */
  lemma CategoryStaysUnique(w: Warehouse, staging: seq<Staged>, parts: SqlValue -> seq<SqlValue>, m: Matching)
    requires KeyUnique(w.category, CategoryKey, m)
    ensures KeyUnique(Load(w, staging, parts, m).category, CategoryKey, m)
  {
    var src := CategorySource(staging);
    DistinctKeysUnique(src, CategoryKey, m);
    MergeKeepsKeysUnique(w.category, src, CategoryKey, m);
  }

  /** DIM_LOCATION keeps one row per (city, zone): its source is DISTINCT
      over the key itself. Under SQL `=` this speaks only of pairs without a
      NULL; those with one repeat (LocationRerunGrows). */
  lemma LocationStaysUnique(w: Warehouse, staging: seq<Staged>, parts: SqlValue -> seq<SqlValue>, m: Matching)
    requires KeyUnique(w.location, LocationKey, m)
    ensures KeyUnique(Load(w, staging, parts, m).location, LocationKey, m)
  {
    var src := LocationSource(staging);
    forall i, j | 0 <= i < |src| && 0 <= j < |src| && LocationKey(src[i]) == LocationKey(src[j])
      ensures src[i] == src[j]
    {
      assert LocationKey(src[i])[0] == src[i].city && LocationKey(src[i])[1] == src[i].zone;
      assert LocationKey(src[j])[0] == src[j].city && LocationKey(src[j])[1] == src[j].zone;
    }
    DistinctKeysUnique(src, LocationKey, m);
    MergeKeepsKeysUnique(w.location, src, LocationKey, m);
  }

  /** With no NULL category staged, the code as written keeps DIM_CATEGORY
      free of any repeated category, NULL or not. */
  lemma CategoryKeysDistinct(w: Warehouse, staging: seq<Staged>, parts: SqlValue -> seq<SqlValue>)
    requires KeyUnique(w.category, CategoryKey, NullSafe)
    requires forall i :: 0 <= i < |staging| ==> staging[i].category != Null
    ensures KeyUnique(Load(w, staging, parts, SqlEquality).category, CategoryKey, NullSafe)
  {
    var src := CategorySource(staging);
    forall x | x in src ensures NullFree(CategoryKey(x)) {
      var i :| 0 <= i < |staging| && x == staging[i].category;
    }
    MergeMatchingAgrees(w.category, src, CategoryKey);
    CategoryStaysUnique(w, staging, parts, NullSafe);
  }

  /** With no NULL city or zone staged, the code as written keeps
      DIM_LOCATION free of any repeated (city, zone) pair. */
  lemma LocationKeysDistinct(w: Warehouse, staging: seq<Staged>, parts: SqlValue -> seq<SqlValue>)
    requires KeyUnique(w.location, LocationKey, NullSafe)
    requires forall i :: 0 <= i < |staging| ==> staging[i].city != Null && staging[i].zone != Null
    ensures KeyUnique(Load(w, staging, parts, SqlEquality).location, LocationKey, NullSafe)
  {
    var src := LocationSource(staging);
    forall x | x in src ensures NullFree(LocationKey(x)) {
      var i :| 0 <= i < |staging| && x == LocationOf(staging[i]);
      assert LocationKey(x) == [staging[i].city, staging[i].zone];
    }
    MergeMatchingAgrees(w.location, src, LocationKey);
    LocationStaysUnique(w, staging, parts, NullSafe);
  }
}

=== FILE: seqs.dfy ===
/** Order-preserving sequence operations used by the batch stages:
    row filtering (a pandas boolean mask, a Python comprehension with a
    guard) and keep-first de-duplication (`drop_duplicates`). */
module Seqs {

  /** `a` can be obtained from `b` by deleting elements. */
  predicate IsSubseq<T(==)>(a: seq<T>, b: seq<T>)
    decreases |b|
  {
    if |a| == 0 then true
    else if |b| == 0 then false
    else (a[0] == b[0] && IsSubseq(a[1..], b[1..])) || IsSubseq(a, b[1..])
  }

  /** No element occurs twice. */
  predicate Distinct<T(==)>(s: seq<T>) {
    forall i, j :: 0 <= i < j < |s| ==> s[i] != s[j]
  }

  /** The elements of `s` that satisfy `p`, in their original order. */
  function Filter<T>(s: seq<T>, p: T -> bool): (r: seq<T>)
    ensures |r| <= |s|
  {
    if |s| == 0 then []
    else
      var rest := Filter(s[1..], p);
      if p(s[0]) then [s[0]] + rest else rest
  }

  /** The survivors of a filter are exactly the elements that satisfy it. */
  lemma {:induction false} FilterMembers<T>(s: seq<T>, p: T -> bool)
    ensures forall x :: x in Filter(s, p) <==> x in s && p(x)
  {
    if |s| > 0 {
      FilterMembers(s[1..], p);
      assert forall x :: x in s <==> x == s[0] || x in s[1..];
    }
  }

  /** The same, position by position: usable for element types that may
      hold references, where a quantifier over all values is not. */
  lemma {:induction false} FilterIndexed<T>(s: seq<T>, p: T -> bool)
    ensures forall k :: 0 <= k < |Filter(s, p)| ==> Filter(s, p)[k] in s && p(Filter(s, p)[k])
    ensures forall k :: 0 <= k < |s| && p(s[k]) ==> s[k] in Filter(s, p)
  {
    if |s| > 0 {
      var rest := Filter(s[1..], p);
      FilterIndexed(s[1..], p);
      assert forall k :: 0 <= k < |rest| ==> rest[k] in s by {
        assert forall k :: 0 <= k < |rest| ==> rest[k] in s[1..];
      }
      assert forall k :: 1 <= k < |s| ==> s[k] == s[1..][k - 1];
    }
  }

  /** Nothing survives a filter no element passes. */
  lemma {:induction false} FilterNone<T>(s: seq<T>, p: T -> bool)
    requires forall k :: 0 <= k < |s| ==> !p(s[k])
    ensures Filter(s, p) == []
  {
    if |s| > 0 {
      assert forall k :: 1 <= k < |s| ==> s[k] == s[1..][k - 1];
      FilterNone(s[1..], p);
    }
  }

  /** Every survivor of a filter satisfies it, and keeps any property all
      elements had. */
  lemma {:induction false} FilterPreserves<T>(s: seq<T>, p: T -> bool, q: T -> bool)
    requires forall k :: 0 <= k < |s| ==> q(s[k])
    ensures forall k :: 0 <= k < |Filter(s, p)| ==> p(Filter(s, p)[k]) && q(Filter(s, p)[k])
  {
    if |s| > 0 {
      assert forall k :: 0 <= k < |s| - 1 ==> s[1..][k] == s[k + 1];
      FilterPreserves(s[1..], p, q);
    }
  }

  /** Filtering keeps every selected element with its multiplicity. */
  lemma {:induction false} FilterMultiset<T(!new)>(s: seq<T>, p: T -> bool)
    ensures forall x :: multiset(Filter(s, p))[x] == if p(x) then multiset(s)[x] else 0
  {
    if |s| > 0 {
      FilterMultiset(s[1..], p);
      assert s == [s[0]] + s[1..];
      assert multiset(s) == multiset{s[0]} + multiset(s[1..]);
    }
  }

  /** Filtering only deletes: the survivors keep their relative order. */
  lemma {:induction false} FilterSubseq<T(!new)>(s: seq<T>, p: T -> bool)
    ensures IsSubseq(Filter(s, p), s)
  {
    if |s| > 0 {
      FilterSubseq(s[1..], p);
      var rest := Filter(s[1..], p);
      if p(s[0]) {
        assert ([s[0]] + rest)[1..] == rest;
      } else {
        SubseqDropHead(rest, s);
      }
    }
  }

  /** A subsequence of the tail is a subsequence of the whole. */
  lemma SubseqDropHead<T>(a: seq<T>, s: seq<T>)
    requires |s| > 0 && IsSubseq(a, s[1..])
    ensures IsSubseq(a, s)
  {
  }

  /** Filtering twice is filtering once by the conjunction. */
  lemma {:induction false} FilterFilter<T(!new)>(s: seq<T>, p: T -> bool, q: T -> bool)
    ensures Filter(Filter(s, p), q) == Filter(s, x => p(x) && q(x))
  {
    if |s| > 0 {
      FilterFilter(s[1..], p, q);
      if p(s[0]) {
        assert ([s[0]] + Filter(s[1..], p))[1..] == Filter(s[1..], p);
      }
    }
  }

  /** A filter that keeps every element is the identity. */
  lemma {:induction false} FilterAll<T(!new)>(s: seq<T>, p: T -> bool)
    requires forall k :: 0 <= k < |s| ==> p(s[k])
    ensures Filter(s, p) == s
  {
    if |s| > 0 {
      assert forall k :: 0 <= k < |s| - 1 ==> s[1..][k] == s[k + 1];
      FilterAll(s[1..], p);
    }
  }

  /** Filtering out the one rejected element of `a + [x] + b` leaves `a + b`. */
  lemma FilterRemoveOne<T(!new)>(a: seq<T>, x: T, b: seq<T>, p: T -> bool)
    requires forall k :: 0 <= k < |a| ==> p(a[k])
    requires forall k :: 0 <= k < |b| ==> p(b[k])
    requires !p(x)
    ensures Filter(a + [x] + b, p) == a + b
  {
    FilterConcat(a + [x], b, p);
    FilterConcat(a, [x], p);
    assert Filter([x], p) == [] by {
      assert [x][1..] == [];
    }
    FilterAll(a, p);
    FilterAll(b, p);
    assert Filter(a + [x], p) == a;
  }

  /** Deleting elements twice is deleting elements. */
  lemma {:induction false} IsSubseqTrans<T>(a: seq<T>, b: seq<T>, c: seq<T>)
    requires IsSubseq(a, b) && IsSubseq(b, c)
    ensures IsSubseq(a, c)
    decreases |c|
  {
    if |a| > 0 && |c| > 0 {
      if IsSubseq(b, c[1..]) {
        IsSubseqTrans(a, b, c[1..]);
      } else {
        assert b[0] == c[0] && IsSubseq(b[1..], c[1..]);
        if a[0] == b[0] && IsSubseq(a[1..], b[1..]) {
          IsSubseqTrans(a[1..], b[1..], c[1..]);
        } else {
          IsSubseqTrans(a, b[1..], c[1..]);
        }
      }
    }
  }

  /** Filtering distributes over concatenation. */
  lemma {:induction false} FilterConcat<T(!new)>(a: seq<T>, b: seq<T>, p: T -> bool)
    ensures Filter(a + b, p) == Filter(a, p) + Filter(b, p)
  {
    if |a| == 0 {
      assert a + b == b;
    } else {
      assert (a + b)[1..] == a[1..] + b;
      FilterConcat(a[1..], b, p);
    }
  }

  /** Two neighbours that both pass the filter are still neighbours after it. */
  lemma {:induction false} FilterAdjacent<T(!new)>(s: seq<T>, p: T -> bool, i: nat)
    requires i + 1 < |s| && p(s[i]) && p(s[i + 1])
    ensures exists j :: 0 <= j < |Filter(s, p)| - 1 && Filter(s, p)[j] == s[i] && Filter(s, p)[j + 1] == s[i + 1]
  {
    var f, rest := Filter(s, p), Filter(s[1..], p);
    if i == 0 {
      assert f == [s[0]] + rest;
      assert rest == [s[1]] + Filter(s[2..], p) by {
        assert s[1..][1..] == s[2..];
      }
      assert f[0] == s[i] && f[1] == s[i + 1];
    } else {
      FilterAdjacent(s[1..], p, i - 1);
      var j :| 0 <= j < |rest| - 1 && rest[j] == s[i] && rest[j + 1] == s[i + 1];
      if p(s[0]) {
        assert f == [s[0]] + rest;
        assert f[j + 1] == s[i] && f[j + 2] == s[i + 1];
      } else {
        assert f == rest;
      }
    }
  }

  /** Filters that agree on every element select the same elements. */
  lemma {:induction false} FilterExt<T>(s: seq<T>, p: T -> bool, q: T -> bool)
    requires forall x :: x in s ==> p(x) == q(x)
    ensures Filter(s, p) == Filter(s, q)
  {
    if |s| > 0 {
      assert forall x :: x in s[1..] ==> x in s;
      FilterExt(s[1..], p, q);
    }
  }

  /** Index of the first element satisfying `p`, or `|s|` when there is none
      (the early `return` of a Python `for` loop). */
  function FindIndex<T>(s: seq<T>, p: T -> bool): (i: nat)
    ensures i <= |s|
    ensures i < |s| ==> p(s[i])
    ensures forall j :: 0 <= j < i ==> !p(s[j])
  {
    if |s| == 0 then 0
    else if p(s[0]) then 0
    else 1 + FindIndex(s[1..], p)
  }

  /** Position of the first occurrence of `x` in `s`. */
  function IndexOf<T(==)>(s: seq<T>, x: T): (i: nat)
    requires x in s
    ensures i < |s| && s[i] == x
    ensures forall j :: 0 <= j < i ==> s[j] != x
  {
    if s[0] == x then 0 else 1 + IndexOf(s[1..], x)
  }

  /** Keep-first de-duplication: every value of `s` once, at the position
      of its first occurrence (pandas `drop_duplicates(keep='first')`). */
  function Dedup<T(==,!new)>(s: seq<T>): (r: seq<T>)
    ensures Distinct(r)
    ensures forall x :: x in r <==> x in s
    ensures forall i, j :: 0 <= i < j < |r| ==> IndexOf(s, r[i]) < IndexOf(s, r[j])
    decreases |s|
  {
    if |s| == 0 then []
    else
      var init := s[..|s| - 1];
      var x := s[|s| - 1];
      var d := Dedup(init);
      IndexOfInit(s);
      if x in d then d
      else
        assert x !in init;
        assert IndexOf(s, x) == |s| - 1;
        d + [x]
  }

  lemma IndexOfInit<T>(s: seq<T>)
    requires |s| > 0
    ensures forall y :: y in s[..|s| - 1] ==> y in s && IndexOf(s, y) == IndexOf(s[..|s| - 1], y)
  {
    var p := s[..|s| - 1];
    forall y | y in p ensures y in s && IndexOf(s, y) == IndexOf(p, y) {
      IndexOfPrefix(s, |s| - 1, y);
    }
  }

  lemma IndexOfPrefix<T>(s: seq<T>, m: nat, y: T)
    requires m <= |s| && y in s[..m]
    ensures y in s && IndexOf(s, y) == IndexOf(s[..m], y)
  {
    var i := IndexOf(s[..m], y);
    assert s[i] == y;
    var k := IndexOf(s, y);
    assert k <= i;
    assert s[..m][k] == y;
  }

  /** De-duplicating a duplicate-free sequence changes nothing. */
  lemma {:induction false} DedupDistinct<T(!new)>(s: seq<T>)
    requires Distinct(s)
    ensures Dedup(s) == s
  {
    if |s| > 0 {
      DistinctInit(s);
      DedupDistinct(s[..|s| - 1]);
      DedupFreshLast(s);
    }
  }

  lemma DistinctInit<T>(s: seq<T>)
    requires Distinct(s) && |s| > 0
    ensures Distinct(s[..|s| - 1]) && s[|s| - 1] !in s[..|s| - 1]
  {
    var init := s[..|s| - 1];
    assert forall i :: 0 <= i < |init| ==> init[i] == s[i];
  }

  /** A last element not seen before is kept by `Dedup`. */
  lemma DedupFreshLast<T(!new)>(s: seq<T>)
    requires |s| > 0 && Dedup(s[..|s| - 1]) == s[..|s| - 1] && s[|s| - 1] !in s[..|s| - 1]
    ensures Dedup(s) == s
  {
    assert s[..|s| - 1] + [s[|s| - 1]] == s;
  }

  /** De-duplication is idempotent. */
  lemma DedupIdempotent<T(!new)>(s: seq<T>)
    ensures Dedup(Dedup(s)) == Dedup(s)
  {
    DedupDistinct(Dedup(s));
  }

  /** The concatenation of a sequence of sequences. */
  function Flatten<T>(ss: seq<seq<T>>): (r: seq<T>)
    ensures |ss| == 1 ==> r == ss[0]
  {
    if |ss| == 0 then [] else ss[0] + Flatten(ss[1..])
  }

  /** An element of the concatenation comes from one of the pieces. */
  lemma {:induction false} FlattenMember<T>(ss: seq<seq<T>>, x: T)
    ensures x in Flatten(ss) <==> exists b :: 0 <= b < |ss| && x in ss[b]
  {
    if |ss| > 0 {
      FlattenMember(ss[1..], x);
      assert forall b :: 1 <= b < |ss| ==> ss[b] == ss[1..][b - 1];
      if x in Flatten(ss[1..]) {
        var b :| 0 <= b < |ss[1..]| && x in ss[1..][b];
        assert x in ss[b + 1];
      }
    }
  }

  lemma {:induction false} FlattenAppend<T>(a: seq<seq<T>>, b: seq<seq<T>>)
    ensures Flatten(a + b) == Flatten(a) + Flatten(b)
  {
    if |a| == 0 {
      assert a + b == b;
    } else {
      assert (a + b)[1..] == a[1..] + b;
      FlattenAppend(a[1..], b);
      assert Flatten(a + b) == a[0] + (Flatten(a[1..]) + Flatten(b));
    }
  }

  predicate NonEmpty<T>(s: seq<T>) {
    |s| > 0
  }

  /** Dropping empty pieces does not change the concatenation. */
  lemma {:induction false} FlattenDropEmpty<T(!new)>(ss: seq<seq<T>>)
    ensures Flatten(Filter(ss, NonEmpty)) == Flatten(ss)
  {
    if |ss| > 0 {
      FlattenDropEmpty(ss[1..]);
    }
  }
}

=== FILE: strings.dfy ===
/** Python `str` operations the modelled code relies on: substring
    membership (`sub in s`), `startswith`, `split(sep)`, `strip()`,
    `lower()`, `replace` of one character, and decimal digits. */
module Strings {
  import opened Wrappers
  import opened Seqs

  /** `sub` occurs in `s` starting at index `i`. */
  predicate OccursAt(s: string, sub: string, i: int) {
    0 <= i && i + |sub| <= |s| && s[i..i + |sub|] == sub
  }

  /** Python's `sub in s`, stated as the existence of a position. */
  ghost predicate Occurs(s: string, sub: string) {
    exists i :: OccursAt(s, sub, i)
  }

  /** Executable substring test: the same answer as `Occurs`. */
  function Contains(s: string, sub: string): (b: bool)
    ensures b <==> Occurs(s, sub)
    decreases |s|
  {
    if sub <= s then
      assert OccursAt(s, sub, 0);
      true
    else if |s| == 0 then
      assert forall i :: !OccursAt(s, sub, i);
      false
    else
      var b := Contains(s[1..], sub);
      assert forall i :: 1 <= i ==> (OccursAt(s, sub, i) <==> OccursAt(s[1..], sub, i - 1));
      assert !OccursAt(s, sub, 0);
      if b then
        var j :| OccursAt(s[1..], sub, j);
        assert OccursAt(s, sub, j + 1);
        b
      else
        b
  }

  /** The empty string occurs in every string (Python: `'' in s`). */
  lemma EmptyOccurs(s: string)
    ensures Occurs(s, "")
  {
    assert OccursAt(s, "", 0);
  }

  /** An occurrence inside a part is an occurrence in the whole. */
  lemma OccursInInfix(s: string, i: nat, j: nat, sub: string)
    requires i <= j <= |s| && Occurs(s[i..j], sub)
    ensures Occurs(s, sub)
  {
    var k :| OccursAt(s[i..j], sub, k);
    var inner, outer := s[i..j][k..k + |sub|], s[i + k..i + k + |sub|];
    assert forall m :: 0 <= m < |sub| ==> inner[m] == outer[m];
    assert inner == outer;
    assert OccursAt(s, sub, i + k);
  }

  /** Index of the first occurrence of `sub` in `s` at or after `from`. */
  function FindFrom(s: string, sub: string, from: nat): (r: Option<nat>)
    requires from <= |s|
    ensures r.Some? ==> from <= r.value && OccursAt(s, sub, r.value)
    ensures r.Some? ==> forall k :: from <= k < r.value ==> !OccursAt(s, sub, k)
    ensures r.None? ==> forall k :: from <= k ==> !OccursAt(s, sub, k)
    decreases |s| - from
  {
    if OccursAt(s, sub, from) then Some(from)
    else if from + |sub| >= |s| then
      assert forall k :: from < k ==> !OccursAt(s, sub, k);
      None
    else FindFrom(s, sub, from + 1)
  }

  /** Python's `s.split(sep)` for a non-empty separator: the pieces between
      successive leftmost, non-overlapping occurrences of `sep`. */
  function Split(s: string, sep: string): (parts: seq<string>)
    requires |sep| > 0
    ensures |parts| >= 1
    ensures forall k :: 0 <= k < |parts| ==> !Occurs(parts[k], sep)
    ensures Join(parts, sep) == s
    decreases |s|
  {
    match FindFrom(s, sep, 0)
    case None => [s]
    case Some(i) =>
      var head := s[..i];
      var rest := Split(s[i + |sep|..], sep);
      assert !Occurs(head, sep) by {
        if Occurs(head, sep) {
          var k :| OccursAt(head, sep, k);
          assert head[k..k + |sep|] == s[k..k + |sep|];
          assert OccursAt(s, sep, k);
        }
      }
      var parts := [head] + rest;
      assert parts[1..] == rest;
      assert s == head + sep + s[i + |sep|..];
      parts
  }

  /** Python's `sep.join(parts)`. */
  function Join(parts: seq<string>, sep: string): string {
    if |parts| == 0 then ""
    else if |parts| == 1 then parts[0]
    else parts[0] + sep + Join(parts[1..], sep)
  }

  /** The characters Python's `str.isspace()` accepts. */
  predicate IsSpace(c: char) {
    || c == ' ' || c == '\t' || c == '\n' || c == '\r'
    || c == '\U{000B}' || c == '\U{000C}'
    || ('\U{001C}' <= c <= '\U{001F}')
    || c == '\U{0085}' || c == '\U{00A0}' || c == '\U{1680}'
    || ('\U{2000}' <= c <= '\U{200A}')
    || c == '\U{2028}' || c == '\U{2029}' || c == '\U{202F}'
    || c == '\U{205F}' || c == '\U{3000}'
  }

  predicate AllSpace(s: string) {
    forall k :: 0 <= k < |s| ==> IsSpace(s[k])
  }

  /** Neither end of `s` is whitespace. */
  predicate IsTrimmed(s: string) {
    |s| == 0 || (!IsSpace(s[0]) && !IsSpace(s[|s| - 1]))
  }

  function TrimLeft(s: string): (r: string)
    ensures |r| <= |s| && r == s[|s| - |r|..]
    ensures AllSpace(s[..|s| - |r|])
    ensures |r| == 0 || !IsSpace(r[0])
  {
    if |s| > 0 && IsSpace(s[0]) then
      var t := s[1..];
      var r := TrimLeft(t);
      assert t[|t| - |r|..] == s[|s| - |r|..];
      assert s[..|s| - |r|] == [s[0]] + t[..|t| - |r|];
      r
    else s
  }

  function TrimRight(s: string): (r: string)
    ensures |r| <= |s| && r == s[..|r|]
    ensures AllSpace(s[|r|..])
    ensures |r| == 0 || !IsSpace(r[|r| - 1])
  {
    if |s| > 0 && IsSpace(s[|s| - 1]) then
      var t := s[..|s| - 1];
      var r := TrimRight(t);
      assert t[..|r|] == s[..|r|];
      assert s[|r|..] == t[|r|..] + [s[|s| - 1]];
      r
    else s
  }

  /** `r` is the infix of `s` at `i`, and everything outside it is whitespace. */
  predicate SpaceBounded(s: string, r: string, i: int) {
    0 <= i && i + |r| <= |s| && r == s[i..i + |r|]
    && AllSpace(s[..i]) && AllSpace(s[i + |r|..])
  }

  /** Python's `s.strip()`: `s` with its whitespace ends cut off. */
  function Strip(s: string): (r: string)
    ensures IsTrimmed(r)
    ensures SpaceBounded(s, r, |s| - |TrimLeft(s)|)
  {
    var t := TrimLeft(s);
    var r := TrimRight(t);
    TrimBoth(s, t, r);
    r
  }

  /** Trimming the left end and then the right end leaves an infix of `s`
      whose surroundings are whitespace. */
  lemma TrimBoth(s: string, t: string, r: string)
    requires |t| <= |s| && t == s[|s| - |t|..] && AllSpace(s[..|s| - |t|])
    requires |t| == 0 || !IsSpace(t[0])
    requires |r| <= |t| && r == t[..|r|] && AllSpace(t[|r|..])
    requires |r| == 0 || !IsSpace(r[|r| - 1])
    ensures IsTrimmed(r) && SpaceBounded(s, r, |s| - |t|)
  {
    var i := |s| - |t|;
    assert r == s[i..i + |r|];
    assert s[i + |r|..] == t[|r|..];
  }

  /** A string without whitespace ends is its own `strip()`. */
  lemma StripTrimmed(s: string)
    requires IsTrimmed(s)
    ensures Strip(s) == s
  {
  }

  /** `strip()` is idempotent. */
  lemma StripIdempotent(s: string)
    ensures Strip(Strip(s)) == Strip(s)
  {
    StripTrimmed(Strip(s));
  }

  /** `strip()` leaves an empty result exactly when `s` is all whitespace. */
  lemma StripEmpty(s: string)
    ensures Strip(s) == "" <==> AllSpace(s)
  {
    var r := Strip(s);
    var i := |s| - |TrimLeft(s)|;
    if |r| > 0 {
      assert r[0] == s[i];
    } else {
      assert TrimLeft(s) == "";
      assert s[..i] == s;
    }
  }

  /** Python's `str.lower()` on one character, for the ASCII and Latin-1
      letters (the only upper-case letters the model distinguishes). */
  function LowerChar(c: char): char {
    if 'A' <= c <= 'Z' || ('\U{00C0}' <= c <= '\U{00DE}' && c != '\U{00D7}') then
      (c as int + 32) as char
    else c
  }

  predicate IsUpper(c: char) {
    'A' <= c <= 'Z' || ('\U{00C0}' <= c <= '\U{00DE}' && c != '\U{00D7}')
  }

  /** Python's `s.lower()`. */
  function Lower(s: string): (r: string)
    ensures |r| == |s|
    ensures forall k :: 0 <= k < |s| ==> r[k] == LowerChar(s[k])
    ensures forall k :: 0 <= k < |r| ==> !IsUpper(r[k])
  {
    seq(|s|, k requires 0 <= k < |s| => LowerChar(s[k]))
  }

  /** Lower-casing is idempotent. */
  lemma LowerIdempotent(s: string)
    ensures Lower(Lower(s)) == Lower(s)
  {
  }

  /** Python's `s.replace(a, b)` for one-character `a` and `b`. */
  function ReplaceChar(s: string, a: char, b: char): (r: string)
    ensures |r| == |s|
    ensures forall k :: 0 <= k < |s| ==> r[k] == if s[k] == a then b else s[k]
  {
    seq(|s|, k requires 0 <= k < |s| => if s[k] == a then b else s[k])
  }

  /** The characters of `s` that satisfy `keep`, in order
      (`''.join(filter(keep, s))`). */
  function FilterChars(s: string, keep: char -> bool): (r: string)
    ensures |r| <= |s|
    ensures forall k :: 0 <= k < |r| ==> keep(r[k])
    ensures forall c :: c in r <==> c in s && keep(c)
  {
    if |s| == 0 then ""
    else
      var rest := FilterChars(s[1..], keep);
      if keep(s[0]) then [s[0]] + rest else rest
  }

  /** A filter that keeps every character is the identity. */
  lemma {:induction false} FilterCharsAll(s: string, keep: char -> bool)
    requires forall k :: 0 <= k < |s| ==> keep(s[k])
    ensures FilterChars(s, keep) == s
  {
    if |s| > 0 {
      FilterCharsAll(s[1..], keep);
    }
  }

  /** Filtering distributes over concatenation. */
  lemma {:induction false} FilterCharsConcat(a: string, b: string, keep: char -> bool)
    ensures FilterChars(a + b, keep) == FilterChars(a, keep) + FilterChars(b, keep)
  {
    if |a| > 0 {
      assert (a + b)[0] == a[0] && (a + b)[1..] == a[1..] + b;
      FilterCharsConcat(a[1..], b, keep);
    } else {
      assert a + b == b;
    }
  }

  /** Filtering a string with one more character in front. */
  lemma FilterCharsCons(x: char, s: string, keep: char -> bool)
    ensures FilterChars([x] + s, keep) == (if keep(x) then [x] else []) + FilterChars(s, keep)
  {
    assert ([x] + s)[0] == x && ([x] + s)[1..] == s;
  }

  /** Filtering twice keeps the characters both filters keep. */
  lemma {:induction false} FilterCharsTwice(s: string, p: char -> bool, q: char -> bool, pq: char -> bool)
    requires forall c :: pq(c) == (p(c) && q(c))
    ensures FilterChars(FilterChars(s, p), q) == FilterChars(s, pq)
  {
    if |s| > 0 {
      FilterCharsTwice(s[1..], p, q, pq);
      var rest := FilterChars(s[1..], p);
      if p(s[0]) {
        assert ([s[0]] + rest)[1..] == rest;
      }
    }
  }

  /** A character that is not whitespace. */
  predicate NotSpace(c: char) {
    !IsSpace(c)
  }

  /** Whitespace holds nothing but whitespace. */
  lemma SpacesVanish(s: string)
    requires AllSpace(s)
    ensures FilterChars(s, NotSpace) == ""
  {
    if |s| > 0 {
      assert !NotSpace(s[0]);
      assert AllSpace(s[1..]) by {
        forall k | 0 <= k < |s| - 1 ensures IsSpace(s[1..][k]) {
          assert s[1..][k] == s[k + 1];
        }
      }
      SpacesVanish(s[1..]);
    }
  }

  /** Cutting whitespace off the left end keeps every other character. */
  lemma TrimLeftKeeps(s: string)
    ensures FilterChars(TrimLeft(s), NotSpace) == FilterChars(s, NotSpace)
  {
    var t := TrimLeft(s);
    assert s == s[..|s| - |t|] + t;
    FilterCharsConcat(s[..|s| - |t|], t, NotSpace);
    SpacesVanish(s[..|s| - |t|]);
  }

  /** `strip()` keeps every character that is not whitespace, in order. */
  lemma StripKeeps(s: string)
    ensures FilterChars(Strip(s), NotSpace) == FilterChars(s, NotSpace)
  {
    var r, i := Strip(s), |s| - |TrimLeft(s)|;
    assert SpaceBounded(s, r, i);
    SpaceBoundedKeeps(s, r, i);
  }

  /** The head and the tail of a concatenation with a non-empty front. */
  lemma ConcatTail<T>(a: seq<T>, b: seq<T>)
    requires |a| > 0
    ensures (a + b)[0] == a[0] && (a + b)[1..] == a[1..] + b
  {
  }

  /** A non-empty front split into its head and tail. */
  lemma ConsHead<T>(a: seq<T>, b: seq<T>)
    requires |a| > 0
    ensures [a[0]] + (a[1..] + b) == a + b
  {
    assert a == [a[0]] + a[1..];
  }

  /** Regrouping a concatenation of four pieces. */
  lemma Regroup<T>(p: seq<T>, q: seq<T>, x: seq<T>, y: seq<T>)
    ensures p + (q + x + y) == p + q + x + y
    ensures p + (q + (x + y)) == p + q + x + y
  {
  }

  /** The last element of a non-empty suffix is the last element. */
  lemma LastOfSuffix<T>(s: seq<T>, t: seq<T>)
    requires 0 < |t| <= |s| && t == s[|s| - |t|..]
    ensures t[|t| - 1] == s[|s| - 1]
  {
  }

  /** A suffix of the back part is a suffix of the whole. */
  lemma SuffixOfSuffix<T>(a: seq<T>, b: seq<T>, t: seq<T>)
    requires |t| <= |b| && t == b[|b| - |t|..]
    ensures t == (a + b)[|a + b| - |t|..]
  {
  }

  /** Joining with a word in front. */
  lemma JoinCons(w: string, ws: seq<string>, sep: string)
    requires |ws| > 0
    ensures Join([w] + ws, sep) == w + sep + Join(ws, sep)
  {
    ConsRest(w, ws);
  }

  /** Regrouping a concatenation of three pieces. */
  lemma Regroup3<T>(p: seq<T>, q: seq<T>, x: seq<T>)
    ensures p + (q + x) == p + q + x
  {
  }

  lemma EmptyConcat<T>(a: seq<T>, x: seq<T>)
    requires |a| == 0
    ensures a + x == x
  {
  }

  /** The tail of a sequence with one element in front. */
  lemma ConsRest<T>(x: T, s: seq<T>)
    ensures ([x] + s)[1..] == s && [x] + [] == [x]
  {
  }

  /** A sequence cut at `n` and put back together. */
  lemma SplitAt<T>(s: seq<T>, n: nat)
    requires n <= |s|
    ensures s[..n] + s[n..] == s
  {
  }

  lemma ThreeParts<T>(s: seq<T>, i: int, j: int)
    requires 0 <= i <= j <= |s|
    ensures s == s[..i] + s[i..j] + s[j..]
  {
  }

  /** Whitespace around an infix holds no other character. */
  lemma SpaceBoundedKeeps(s: string, r: string, i: int)
    requires SpaceBounded(s, r, i)
    ensures FilterChars(r, NotSpace) == FilterChars(s, NotSpace)
  {
    var a, b := s[..i], s[i + |r|..];
    ThreeParts(s, i, i + |r|);
    SpacesVanish(a);
    SpacesVanish(b);
    KeepsBetween(a, r, b);
  }

  lemma KeepsBetween(a: string, r: string, b: string)
    requires FilterChars(a, NotSpace) == "" && FilterChars(b, NotSpace) == ""
    ensures FilterChars(a + r + b, NotSpace) == FilterChars(r, NotSpace)
  {
    FilterCharsConcat(a + r, b, NotSpace);
    FilterCharsConcat(a, r, NotSpace);
  }

  /** Two filters that agree on every character of `s` keep the same text. */
  lemma {:induction false} FilterCharsSame(s: string, p: char -> bool, q: char -> bool)
    requires forall k :: 0 <= k < |s| ==> p(s[k]) == q(s[k])
    ensures FilterChars(s, p) == FilterChars(s, q)
  {
    if |s| > 0 {
      FilterCharsSame(s[1..], p, q);
    }
  }

  /** Filtering a joined text: a separator the filter drops disappears,
      leaving the pieces' kept characters, in order. */
  lemma {:induction false} JoinKeeps(parts: seq<string>, sep: string, keep: char -> bool)
    requires FilterChars(sep, keep) == ""
    ensures FilterChars(Join(parts, sep), keep) == FilterChars(Flatten(parts), keep)
  {
    if |parts| > 1 {
      var head, tail := parts[0], Join(parts[1..], sep);
      JoinKeeps(parts[1..], sep, keep);
      FilterCharsConcat(head + sep, tail, keep);
      FilterCharsConcat(head, sep, keep);
      FilterCharsConcat(head, Flatten(parts[1..]), keep);
    }
  }

  /** Pieces that keep the same characters, piece by piece, keep the same
      characters once concatenated. */
  lemma {:induction false} FlattenKeeps(a: seq<string>, b: seq<string>, p: char -> bool, q: char -> bool)
    requires |a| == |b|
    requires forall k :: 0 <= k < |a| ==> FilterChars(a[k], p) == FilterChars(b[k], q)
    ensures FilterChars(Flatten(a), p) == FilterChars(Flatten(b), q)
  {
    if |a| > 0 {
      assert forall k :: 0 <= k < |a| - 1 ==> a[1..][k] == a[k + 1] && b[1..][k] == b[k + 1];
      FlattenKeeps(a[1..], b[1..], p, q);
      FilterCharsConcat(a[0], Flatten(a[1..]), p);
      FilterCharsConcat(b[0], Flatten(b[1..]), q);
    }
  }

  /** Python's `s.count(c)` for one character. */
  function CountChar(s: string, c: char): nat {
    if |s| == 0 then 0 else (if s[0] == c then 1 else 0) + CountChar(s[1..], c)
  }

  lemma {:induction false} CountCharConcat(a: string, b: string, c: char)
    ensures CountChar(a + b, c) == CountChar(a, c) + CountChar(b, c)
  {
    if |a| > 0 {
      assert (a + b)[0] == a[0] && (a + b)[1..] == a[1..] + b;
      CountCharConcat(a[1..], b, c);
    } else {
      assert a + b == b;
    }
  }

  lemma {:induction false} CountCharAbsent(s: string, c: char)
    requires c !in s
    ensures CountChar(s, c) == 0
  {
    if |s| > 0 {
      assert c !in s[1..];
      CountCharAbsent(s[1..], c);
    }
  }

  /** Joining `n` pieces that hold no separator character puts `n - 1`
      separators in the text. */
  lemma {:induction false} JoinCount(parts: seq<string>, sep: string)
    requires |sep| == 1 && |parts| >= 1
    requires forall k :: 0 <= k < |parts| ==> sep[0] !in parts[k]
    ensures CountChar(Join(parts, sep), sep[0]) == |parts| - 1
  {
    CountCharAbsent(parts[0], sep[0]);
    if |parts| > 1 {
      assert forall k :: 0 <= k < |parts| - 1 ==> parts[1..][k] == parts[k + 1];
      JoinCount(parts[1..], sep);
      CountCharConcat(parts[0] + sep, Join(parts[1..], sep), sep[0]);
      CountCharConcat(parts[0], sep, sep[0]);
      assert CountChar(sep, sep[0]) == 1;
    }
  }

  /** A one-character separator that does not occur is a character that
      is absent. */
  lemma NoOccursChar(s: string, sep: string)
    requires |sep| == 1 && !Occurs(s, sep)
    ensures sep[0] !in s
  {
    forall k | 0 <= k < |s| ensures s[k] != sep[0] {
      assert !OccursAt(s, sep, k);
      assert s[k..k + 1] == [s[k]] && sep == [sep[0]];
    }
  }

  /** `s.split(c)` for one character `c` gives one more piece than `c`
      occurs in `s`, and no piece holds `c`. */
  lemma SplitCount(s: string, sep: string)
    requires |sep| == 1
    ensures forall k :: 0 <= k < |Split(s, sep)| ==> sep[0] !in Split(s, sep)[k]
    ensures |Split(s, sep)| == CountChar(s, sep[0]) + 1
  {
    var parts := Split(s, sep);
    forall k | 0 <= k < |parts| ensures sep[0] !in parts[k] {
      NoOccursChar(parts[k], sep);
    }
    JoinCount(parts, sep);
  }

  /** Every character of `strip()`'s result is a character of its input. */
  lemma StripChars(s: string)
    ensures forall c :: c in Strip(s) ==> c in s
  {
    var r, i := Strip(s), |s| - |TrimLeft(s)|;
    assert SpaceBounded(s, r, i);
    forall c | c in r ensures c in s {
      var k :| 0 <= k < |r| && r[k] == c;
      assert s[i + k] == c;
    }
  }

  /** Whitespace in front of text that starts with something else is
      exactly what `lstrip()` removes. */
  lemma {:induction false} TrimLeftSpaces(w: string, b: string)
    requires AllSpace(w) && (|b| == 0 || !IsSpace(b[0]))
    ensures TrimLeft(w + b) == b
  {
    if |w| > 0 {
      assert (w + b)[1..] == w[1..] + b;
      assert AllSpace(w[1..]) by {
        forall k | 0 <= k < |w| - 1 ensures IsSpace(w[1..][k]) {
          assert w[1..][k] == w[k + 1];
        }
      }
      TrimLeftSpaces(w[1..], b);
    } else {
      assert w + b == b;
    }
  }

  /** Whitespace after text that ends with something else is exactly what
      `rstrip()` removes. */
  lemma {:induction false} TrimRightSpaces(a: string, w: string)
    requires AllSpace(w) && (|a| == 0 || !IsSpace(a[|a| - 1]))
    ensures TrimRight(a + w) == a
  {
    if |w| > 0 {
      var v := w[..|w| - 1];
      assert (a + w)[..|a + w| - 1] == a + v;
      assert AllSpace(v) by {
        forall k | 0 <= k < |v| ensures IsSpace(v[k]) {
          assert v[k] == w[k];
        }
      }
      TrimRightSpaces(a, v);
    } else {
      assert a + w == a;
    }
  }

  /** `strip()` of a trimmed text with whitespace around it is that text. */
  lemma StripAround(a: string, r: string, b: string)
    requires AllSpace(a) && AllSpace(b) && IsTrimmed(r)
    ensures Strip(a + r + b) == r
  {
    if |r| > 0 {
      assert a + r + b == a + (r + b);
      TrimLeftSpaces(a, r + b);
      TrimRightSpaces(r, b);
    } else {
      assert a + r + b == (a + b) + "";
      assert AllSpace(a + b) by {
        forall k | 0 <= k < |a + b| ensures IsSpace((a + b)[k]) {
          if k < |a| {
            assert (a + b)[k] == a[k];
          } else {
            assert (a + b)[k] == b[k - |a|];
          }
        }
      }
      TrimLeftSpaces(a + b, "");
    }
  }

  /** Text ending in a non-whitespace character: whatever follows it does
      not change where `lstrip()` stops. */
  lemma {:induction false} TrimLeftConcat(a: string, rest: string)
    requires |a| > 0 && !IsSpace(a[|a| - 1])
    ensures |TrimLeft(a)| > 0 && TrimLeft(a)[|TrimLeft(a)| - 1] == a[|a| - 1]
    ensures TrimLeft(a + rest) == TrimLeft(a) + rest
  {
    if IsSpace(a[0]) {
      assert (a + rest)[1..] == a[1..] + rest;
      TrimLeftConcat(a[1..], rest);
    }
  }

  /** A word of `split()`: non-empty, without whitespace. */
  predicate IsWord(w: string) {
    |w| > 0 && forall j :: 0 <= j < |w| ==> NotSpace(w[j])
  }

  /** Python's `s.split()` with no argument: the maximal runs of characters
      other than whitespace, in order. */
  function Words(s: string): (ws: seq<string>)
    ensures forall k :: 0 <= k < |ws| ==> IsWord(ws[k])
    decreases |s|
  {
    var t := TrimLeft(s);
    if t == "" then []
    else
      var n := FindIndex(t, IsSpace);
      WordPrefix(t, n);
      var w, ws := t[..n], Words(t[n..]);
      WordsCons(w, ws);
      [w] + ws
  }

  lemma WordsCons(w: string, ws: seq<string>)
    requires IsWord(w) && forall k :: 0 <= k < |ws| ==> IsWord(ws[k])
    ensures forall k :: 0 <= k < |[w] + ws| ==> IsWord(([w] + ws)[k])
  {
  }

  /** The text before the first whitespace of a text that does not start
      with whitespace is a word. */
  lemma WordPrefix(t: string, n: nat)
    requires |t| > 0 && !IsSpace(t[0]) && n == FindIndex(t, IsSpace)
    ensures 0 < n <= |t| && IsWord(t[..n])
  {
    forall j | 0 <= j < n ensures NotSpace(t[..n][j]) {
      assert t[..n][j] == t[j];
    }
  }

  /** Leading whitespace does not change the words. */
  lemma WordsTrimLeft(s: string)
    ensures Words(TrimLeft(s)) == Words(s)
  {
    var t := TrimLeft(s);
    assert TrimLeft(t) == t;
  }

  /** Words joined by single spaces: no whitespace at either end. */
  lemma {:induction false} JoinWordsTrimmed(ws: seq<string>)
    requires forall k :: 0 <= k < |ws| ==> IsWord(ws[k])
    ensures var j := Join(ws, " "); |ws| == 0 || (|j| > 0 && !IsSpace(j[0]) && !IsSpace(j[|j| - 1]))
    ensures IsTrimmed(Join(ws, " "))
  {
    if |ws| > 1 {
      assert forall k :: 0 <= k < |ws| - 1 ==> ws[1..][k] == ws[k + 1];
      JoinWordsTrimmed(ws[1..]);
      var j := Join(ws[1..], " ");
      assert (ws[0] + " " + j)[0] == ws[0][0];
      assert (ws[0] + " " + j)[|ws[0]| + 1 + |j| - 1] == j[|j| - 1];
    } else if |ws| == 1 {
      assert !IsSpace(ws[0][0]) && !IsSpace(ws[0][|ws[0]| - 1]);
    }
  }

  /** An ASCII decimal digit (the model's reading of `\d` and `isdigit`). */
  predicate IsDigit(c: char) {
    '0' <= c <= '9'
  }

  predicate AllDigits(s: string) {
    forall k :: 0 <= k < |s| ==> IsDigit(s[k])
  }

  /** The value of a string of decimal digits, `int(s)`. */
  function DigitsValue(s: string): (n: nat)
    requires AllDigits(s)
  {
    if |s| == 0 then 0
    else DigitsValue(s[..|s| - 1]) * 10 + (s[|s| - 1] as int - '0' as int)
  }

  /** The decimal digits of `n` without leading zeros (`str(n)`). */
  function NatToDigits(n: nat): (s: string)
    ensures |s| >= 1 && AllDigits(s)
    ensures DigitsValue(s) == n
  {
    var d := ['0' + (n % 10) as char];
    if n < 10 then
      assert DigitsValue(d) == DigitsValue(d[..0]) * 10 + n;
      d
    else
      var s := NatToDigits(n / 10) + d;
      assert s[..|s| - 1] == NatToDigits(n / 10);
      s
  }

  /** `n` rendered with at least `width` digits, zero-padded on the left
      (`format(n, '0<width>d')`). */
  function ZeroPad(n: nat, width: nat): (s: string)
    ensures |s| >= width && AllDigits(s)
    ensures DigitsValue(s) == n
  {
    var digits := NatToDigits(n);
    if |digits| >= width then digits
    else
      var s := seq(width - |digits|, _ => '0') + digits;
      LeadingZeros(width - |digits|, digits);
      s
  }

  lemma {:induction false} LeadingZeros(z: nat, digits: string)
    requires AllDigits(digits)
    ensures AllDigits(seq(z, _ => '0') + digits)
    ensures DigitsValue(seq(z, _ => '0') + digits) == DigitsValue(digits)
    decreases z + |digits|
  {
    var s := seq(z, _ => '0') + digits;
    if |digits| == 0 {
      if z > 0 {
        assert s[..|s| - 1] == seq(z - 1, _ => '0') + "";
        LeadingZeros(z - 1, "");
      }
    } else {
      assert s[..|s| - 1] == seq(z, _ => '0') + digits[..|digits| - 1];
      LeadingZeros(z, digits[..|digits| - 1]);
    }
  }

  /** `FindFrom` stops at the first occurrence at or after `from`. */
  lemma {:induction false} FindFromFirst(s: string, sub: string, from: nat, i: nat)
    requires from <= i && OccursAt(s, sub, i)
    requires forall k :: from <= k < i ==> !OccursAt(s, sub, k)
    ensures FindFrom(s, sub, from) == Some(i)
    decreases i - from
  {
    if from < i {
      FindFromFirst(s, sub, from + 1, i);
    }
  }

  /** Splitting on a one-character separator undoes joining on it, provided
      no piece contains the separator. */
  lemma {:induction false} SplitJoin(parts: seq<string>, sep: string)
    requires |sep| == 1 && |parts| >= 1
    requires forall k :: 0 <= k < |parts| ==> sep[0] !in parts[k]
    ensures Split(Join(parts, sep), sep) == parts
  {
    var s := Join(parts, sep);
    if |parts| == 1 {
      forall k | 0 <= k < |s| ensures !OccursAt(s, sep, k) {
        assert s[k..k + 1][0] == s[k];
      }
    } else {
      SplitJoin(parts[1..], sep);
      SplitHead(parts[0], sep, Join(parts[1..], sep));
    }
  }

  /** The first piece of `head + sep + tail` is `head` when `head` holds no
      separator character. */
  lemma SplitHead(head: string, sep: string, tail: string)
    requires |sep| == 1 && sep[0] !in head
    ensures Split(head + sep + tail, sep) == [head] + Split(tail, sep)
  {
    var s := head + sep + tail;
    assert OccursAt(s, sep, |head|);
    forall k | 0 <= k < |head| ensures !OccursAt(s, sep, k) {
      assert s[k] == head[k];
    }
    FindFromFirst(s, sep, 0, |head|);
    assert s[..|head|] == head;
    assert s[|head| + |sep|..] == tail;
  }

  /** Python's string order `a < b`: lexicographic by code point, a proper
      prefix first. */
  predicate StrLess(a: string, b: string) {
    if |a| == 0 then |b| > 0
    else if |b| == 0 then false
    else if a[0] != b[0] then a[0] < b[0]
    else StrLess(a[1..], b[1..])
  }

  lemma {:induction false} StrLessIrreflexive(a: string)
    ensures !StrLess(a, a)
  {
    if |a| > 0 {
      StrLessIrreflexive(a[1..]);
    }
  }

  lemma {:induction false} StrLessTrans(a: string, b: string, c: string)
    requires StrLess(a, b) && StrLess(b, c)
    ensures StrLess(a, c)
  {
    if |a| > 0 && |b| > 0 && |c| > 0 && a[0] == b[0] && b[0] == c[0] {
      StrLessTrans(a[1..], b[1..], c[1..]);
    }
  }

  /** Two different strings are ordered one way or the other. */
  lemma {:induction false} StrLessTotal(a: string, b: string)
    requires a != b
    ensures StrLess(a, b) || StrLess(b, a)
  {
    if |a| > 0 && |b| > 0 && a[0] == b[0] {
      assert a == [a[0]] + a[1..] && b == [b[0]] + b[1..];
      StrLessTotal(a[1..], b[1..]);
    }
  }
}

=== FILE: threaded.dfy ===
/** The sequential fragments of the multi-threaded scraper: the split of
    the property URLs among worker threads, the search URLs, the price
    range of a listing, the category label, the traveller-type field
    names, and the CSV header and rows a batch is written with. */
module Threaded {
  import opened Wrappers
  import opened Seqs
  import opened Strings
  import opened Booking

  // ---------------------------------------------------------------------
  // Dividing the property URLs among threads

  /** Chunk `i` of `n`: `len // n` URLs from `i * (len // n)`, the last
      chunk running to the end of the list. */
  function Chunk<T>(urls: seq<T>, n: nat, i: nat): seq<T>
    requires i < n
  {
    var size := |urls| / n;
    ChunkBounds(|urls|, n, i);
    if i == n - 1 then urls[i * size..] else urls[i * size..i * size + size]
  }

  /** Chunk boundaries stay inside the list. */
  lemma ChunkBounds(len: nat, n: nat, i: nat)
    requires i < n
    ensures 0 <= i * (len / n) <= len
    ensures i < n - 1 ==> i * (len / n) + len / n <= len
  {
    var size := len / n;
    assert n * size <= len;
    MulLe(i + 1, n, size);
    assert (i + 1) * size == i * size + size;
  }

  lemma MulLe(a: nat, b: nat, c: nat)
    requires a <= b
    ensures a * c <= b * c
  {
  }

  /** The split into `num_threads` chunks: `len // num_threads` raises
      `ZeroDivisionError` for zero threads, and a negative count gives no
      chunks. */
  function ChunkUrls<T>(urls: seq<T>, n: int): (r: Result<seq<seq<T>>>)
    ensures r.Failure? <==> n == 0
    ensures r.Failure? ==> r.error == ZeroDivisionError
    ensures n < 0 ==> r == Success([])
    ensures n > 0 ==> r.Success? && |r.value| == n
  {
    if n == 0 then Failure(ZeroDivisionError)
    else if n < 0 then Success([])
    else Success(seq(n, i requires 0 <= i < n => Chunk(urls, n, i)))
  }

  /** Every chunk but the last holds `len // n` URLs; the last holds the
      rest. */
  lemma ChunkSizes<T>(urls: seq<T>, n: int, i: nat)
    requires 0 <= i < n
    ensures i < n - 1 ==> |ChunkUrls(urls, n).value[i]| == |urls| / n
    ensures i == n - 1 ==> |ChunkUrls(urls, n).value[i]| == |urls| - (n - 1) * (|urls| / n)
  {
    assert ChunkUrls(urls, n).value[i] == Chunk(urls, n, i);
    ChunkBounds(|urls|, n, i);
  }

  /** The chunks partition the list: their concatenation, in thread order,
      is the URL list itself. */
  lemma ChunkUrlsPartition<T>(urls: seq<T>, n: int)
    requires n > 0
    ensures Flatten(ChunkUrls(urls, n).value) == urls
  {
    var cs := ChunkUrls(urls, n).value;
    var b := Boundaries(|urls|, n);
    forall i | 0 <= i < n ensures SliceAt(urls, cs, b, i) {
      ChunkBounds(|urls|, n, i);
      if i < n - 1 {
        ChunkBounds(|urls|, n, i + 1);
        assert (i + 1) * (|urls| / n) == i * (|urls| / n) + |urls| / n;
      }
    }
    FlattenSlices(urls, cs, b, 0);
    assert cs[0..] == cs;
  }

  /** Where each chunk starts, followed by the end of the list. */
  function Boundaries(len: nat, n: nat): (b: seq<nat>)
    requires n > 0
    ensures |b| == n + 1 && b[n] == len
    ensures forall i :: 0 <= i < n ==> b[i] == i * (len / n)
  {
    seq(n + 1, i requires 0 <= i <= n => if i == n then len else MulNat(i, len / n))
  }

  function MulNat(a: nat, b: nat): (r: nat)
    ensures r == a * b
  {
    a * b
  }

  /** Piece `i` is the part of `urls` between boundaries `i` and `i + 1`. */
  ghost predicate SliceAt<T>(urls: seq<T>, cs: seq<seq<T>>, b: seq<nat>, i: int)
    requires 0 <= i < |cs| && |b| == |cs| + 1
  {
    b[i] <= b[i + 1] <= |urls| && cs[i] == urls[b[i]..b[i + 1]]
  }

  /** Pieces cut from consecutive boundaries concatenate back to the cut
      sequence. */
  lemma {:induction false} FlattenSlices<T>(urls: seq<T>, cs: seq<seq<T>>, b: seq<nat>, j: nat)
    requires |b| == |cs| + 1 && j <= |cs| && b[|cs|] == |urls|
    requires forall i :: 0 <= i < |cs| ==> SliceAt(urls, cs, b, i)
    ensures b[j] <= |urls| && Flatten(cs[j..]) == urls[b[j]..]
    decreases |cs| - j
  {
    if j < |cs| {
      assert SliceAt(urls, cs, b, j);
      FlattenSlices(urls, cs, b, j + 1);
      assert cs[j..][1..] == cs[j + 1..];
      assert urls[b[j]..b[j + 1]] + urls[b[j + 1]..] == urls[b[j]..];
    }
  }

  /** The chunks handed to a worker: `if url_chunk:` skips empty ones. */
  function Submitted<T>(chunks: seq<seq<T>>): (r: seq<seq<T>>)
    ensures |r| <= |chunks|
    ensures forall k :: 0 <= k < |r| ==> r[k] in chunks && |r[k]| > 0
    ensures forall k :: 0 <= k < |chunks| && |chunks[k]| > 0 ==> chunks[k] in r
  {
    FilterIndexed(chunks, NonEmpty);
    Filter(chunks, NonEmpty)
  }

  /** Every submitted chunk is non-empty, and together the submitted chunks
      still cover every URL, in order. */
  lemma SubmittedCoversAll<T(!new)>(urls: seq<T>, n: int)
    requires n > 0
    ensures var sub := Submitted(ChunkUrls(urls, n).value);
      && (forall k :: 0 <= k < |sub| ==> |sub[k]| > 0)
      && Flatten(sub) == urls
  {
    var cs := ChunkUrls(urls, n).value;
    FilterPreserves(cs, NonEmpty, (c: seq<T>) => true);
    FlattenDropEmpty(cs);
    ChunkUrlsPartition(urls, n);
  }

  /** With at least as many URLs as threads, no chunk is empty: every
      thread gets work. */
  lemma EveryThreadBusy<T>(urls: seq<T>, n: int)
    requires 0 < n <= |urls|
    ensures forall i :: 0 <= i < n ==> |ChunkUrls(urls, n).value[i]| > 0
  {
    ChunkSizeBounds(|urls|, n);
    forall i | 0 <= i < n ensures |ChunkUrls(urls, n).value[i]| > 0 {
      ChunkSizes(urls, n, i);
    }
  }

  lemma ChunkSizeBounds(len: nat, n: nat)
    requires 0 < n <= len
    ensures len / n >= 1
    ensures len - (n - 1) * (len / n) >= len / n
  {
    var size := len / n;
    assert n * size <= len;
    assert (n - 1) * size + size == n * size;
  }

  // ---------------------------------------------------------------------
  // url_builder

  const SearchBase: string := "https://www.booking.com/searchresults.html?"

  /** The query parameters, in the order the source's dict lists them. */
  function SearchParams(city: string, checkin: string, checkout: string): seq<string> {
    ["ss=" + city, "checkin=" + checkin, "checkout=" + checkout,
     "group_adults=1", "no_rooms=1", "group_children=0"]
  }

  /** `url_builder`: one search URL per destination, in order. The check-in
      and check-out dates (today and tomorrow) are parameters. The city is
      inserted as it is, without URL-encoding. */
  function UrlBuilder(destinations: seq<string>, checkin: string, checkout: string): (urls: seq<string>)
    ensures |urls| == |destinations|
    ensures forall i :: 0 <= i < |urls| ==> SearchBase <= urls[i]
  {
    seq(|destinations|, i requires 0 <= i < |destinations| =>
      SearchBase + Join(SearchParams(destinations[i], checkin, checkout), "&"))
  }

  /** The query string of each URL splits back into the six parameters,
      the first naming the destination, as long as no value contains '&'. */
  lemma UrlBuilderParses(destinations: seq<string>, checkin: string, checkout: string, i: nat)
    requires i < |destinations|
    requires '&' !in destinations[i] && '&' !in checkin && '&' !in checkout
    ensures var url := UrlBuilder(destinations, checkin, checkout)[i];
      Split(url[|SearchBase|..], "&") == SearchParams(destinations[i], checkin, checkout)
  {
    var ps := SearchParams(destinations[i], checkin, checkout);
    var url := UrlBuilder(destinations, checkin, checkout)[i];
    assert url[|SearchBase|..] == Join(ps, "&");
    SplitJoin(ps, "&");
  }

  // ---------------------------------------------------------------------
  // Price range of a listing

  /** `''.join(filter(str.isdigit, price_text))`; stripping the text first
      makes no difference to the digits kept. */
  function PriceDigits(text: string): (d: string)
    ensures AllDigits(d)
  {
    FilterChars(text, IsDigit)
  }

  /** The prices parsed from the price cells, in order: cells without a
      digit are skipped. */
  function Prices(texts: seq<string>): (ps: seq<nat>)
    ensures forall p :: p in ps <==>
      exists k :: 0 <= k < |texts| && PriceDigits(texts[k]) != "" && p == DigitsValue(PriceDigits(texts[k]))
  {
    if |texts| == 0 then []
    else
      var d := PriceDigits(texts[0]);
      var rest := Prices(texts[1..]);
      assert forall k :: 1 <= k < |texts| ==> texts[k] == texts[1..][k - 1];
      if d != "" then [DigitsValue(d)] + rest else rest
  }

  lemma PricesEmpty(texts: seq<string>)
    ensures Prices(texts) == [] <==> forall k :: 0 <= k < |texts| ==> PriceDigits(texts[k]) == ""
  {
    if Prices(texts) != [] {
      assert Prices(texts)[0] in Prices(texts);
    }
    if exists k :: 0 <= k < |texts| && PriceDigits(texts[k]) != "" {
      var k :| 0 <= k < |texts| && PriceDigits(texts[k]) != "";
      assert DigitsValue(PriceDigits(texts[k])) in Prices(texts);
    }
  }

  function SeqMin(s: seq<nat>): (m: nat)
    requires |s| > 0
    ensures m in s && forall k :: 0 <= k < |s| ==> m <= s[k]
  {
    if |s| == 1 then s[0]
    else
      var m := SeqMin(s[1..]);
      assert forall k :: 1 <= k < |s| ==> s[k] == s[1..][k - 1];
      if s[0] <= m then s[0] else m
  }

  function SeqMax(s: seq<nat>): (m: nat)
    requires |s| > 0
    ensures m in s && forall k :: 0 <= k < |s| ==> s[k] <= m
  {
    if |s| == 1 then s[0]
    else
      var m := SeqMax(s[1..]);
      assert forall k :: 1 <= k < |s| ==> s[k] == s[1..][k - 1];
      if s[0] >= m then s[0] else m
  }

  /** `min_price_per_night` and `max_price_per_night`, set only when at least
      one price was parsed. */
  function PriceRange(texts: seq<string>): (r: Option<(nat, nat)>)
    ensures r.None? <==> forall k :: 0 <= k < |texts| ==> PriceDigits(texts[k]) == ""
    ensures r.Some? ==> r.value.0 <= r.value.1
    ensures r.Some? ==> r.value.0 in Prices(texts) && r.value.1 in Prices(texts)
    ensures r.Some? ==> forall k :: 0 <= k < |Prices(texts)| ==> r.value.0 <= Prices(texts)[k] <= r.value.1
  {
    var ps := Prices(texts);
    PricesEmpty(texts);
    if ps == [] then None else Some((SeqMin(ps), SeqMax(ps)))
  }

  // ---------------------------------------------------------------------
  // extract_category

  /** `(` at `p`, `)` at `q`, at least one character between and no `)`
      among them: a match of `\(([^)]+)\)` at `p`. */
  predicate GroupAt(s: string, p: int, q: int) {
    0 <= p && p + 1 < q < |s| && s[p] == '(' && s[q] == ')'
    && forall k :: p < k < q ==> s[k] != ')'
  }

  /** `re.search(r'\(([^)]+)\)', s)` from `from` on: the leftmost match. */
  function FirstGroup(s: string, from: nat): (r: Option<(nat, nat)>)
    requires from <= |s|
    ensures r.Some? ==> from <= r.value.0 && GroupAt(s, r.value.0, r.value.1)
    ensures r.Some? ==> forall p, q :: from <= p < r.value.0 ==> !GroupAt(s, p, q)
    ensures r.None? ==> forall p, q :: from <= p ==> !GroupAt(s, p, q)
    decreases |s| - from
  {
    if from == |s| then None
    else if s[from] == '(' then
      var q := from + 1 + FindIndex(s[from + 1..], c => c == ')');
      assert forall k :: from < k < q ==> s[k] == s[from + 1..][k - from - 1];
      if q < |s| && q > from + 1 then Some((from, q))
      else
        assert forall q' :: !GroupAt(s, from, q') by {
          if q < |s| {
            assert s[q] == ')';
          }
        }
        FirstGroup(s, from + 1)
    else FirstGroup(s, from + 1)
  }

  /** The category label shown in the breadcrumb: the text of its first
      parenthesised group, or the whole (stripped) text when there is none. */
  function BreadcrumbCategory(text: string): string {
    GroupText(Strip(text))
  }

  /** The inside of the first parenthesised group of `s`, or `s` itself. */
  function GroupText(s: string): string {
    match FirstGroup(s, 0)
    case None => s
    case Some((p, q)) => s[p + 1..q]
  }

  /** The label is the stripped text when it has no parenthesised group,
      and otherwise the non-empty, `)`-free inside of its first group. */
  lemma BreadcrumbCategorySpec(text: string)
    ensures var s := Strip(text); var c := BreadcrumbCategory(text);
      && (FirstGroup(s, 0).None? ==> c == s)
      && (FirstGroup(s, 0).Some? ==>
            (|c| > 0 && ')' !in c && c == s[FirstGroup(s, 0).value.0 + 1..FirstGroup(s, 0).value.1]))
  {
    var s := Strip(text);
    var g := FirstGroup(s, 0);
    if g.Some? {
      GroupTextSome(s, g);
    }
  }

  lemma GroupTextSome(s: string, g: Option<(nat, nat)>)
    requires g == FirstGroup(s, 0) && g.Some?
    ensures g.value.0 + 1 <= g.value.1 <= |s|
    ensures var c := GroupText(s); |c| > 0 && ')' !in c && c == s[g.value.0 + 1..g.value.1]
  {
    GroupInside(s, g.value.0, g.value.1);
  }

  lemma GroupInside(s: string, p: int, q: int)
    requires GroupAt(s, p, q)
    ensures |s[p + 1..q]| > 0 && ')' !in s[p + 1..q]
  {
    var g := s[p + 1..q];
    forall k | 0 <= k < |g| ensures g[k] != ')' {
      assert g[k] == s[p + 1 + k];
    }
  }

  /** The two relabelled categories; every other label is kept. */
  function Relabel(category: string): (r: string)
    ensures category == "Guest House" ==> r == "Riad"
    ensures category == "Condo Hotel" ==> r == "Apartment-Hotel"
    ensures category != "Guest House" && category != "Condo Hotel" ==> r == category
  {
    if category == "Guest House" then "Riad"
    else if category == "Condo Hotel" then "Apartment-Hotel"
    else category
  }

  /** Relabelling twice is relabelling once: no new label is itself
      relabelled. */
  lemma RelabelIdempotent(category: string)
    ensures Relabel(Relabel(category)) == Relabel(category)
  {
  }

  /** `extract_category` on the breadcrumb text it reads. */
  function ExtractCategory(text: string): (r: string)
    ensures r != "Guest House" && r != "Condo Hotel"
  {
    Relabel(BreadcrumbCategory(text))
  }

  // ---------------------------------------------------------------------
  // normalize_traveler_type

  /** The spellings of traveller types the review page uses, mapped to the
      field-name suffixes of the record. */
  const TravelerAliases: map<string, string> := map[
    "couple" := "couples",
    "group" := "groups_friends",
    "solo_traveler" := "solo_travelers",
    "solo_traveller" := "solo_travelers",
    "group_of_friends" := "groups_friends",
    "families" := "families",
    "family" := "families"]

  /** `traveler_type.lower().replace(' ', '_').replace('-', '_')`. */
  function Underscored(t: string): (r: string)
    ensures |r| == |t| && ' ' !in r && '-' !in r
    ensures forall k :: 0 <= k < |t| ==> r[k] == if t[k] == ' ' || t[k] == '-' then '_' else LowerChar(t[k])
    ensures forall k :: 0 <= k < |r| ==> !IsUpper(r[k])
  {
    ReplaceChar(ReplaceChar(Lower(t), ' ', '_'), '-', '_')
  }

  /** `normalize_traveler_type`. */
  function NormalizeTravelerType(t: string): (r: string)
    ensures ' ' !in r && '-' !in r
    ensures forall k :: 0 <= k < |r| ==> !IsUpper(r[k])
  {
    var u := Underscored(t);
    if u in TravelerAliases then AliasTargetsPlain(u); TravelerAliases[u] else u
  }

  /** Lower-case, without spaces or hyphens: a fixed point of `Underscored`. */
  predicate PlainSuffix(v: string) {
    ' ' !in v && '-' !in v && forall k :: 0 <= k < |v| ==> !IsUpper(v[k])
  }

  /** Every alias target is a plain suffix. */
  lemma AliasTargetsPlain(u: string)
    requires u in TravelerAliases
    ensures PlainSuffix(TravelerAliases[u])
  {
    var v := TravelerAliases[u];
    assert v in {"couples", "groups_friends", "solo_travelers", "families"};
    PlainTargets();
  }

  lemma PlainTargets()
    ensures PlainSuffix("couples") && PlainSuffix("groups_friends")
    ensures PlainSuffix("solo_travelers") && PlainSuffix("families")
  {
    LowerWord("couples");
    LowerWord("groups_friends");
    LowerWord("solo_travelers");
    LowerWord("families");
  }

  /** Words of ASCII lower-case letters and underscores are plain. */
  lemma LowerWord(v: string)
    requires forall k :: 0 <= k < |v| ==> 'a' <= v[k] <= 'z' || v[k] == '_'
    ensures PlainSuffix(v)
  {
  }

  /** Text without upper-case letters, spaces or hyphens is its own
      underscored form. */
  lemma UnderscoredFixed(t: string)
    requires ' ' !in t && '-' !in t
    requires forall k :: 0 <= k < |t| ==> !IsUpper(t[k])
    ensures Underscored(t) == t
  {
    assert Lower(t) == t;
  }

  /** Normalising a normalised traveller type changes nothing: every alias
      target is either not an alias or maps to itself. */
  lemma NormalizeTravelerTypeIdempotent(t: string)
    ensures NormalizeTravelerType(NormalizeTravelerType(t)) == NormalizeTravelerType(t)
  {
    var r := NormalizeTravelerType(t);
    UnderscoredFixed(r);
  }

  /** A spelling the table knows goes to its target; any other spelling
      is kept in its underscored form. */
  lemma NormalizeTravelerTypeSpec(t: string)
    ensures Underscored(t) in TravelerAliases ==> NormalizeTravelerType(t) == TravelerAliases[Underscored(t)]
    ensures Underscored(t) !in TravelerAliases ==> NormalizeTravelerType(t) == Underscored(t)
    ensures NormalizeTravelerType(t) in TravelerAliases ==> NormalizeTravelerType(t) == TravelerAliases[NormalizeTravelerType(t)]
  {
  }

  /** "Family", as the review page spells it, becomes "families". */
  lemma FamilyExample()
    ensures NormalizeTravelerType("Family") == "families"
  {
    FamilyCase("Family");
  }

  lemma FamilyCase(t: string)
    requires |t| == 6 && t[0] == 'F' && t[1] == 'a' && t[2] == 'm' && t[3] == 'i' && t[4] == 'l' && t[5] == 'y'
    ensures NormalizeTravelerType(t) == "families"
  {
    var u := Underscored(t);
    assert u == "family";
    NormalizeTravelerTypeSpec(t);
  }

  /** "Solo traveller" becomes "solo_travelers". */
  lemma SoloExample()
    ensures NormalizeTravelerType("Solo traveller") == "solo_travelers"
  {
    SoloCase("Solo traveller");
  }

  lemma SoloCase(t: string)
    requires |t| == 14 && t[..4] == "Solo" && t[4] == ' ' && t[5..] == "traveller"
    ensures NormalizeTravelerType(t) == "solo_travelers"
  {
    var u := Underscored(t);
    assert u == "solo_traveller";
    NormalizeTravelerTypeSpec(t);
  }

  /** "Group of friends" becomes "groups_friends". */
  lemma GroupExample()
    ensures NormalizeTravelerType("Group of friends") == "groups_friends"
  {
    GroupCase("Group of friends");
  }

  lemma GroupCase(t: string)
    requires |t| == 16 && t[..5] == "Group" && t[5] == ' ' && t[6..8] == "of" && t[8] == ' ' && t[9..] == "friends"
    ensures NormalizeTravelerType(t) == "groups_friends"
  {
    var u := Underscored(t);
    assert u == "group_of_friends";
    NormalizeTravelerTypeSpec(t);
  }

  // ---------------------------------------------------------------------
  // write_batch / save_batch_to_csv

  /** Strictly increasing in Python's string order (so also duplicate-free). */
  predicate SortedStrict(s: seq<string>) {
    forall i, j :: 0 <= i < j < |s| ==> StrLess(s[i], s[j])
  }

  /** `m` is the least element of `s`. */
  predicate IsLeast(m: string, s: set<string>) {
    m in s && forall f :: f in s && f != m ==> StrLess(m, f)
  }

  /** A non-empty set of strings has a least element. */
  lemma {:induction false} MinExists(s: set<string>)
    requires s != {}
    ensures exists m :: IsLeast(m, s)
    decreases |s|
  {
    var x :| x in s;
    if s == {x} {
      assert IsLeast(x, s);
    } else {
      var rest := s - {x};
      assert |rest| < |s|;
      MinExists(rest);
      var m :| IsLeast(m, rest);
      StrLessTotal(x, m);
      if StrLess(x, m) {
        forall f | f in s && f != x ensures StrLess(x, f) {
          if f != m {
            assert f in rest;
            StrLessTrans(x, m, f);
          }
        }
        assert IsLeast(x, s);
      } else {
        forall f | f in s && f != m ensures StrLess(m, f) {
          if f != x {
            assert f in rest;
          }
        }
        assert IsLeast(m, s);
      }
    }
  }

  /** `sorted(all_fieldnames.union(existing_fieldnames))`: the keys of every
      record of the batch and the header already in the file, sorted. */
  method Fieldnames(batch: seq<map<string, Value>>, existing: set<string>) returns (header: seq<string>)
    ensures SortedStrict(header)
    ensures forall f :: f in header <==> f in existing || exists j :: 0 <= j < |batch| && f in batch[j]
  {
    var all := existing + (set j, f | 0 <= j < |batch| && f in batch[j] :: f);
    var remaining := all;
    header := [];
    while remaining != {}
      invariant remaining <= all
      invariant forall f :: f in header <==> f in all && f !in remaining
      invariant SortedStrict(header)
      invariant forall i, f :: 0 <= i < |header| && f in remaining ==> StrLess(header[i], f)
      decreases |remaining|
    {
      MinExists(remaining);
      var m :| IsLeast(m, remaining);
      header := header + [m];
      remaining := remaining - {m};
    }
  }

  /** The value written for a field the record lacks. */
  function Default(field: string): (v: Value)
    ensures v == NoneValue <==> field in ["category", "address", "zone", "city", "WiFi Speed"]
    ensures v == Str("") <==> field == "property_url"
    ensures v.Int? ==> v == Int(0)
  {
    if field == "property_url" then Str("")
    else if field in ["category", "address", "zone", "city", "WiFi Speed"] then NoneValue
    else Int(0)
  }

  /** The CSV row written for one record, one cell per header field. */
  function FillRow(record: map<string, Value>, header: seq<string>): (row: seq<Value>)
    ensures |row| == |header|
  {
    seq(|header|, i requires 0 <= i < |header| =>
      if header[i] in record then record[header[i]] else Default(header[i]))
  }

  /** The row handed to `csv.DictWriter`, looked up by field name. The file
      itself holds this row as text, with `None` written as an empty cell;
      that rendering is not modelled. */
  function RowByField(header: seq<string>, row: seq<Value>): map<string, Value>
    requires |row| == |header|
  {
    map f | f in header :: row[IndexOf(header, f)]
  }

  /** The row handed to the writer holds every field the record had, with
      its value, and the default for every other header field. */
  lemma FillRowSpec(record: map<string, Value>, header: seq<string>)
    requires forall f :: f in record ==> f in header
    ensures var back := RowByField(header, FillRow(record, header));
      && (forall f :: f in back <==> f in header)
      && (forall f :: f in record ==> back[f] == record[f])
      && (forall f :: f in back && f !in record ==> back[f] == Default(f))
  {
  }

  /** `write_batch`: nothing for an empty batch; otherwise the header and
      one filled row per record, in batch order. Opening, appending and
      header-writing decisions belong to the file and are not modelled. */
  method WriteBatch(batch: seq<map<string, Value>>, existing: set<string>)
    returns (written: Option<(seq<string>, seq<seq<Value>>)>)
    ensures written.None? <==> batch == []
    ensures written.Some? ==> SortedStrict(written.value.0)
    ensures written.Some? ==> forall f :: f in written.value.0 ==>
      f in existing || exists j :: 0 <= j < |batch| && f in batch[j]
    ensures written.Some? ==> forall f :: f in existing ==> f in written.value.0
    ensures written.Some? ==> |written.value.1| == |batch|
    ensures written.Some? ==> forall j :: 0 <= j < |batch| ==> |written.value.1[j]| == |written.value.0|
    ensures written.Some? ==> forall j, f :: 0 <= j < |batch| && f in batch[j] ==>
      f in written.value.0 && RowByField(written.value.0, written.value.1[j])[f] == batch[j][f]
    ensures written.Some? ==> forall j, f :: 0 <= j < |batch| && f in written.value.0 && f !in batch[j] ==>
      RowByField(written.value.0, written.value.1[j])[f] == Default(f)
  {
    if batch == [] {
      return None;
    }
    var header := Fieldnames(batch, existing);
    var rows := seq(|batch|, j requires 0 <= j < |batch| => FillRow(batch[j], header));
    forall j | 0 <= j < |batch|
      ensures forall f :: f in batch[j] ==> RowByField(header, rows[j])[f] == batch[j][f]
      ensures forall f :: f in header && f !in batch[j] ==> RowByField(header, rows[j])[f] == Default(f)
    {
      FillRowSpec(batch[j], header);
    }
    return Some((header, rows));
  }
}

=== FILE: timestamps.dfy ===
/** The `normalize_timestamp` helper of the cleaning stage: a numeric
    scrape timestamp is read as milliseconds since the Unix epoch and
    rendered as an ISO 8601 UTC string (`datetime.fromtimestamp(ts / 1000,
    UTC).isoformat()`); any other value passes through unchanged.

    Calendar arithmetic is proleptic Gregorian, as in Python's `datetime`,
    computed on 400-year eras that start on 1 March of year 0. */
module Timestamps {
  import opened Wrappers
  import opened Strings

  datatype Date = Date(year: int, month: int, day: int)

  /** Position of day `doe` (0 = 1 March) inside a 400-year era, as
      (year of era, day of that March-based year). */
  function SplitEra(doe: int): (r: (int, int))
    requires 0 <= doe < 146097
    ensures 0 <= r.0 <= 399 && 0 <= r.1 <= 365
    ensures r.0 * 365 + r.0 / 4 - r.0 / 100 + r.1 == doe
  {
    var c := if doe / 36524 < 3 then doe / 36524 else 3;
    var r1 := doe - 36524 * c;
    var q := r1 / 1461;
    var r2 := r1 % 1461;
    var n := if r2 / 365 < 3 then r2 / 365 else 3;
    var yoe := 100 * c + 4 * q + n;
    assert 0 <= q <= 24;
    assert yoe / 4 == 25 * c + q;
    assert yoe / 100 == c;
    (yoe, r2 - 365 * n)
  }

  /** Month (1..12) and day (1..31) of day `doy` of a March-based year. */
  function MonthDay(doy: int): (r: (int, int))
    requires 0 <= doy <= 365
    ensures 1 <= r.0 <= 12 && 1 <= r.1 <= 31
    ensures (153 * ((r.0 + 9) % 12) + 2) / 5 + r.1 - 1 == doy
  {
    var mp := (5 * doy + 2) / 153;
    assert 0 <= mp <= 11;
    var day := doy - (153 * mp + 2) / 5 + 1;
    var month := if mp < 10 then mp + 3 else mp - 9;
    assert (month + 9) % 12 == mp;
    (month, day)
  }

  /** The calendar date `days` days after 1970-01-01. */
  function CivilFromDays(days: int): (d: Date)
    ensures 1 <= d.month <= 12 && 1 <= d.day <= 31
  {
    var z := days + 719468;
    var yd := SplitEra(z % 146097);
    var md := MonthDay(yd.1);
    Date(yd.0 + (z / 146097) * 400 + (if md.0 <= 2 then 1 else 0), md.0, md.1)
  }

  /** The number of days from 1970-01-01 to `d`, the inverse reading. */
  function DaysFromCivil(d: Date): int {
    var y := if d.month <= 2 then d.year - 1 else d.year;
    var yoe := y % 400;
    var doy := (153 * ((d.month + 9) % 12) + 2) / 5 + d.day - 1;
    (y / 400) * 146097 + yoe * 365 + yoe / 4 - yoe / 100 + doy - 719468
  }

  /** Every day count names exactly one date and reads back to itself. */
  lemma CivilRoundTrip(days: int)
    ensures DaysFromCivil(CivilFromDays(days)) == days
  {
    var z := days + 719468;
    var era, doe := z / 146097, z % 146097;
    var yd := SplitEra(doe);
    CivilFromDaysParts(days);
    var d := CivilFromDays(days);
    DaysFromCivilParts(d, era, yd.0, yd.1);
  }

  /** The date of day `days`, spelled out through its era, year of era
      and day of year. */
  lemma CivilFromDaysParts(days: int)
    ensures var z := days + 719468; var yd := SplitEra(z % 146097); var md := MonthDay(yd.1);
      CivilFromDays(days) == Date(yd.0 + (z / 146097) * 400 + (if md.0 <= 2 then 1 else 0), md.0, md.1)
  {
  }

  /** `DaysFromCivil` in terms of the era, year of era and day of year. */
  lemma DaysFromCivilParts(d: Date, era: int, yoe: int, doy: int)
    requires 0 <= yoe < 400
    requires (if d.month <= 2 then d.year - 1 else d.year) == yoe + era * 400
    requires doy == (153 * ((d.month + 9) % 12) + 2) / 5 + d.day - 1
    ensures DaysFromCivil(d) == era * 146097 + yoe * 365 + yoe / 4 - yoe / 100 + doy - 719468
  {
    EraYear(yoe, era);
  }

  lemma EraYear(yoe: int, era: int)
    requires 0 <= yoe < 400
    ensures (yoe + era * 400) / 400 == era && (yoe + era * 400) % 400 == yoe
  {
  }

  /** The time of day of second `sod` as (hour, minute, second). */
  function Clock(sod: int): (r: (int, int, int))
    requires 0 <= sod < 86400
    ensures 0 <= r.0 < 24 && 0 <= r.1 < 60 && 0 <= r.2 < 60
    ensures r.0 * 3600 + r.1 * 60 + r.2 == sod
  {
    (sod / 3600, (sod % 3600) / 60, sod % 60)
  }

  /** The fields of the instant `us` microseconds after the epoch. */
  function MicrosFields(us: int): (f: Fields)
    ensures 1 <= f.date.month <= 12 && 1 <= f.date.day <= 31
    ensures 0 <= f.hh < 24 && 0 <= f.mi < 60 && 0 <= f.ss < 60 && 0 <= f.micro < 1000000
  {
    var secs := us / 1000000;
    var (hh, mi, ss) := Clock(secs % 86400);
    Fields(CivilFromDays(secs / 86400), hh, mi, ss, us % 1000000)
  }

  /** `datetime.fromtimestamp(us / 10**6, UTC).isoformat()` for a count of
      microseconds since the epoch. Python refuses years outside 1..9999
      with a `ValueError`. */
  function IsoFromMicros(us: int): (r: Result<string>)
    ensures r.Failure? <==> !(1 <= MicrosFields(us).date.year <= 9999)
    ensures r.Failure? ==> r.error.ValueError?
  {
    var f := MicrosFields(us);
    if !(1 <= f.date.year <= 9999) then Failure(ValueError("year is out of range"))
    else Success(IsoText(f))
  }

  /** `YYYY-MM-DDTHH:MM:SS+00:00`, with `.ffffff` before the offset when the
      microsecond is not zero. */
  function IsoText(f: Fields): string
    requires 1 <= f.date.year && 1 <= f.date.month && 1 <= f.date.day
    requires 0 <= f.hh && 0 <= f.mi && 0 <= f.ss && 0 <= f.micro
  {
    ZeroPad(f.date.year, 4) + "-" + ZeroPad(f.date.month, 2) + "-" + ZeroPad(f.date.day, 2)
    + "T" + ZeroPad(f.hh, 2) + ":" + ZeroPad(f.mi, 2) + ":" + ZeroPad(f.ss, 2)
    + (if f.micro == 0 then "" else "." + ZeroPad(f.micro, 6))
    + "+00:00"
  }

  /** The fixed shape `YYYY-MM-DDTHH:MM:SS[.ffffff]+00:00`. */
  predicate IsoShape(s: string) {
    && (|s| == 25 || |s| == 32)
    && s[4] == '-' && s[7] == '-' && s[10] == 'T' && s[13] == ':' && s[16] == ':'
    && s[|s| - 6..] == "+00:00"
    && (|s| == 32 ==> s[19] == '.' && AllDigits(s[20..26]))
    && AllDigits(s[0..4]) && AllDigits(s[5..7]) && AllDigits(s[8..10])
    && AllDigits(s[11..13]) && AllDigits(s[14..16]) && AllDigits(s[17..19])
  }

  /** The broken-down fields of an instant: a calendar date, a time of day
      and a count of microseconds. */
  datatype Fields = Fields(date: Date, hh: int, mi: int, ss: int, micro: int)

  /** The fields an ISO string of that shape spells. */
  function IsoFieldsOf(s: string): Fields
    requires IsoShape(s)
  {
    Fields(Date(DigitsValue(s[0..4]), DigitsValue(s[5..7]), DigitsValue(s[8..10])),
           DigitsValue(s[11..13]), DigitsValue(s[14..16]), DigitsValue(s[17..19]),
           if |s| == 32 then DigitsValue(s[20..26]) else 0)
  }

  /** Microseconds since the epoch of a date, a time of day and a fraction. */
  function Instant(f: Fields): int {
    (DaysFromCivil(f.date) * 86400 + f.hh * 3600 + f.mi * 60 + f.ss) * 1000000 + f.micro
  }

  /** Reads an ISO 8601 UTC string of the shape `IsoFromMicros` produces
      back into microseconds since the epoch. */
  function ParseIso(s: string): Option<int> {
    if IsoShape(s) then Some(Instant(IsoFieldsOf(s))) else None
  }

  /** Where each field of an `IsoText` string sits. */
  lemma IsoLayout(y: string, mo: string, d: string, h: string, m: string, sc: string, tail: string)
    requires |y| == 4 && |mo| == 2 && |d| == 2 && |h| == 2 && |m| == 2 && |sc| == 2
    requires |tail| == 0 || |tail| == 7
    ensures var s := y + "-" + mo + "-" + d + "T" + h + ":" + m + ":" + sc + tail + "+00:00";
      && |s| == 25 + |tail|
      && s[0..4] == y && s[4] == '-' && s[5..7] == mo && s[7] == '-' && s[8..10] == d
      && s[10] == 'T' && s[11..13] == h && s[13] == ':' && s[14..16] == m && s[16] == ':'
      && s[17..19] == sc && s[19..19 + |tail|] == tail && s[|s| - 6..] == "+00:00"
  {
  }

  /** A string assembled from digit fields has the ISO shape and spells
      exactly those fields. */
  lemma IsoFields(y: string, mo: string, d: string, h: string, m: string, sc: string, tail: string)
    requires |y| == 4 && |mo| == 2 && |d| == 2 && |h| == 2 && |m| == 2 && |sc| == 2
    requires AllDigits(y) && AllDigits(mo) && AllDigits(d) && AllDigits(h) && AllDigits(m) && AllDigits(sc)
    requires |tail| == 0 || (|tail| == 7 && tail[0] == '.' && AllDigits(tail[1..]))
    ensures var s := y + "-" + mo + "-" + d + "T" + h + ":" + m + ":" + sc + tail + "+00:00";
      && IsoShape(s)
      && IsoFieldsOf(s)
         == Fields(Date(DigitsValue(y), DigitsValue(mo), DigitsValue(d)),
                   DigitsValue(h), DigitsValue(m), DigitsValue(sc),
                   if |tail| == 0 then 0 else DigitsValue(tail[1..]))
  {
    IsoLayout(y, mo, d, h, m, sc, tail);
    var s := y + "-" + mo + "-" + d + "T" + h + ":" + m + ":" + sc + tail + "+00:00";
    if |tail| == 7 {
      assert s[19] == tail[0];
      assert s[20..26] == tail[1..];
    }
  }

  /** `ParseIso` reads back every field `IsoText` writes. */
  lemma ParseIsoText(f: Fields)
    requires 1 <= f.date.year <= 9999 && 1 <= f.date.month <= 12 && 1 <= f.date.day <= 31
    requires 0 <= f.hh < 24 && 0 <= f.mi < 60 && 0 <= f.ss < 60 && 0 <= f.micro < 1000000
    ensures ParseIso(IsoText(f)) == Some(Instant(f))
  {
    var date := f.date;
    var y, mo, d := ZeroPad(date.year, 4), ZeroPad(date.month, 2), ZeroPad(date.day, 2);
    var h, m, sc := ZeroPad(f.hh, 2), ZeroPad(f.mi, 2), ZeroPad(f.ss, 2);
    assert Pow10(2) == 100 && Pow10(4) == 10000 && Pow10(6) == 1000000;
    PadWidth(date.year, 4);
    PadWidth(date.month, 2);
    PadWidth(date.day, 2);
    PadWidth(f.hh, 2);
    PadWidth(f.mi, 2);
    PadWidth(f.ss, 2);
    var tail := if f.micro == 0 then "" else "." + ZeroPad(f.micro, 6);
    if f.micro != 0 {
      PadWidth(f.micro, 6);
      assert tail[1..] == ZeroPad(f.micro, 6);
    }
    IsoFields(y, mo, d, h, m, sc, tail);
  }

  /** The rendering is faithful: whenever Python produces a string, reading
      it back gives the instant it was produced from. */
  lemma IsoRoundTrip(us: int)
    requires IsoFromMicros(us).Success?
    ensures ParseIso(IsoFromMicros(us).value) == Some(us)
  {
    ParseIsoText(MicrosFields(us));
    MicrosInstant(us);
  }

  /** Breaking an instant into fields loses nothing. */
  lemma MicrosInstant(us: int)
    ensures Instant(MicrosFields(us)) == us
  {
    var secs := us / 1000000;
    var days := secs / 86400;
    CivilRoundTrip(days);
    assert days * 86400 + secs % 86400 == secs;
    assert secs * 1000000 + us % 1000000 == us;
  }

  function Pow10(k: nat): (p: nat)
    ensures p >= 1
  {
    if k == 0 then 1 else 10 * Pow10(k - 1)
  }

  /** A number below 10^w has at most w digits. */
  lemma {:induction false} DigitsWidth(n: nat, w: nat)
    requires 1 <= w && n < Pow10(w)
    ensures |NatToDigits(n)| <= w
  {
    if n >= 10 {
      DigitsWidth(n / 10, w - 1);
    }
  }

  /** Zero padding a number below 10^w yields exactly w digits. */
  lemma PadWidth(n: nat, w: nat)
    requires 1 <= w && n < Pow10(w)
    ensures |ZeroPad(n, w)| == w
  {
    DigitsWidth(n, w);
  }

  /** A timestamp cell of the scraped batch: a count of milliseconds, or an
      already formatted value (a string, or the `Timestamp` object pandas
      produces), carried as its text. An integer and a float count are one
      cell here, as they are to pandas, which compares numbers by value
      (`1700000000000 == 1700000000000.0`). */
  datatype Stamp = Millis(ms: real) | Formatted(text: string)

  /** Python's `round()` on a real: to the nearest integer, ties to even. */
  function RoundHalfEven(x: real): (n: int)
    ensures x - 1.0 / 2.0 <= n as real <= x + 1.0 / 2.0
    ensures x - x.Floor as real != 1.0 / 2.0 ==> x - 1.0 / 2.0 < n as real < x + 1.0 / 2.0
    ensures x - x.Floor as real == 1.0 / 2.0 ==> n % 2 == 0
  {
    var f := x.Floor;
    var frac := x - f as real;
    if frac < 1.0 / 2.0 then f
    else if frac > 1.0 / 2.0 then f + 1
    else if f % 2 == 0 then f
    else f + 1
  }

  /** The text `IsoFromMicros` renders, as a timestamp cell. */
  function FormatMicros(us: int): (r: Result<Stamp>)
    ensures r.Success? ==> r.value.Formatted? && ParseIso(r.value.text) == Some(us)
    ensures r.Failure? ==> r.error.ValueError?
  {
    var text :- IsoFromMicros(us);
    IsoRoundTrip(us);
    Success(Formatted(text))
  }

  /** The instant a numeric timestamp cell denotes, in microseconds: the
      millisecond count scaled and rounded to the nearest microsecond (ties
      to even). */
  function StampMicros(ts: Stamp): int
    requires ts.Millis?
  {
    RoundHalfEven(ts.ms * 1000.0)
  }

  /** A whole number of milliseconds denotes exactly that many thousand
      microseconds. */
  lemma WholeMillis(ms: int)
    ensures StampMicros(Millis(ms as real)) == ms * 1000
  {
    assert (ms as real) * 1000.0 == (ms * 1000) as real;
  }

  /** `normalize_timestamp`: numbers become ISO 8601 text; every other value
      is returned unchanged. A year outside 1..9999 raises. */
  function NormalizeTimestamp(ts: Stamp): (r: Result<Stamp>)
    ensures ts.Formatted? ==> r == Success(ts)
    ensures r.Success? ==> r.value.Formatted?
    ensures r.Failure? ==> ts.Millis? && r.error.ValueError?
  {
    if ts.Formatted? then Success(ts) else FormatMicros(StampMicros(ts))
  }

  /** The text a number is turned into reads back to the instant the number
      denotes. */
  lemma NormalizeReadsBack(ts: Stamp)
    requires ts.Millis? && NormalizeTimestamp(ts).Success?
    ensures ParseIso(NormalizeTimestamp(ts).value.text) == Some(StampMicros(ts))
  {
  }

  /** Normalising an already normalised value changes nothing, so mixed
      batches converge to one textual representation. */
  lemma NormalizeIdempotent(ts: Stamp)
    requires NormalizeTimestamp(ts).Success?
    ensures NormalizeTimestamp(NormalizeTimestamp(ts).value) == NormalizeTimestamp(ts)
  {
  }

  /** 1700000000000 ms is 2023-11-14T22:13:20+00:00. */
  lemma NormalizeExample()
    ensures NormalizeTimestamp(Millis(1700000000000.0)) == Success(Formatted("2023-11-14T22:13:20+00:00"))
  {
    WholeMillis(1700000000000);
    ExampleIso();
  }

  lemma ExampleIso()
    ensures IsoFromMicros(1700000000000000) == Success("2023-11-14T22:13:20+00:00")
  {
    ExampleFields();
    ExampleText();
  }

  lemma ExampleFields()
    ensures MicrosFields(1700000000000000) == Fields(Date(2023, 11, 14), 22, 13, 20, 0)
  {
    assert 1700000000000000 / 1000000 == 1700000000 && 1700000000000000 % 1000000 == 0;
    assert 1700000000 / 86400 == 19675 && 1700000000 % 86400 == 80000;
    assert 19675 + 719468 == 739143;
    assert 739143 / 146097 == 5 && 739143 % 146097 == 8658;
    assert SplitEra(8658) == (23, 258);
    assert MonthDay(258) == (11, 14);
    assert Clock(80000) == (22, 13, 20);
  }

  lemma ExampleText()
    ensures IsoText(Fields(Date(2023, 11, 14), 22, 13, 20, 0)) == "2023-11-14T22:13:20+00:00"
  {
    ExamplePads();
    ExampleConcat(ZeroPad(2023, 4), ZeroPad(11, 2), ZeroPad(14, 2), ZeroPad(22, 2), ZeroPad(13, 2), ZeroPad(20, 2));
  }

  lemma ExampleConcat(y: string, mo: string, d: string, h: string, mi: string, s: string)
    requires y == "2023" && mo == "11" && d == "14" && h == "22" && mi == "13" && s == "20"
    ensures y + "-" + mo + "-" + d + "T" + h + ":" + mi + ":" + s + "" + "+00:00"
         == "2023-11-14T22:13:20+00:00"
  {
  }

  lemma ExamplePads()
    ensures ZeroPad(2023, 4) == "2023" && ZeroPad(11, 2) == "11" && ZeroPad(14, 2) == "14"
    ensures ZeroPad(22, 2) == "22" && ZeroPad(13, 2) == "13" && ZeroPad(20, 2) == "20"
  {
    TwoDigits(20);
    assert NatToDigits(202) == "202";
    TwoDigits(11);
    TwoDigits(14);
    TwoDigits(22);
    TwoDigits(13);
  }

  /** The decimal rendering of a two-digit number. */
  lemma TwoDigits(n: nat)
    requires 10 <= n < 100
    ensures NatToDigits(n) == ['0' + (n / 10) as char, '0' + (n % 10) as char]
  {
    assert NatToDigits(n / 10) == ['0' + (n / 10) as char];
  }
}

=== FILE: transform.dfy ===
/** The cleaning stage `transform` of the warehouse loader (etl/transform.py):
    the scraped CSV batches are concatenated, exact duplicates dropped,
    timestamps normalised, village names overwritten by their city, the
    `weighted_avg` column derived, rows failing the quality checks removed
    and missing zones recovered from the address text. File reading and
    writing are not part of this model; a batch is a table value. */
module Transform {
  import opened Wrappers
  import opened Seqs
  import opened Strings
  import opened Timestamps

  /** The six review scores of a property: overall and per traveller segment. */
  datatype Scores = Scores(all: real, families: real, couples: real, solo: real, business: real, groups: real)

  /** The six review counts that go with the scores. */
  datatype Counts = Counts(all: int, families: int, couples: int, solo: int, business: int, groups: int)

  /** The staging cells the stage carries through without reading them:
      `property_id`, the overall review score and count, the comfort, value,
      location and wifi scores, and the wifi speed. They matter only to
      `drop_duplicates`, which compares whole rows. */
  datatype Untouched = Untouched(
    propertyId: Option<string>,
    generalReview: Option<real>,
    generalReviewCount: Option<real>,
    comfortScore: Option<real>,
    valueScore: Option<real>,
    locationScore: Option<real>,
    wifiScore: Option<real>,
    wifiSpeed: Option<string>)

  /** One scraped property. A missing cell (`NaN`/`None`) is `None`;
      `weightedAvg` is `None` until the column is derived, and also when the
      division is undefined (pandas `NaN` or `inf`). Two rows are equal only
      when every cell, the untouched ones included, is equal. */
  datatype Row = Row(
    url: Option<string>,
    category: Option<string>,
    address: Option<string>,
    city: Option<string>,
    zone: Option<string>,
    timestamp: Stamp,
    scores: Scores,
    counts: Counts,
    latitude: real,
    longitude: real,
    minPrice: real,
    maxPrice: real,
    weightedAvg: Option<real>,
    untouched: Untouched)

  /** A DataFrame: the ordered column labels and the rows. The labels are
      tracked only for the statements about column order; they are not tied
      to the fields of `Row`. */
  datatype Table = Table(columns: seq<string>, rows: seq<Row>)

  // ---------------------------------------------------------------------
  // Concatenation and de-duplication (transform.py:19-24)
  // ---------------------------------------------------------------------

  /** `pd.concat(dfs, ignore_index=True)`: rows one batch after another,
      columns the union in order of first appearance. Concatenating no
      frames at all raises. */
  function Concat(batches: seq<Table>): (r: Result<Table>)
    ensures r.Failure? <==> |batches| == 0
    ensures r.Failure? ==> r.error.ValueError?
    ensures r.Success? ==> |batches| == 1 ==> r.value.rows == batches[0].rows
    ensures r.Success? ==> forall c :: c in r.value.columns <==> exists b :: 0 <= b < |batches| && c in batches[b].columns
    ensures r.Success? ==> Distinct(r.value.columns)
  {
    if |batches| == 0 then Failure(ValueError("No objects to concatenate"))
    else
      var columns := seq(|batches|, b requires 0 <= b < |batches| => batches[b].columns);
      var rows := seq(|batches|, b requires 0 <= b < |batches| => batches[b].rows);
      assert forall b :: 0 <= b < |batches| ==> columns[b] == batches[b].columns;
      forall c ensures c in Flatten(columns) <==> exists b :: 0 <= b < |batches| && c in batches[b].columns {
        FlattenMember(columns, c);
      }
      Success(Table(Dedup(Flatten(columns)), Flatten(rows)))
  }

  /** The rows of the concatenation are the batches' rows, batch by batch. */
  lemma ConcatRows(batches: seq<Table>, extra: Table)
    requires |batches| > 0
    ensures Concat(batches + [extra]).value.rows == Concat(batches).value.rows + extra.rows
  {
    var all := batches + [extra];
    var rows := seq(|all|, b requires 0 <= b < |all| => all[b].rows);
    var init := seq(|batches|, b requires 0 <= b < |batches| => batches[b].rows);
    assert rows == init + [extra.rows];
    FlattenAppend(init, [extra.rows]);
  }

  /** `drop_duplicates` runs only when there are duplicates; either way the
      outcome is keep-first de-duplication. */
  function DropDuplicates(rows: seq<Row>): (r: seq<Row>)
    ensures Distinct(r)
    ensures forall x :: x in r <==> x in rows
    ensures forall i, j :: 0 <= i < j < |r| ==> IndexOf(rows, r[i]) < IndexOf(rows, r[j])
  {
    if Distinct(rows) then
      DedupDistinct(rows);
      rows
    else Dedup(rows)
  }

  /** The `if not all_duplicates.empty` guard is only an optimisation. */
  lemma DropDuplicatesIsDedup(rows: seq<Row>)
    ensures DropDuplicates(rows) == Dedup(rows)
  {
    if Distinct(rows) {
      DedupDistinct(rows);
    }
  }

  // ---------------------------------------------------------------------
  // Timestamp normalisation (transform.py:36-41)
  // ---------------------------------------------------------------------

  /** A row whose timestamp `normalize_timestamp` refuses. */
  predicate TimestampFails(r: Row) {
    NormalizeTimestamp(r.timestamp).Failure?
  }

  /** `Series.map(normalize_timestamp)`: the first row whose conversion
      raises aborts the whole stage with that error. */
  function NormalizeRows(rows: seq<Row>): (r: Result<seq<Row>>)
    ensures r.Success? <==> forall k :: 0 <= k < |rows| ==> NormalizeTimestamp(rows[k].timestamp).Success?
    ensures r.Success? ==> |r.value| == |rows|
    ensures r.Success? ==> forall k :: 0 <= k < |rows| ==>
              r.value[k] == rows[k].(timestamp := NormalizeTimestamp(rows[k].timestamp).value)
    ensures r.Failure? ==> r.error.ValueError?
  {
    var i := FindIndex(rows, TimestampFails);
    if i < |rows| then Failure(NormalizeTimestamp(rows[i].timestamp).error)
    else Success(seq(|rows|, k requires 0 <= k < |rows| =>
                   rows[k].(timestamp := NormalizeTimestamp(rows[k].timestamp).value)))
  }

  /** Normalising an already normalised batch changes nothing. */
  lemma NormalizeRowsIdempotent(rows: seq<Row>)
    requires NormalizeRows(rows).Success?
    ensures NormalizeRows(NormalizeRows(rows).value) == NormalizeRows(rows)
  {
    var once := NormalizeRows(rows).value;
    forall k | 0 <= k < |once|
      ensures NormalizeTimestamp(once[k].timestamp) == Success(once[k].timestamp)
    {
      NormalizeIdempotent(rows[k].timestamp);
    }
    assert NormalizeRows(once).Success?;
    var twice := NormalizeRows(once).value;
    assert forall k :: 0 <= k < |once| ==> twice[k] == once[k];
    assert twice == once;
  }

  /** Rows that differ only in how their timestamp is written are distinct,
      so de-duplication keeps both. */
  lemma SpellingsSurviveDedup(r: Row, s: Row)
    requires r != s
    ensures DropDuplicates([r, s]) == [r, s]
  {
    assert Distinct([r, s]);
  }

  /** De-duplication runs before normalisation, so two such rows become
      equal only after it, and the staged batch then holds a duplicate. */
  lemma DuplicatesAfterNormalize(r: Row, s: Row)
    requires s == r.(timestamp := s.timestamp)
    requires NormalizeTimestamp(r.timestamp).Success?
    requires NormalizeTimestamp(r.timestamp) == NormalizeTimestamp(s.timestamp)
    ensures NormalizeRows([r, s]).Success?
    ensures !Distinct(NormalizeRows([r, s]).value)
  {
    NormalizePairSucceeds(r, s);
    var once := NormalizeRows([r, s]).value;
    assert once[0] == once[1];
  }

  lemma NormalizePairSucceeds(r: Row, s: Row)
    requires NormalizeTimestamp(r.timestamp).Success? && NormalizeTimestamp(s.timestamp).Success?
    ensures NormalizeRows([r, s]).Success?
  {
    var rows := [r, s];
    assert rows[0].timestamp == r.timestamp && rows[1].timestamp == s.timestamp;
  }

  /** Such a pair exists: a millisecond count and the text it renders to. */
  lemma DuplicatesAfterNormalizeExample(r: Row)
    requires r.timestamp == Millis(1700000000000.0)
    ensures var s := r.(timestamp := Formatted("2023-11-14T22:13:20+00:00"));
      && DropDuplicates([r, s]) == [r, s]
      && NormalizeRows([r, s]).Success?
      && !Distinct(NormalizeRows([r, s]).value)
  {
    var s := r.(timestamp := Formatted("2023-11-14T22:13:20+00:00"));
    NormalizeExample();
    SpellingsSurviveDedup(r, s);
    DuplicatesAfterNormalize(r, s);
  }

  // ---------------------------------------------------------------------
  // City override (transform.py:49-50)
  // ---------------------------------------------------------------------

  /** `df.loc[df.address.str.contains(town, na=False), 'city'] = town`. */
  function OverrideCity(rows: seq<Row>, town: string): (r: seq<Row>)
    ensures |r| == |rows|
    ensures forall k :: 0 <= k < |rows| ==> r[k].city == (if rows[k].address.Some? && Occurs(rows[k].address.value, town) then Some(town) else rows[k].city)
    ensures forall k :: 0 <= k < |rows| ==> r[k] == rows[k].(city := r[k].city)
  {
    seq(|rows|, k requires 0 <= k < |rows| =>
      if rows[k].address.Some? && Contains(rows[k].address.value, town) then rows[k].(city := Some(town))
      else rows[k])
  }

  /** No row has an address. pandas then reads the column as `float64`, which
      has no `.str` accessor. */
  predicate NoAddresses(rows: seq<Row>) {
    forall k :: 0 <= k < |rows| ==> rows[k].address.None?
  }

  /** Both overrides, in the order of the source. A non-empty batch with no
      address at all makes `combined_df.address.str` raise. */
  function FixCities(rows: seq<Row>): (r: Result<seq<Row>>)
    ensures r.Failure? <==> |rows| > 0 && NoAddresses(rows)
    ensures r.Failure? ==> r.error.AttributeError?
    ensures r.Success? ==> |r.value| == |rows|
  {
    if |rows| > 0 && NoAddresses(rows) then Failure(AttributeError("Can only use .str accessor with string values!"))
    else Success(OverrideCity(OverrideCity(rows, "Marrakech"), "Tangier"))
  }

  /** What the two passes achieve for each row: an address naming Tangier
      gives city Tangier (the second pass wins), one naming only Marrakech
      gives Marrakech, and any other row, including one without an
      address, is left as it was. No other column changes. */
  lemma FixCitiesSpec(rows: seq<Row>, k: int)
    requires 0 <= k < |rows|
    ensures FixCities(rows).Success? <==> exists j :: 0 <= j < |rows| && rows[j].address.Some?
    ensures FixCities(rows).Success? ==> var a, r := rows[k].address, FixCities(rows).value[k];
      && r == rows[k].(city := r.city)
      && (a.Some? && Occurs(a.value, "Tangier") ==> r.city == Some("Tangier"))
      && (a.Some? && !Occurs(a.value, "Tangier") && Occurs(a.value, "Marrakech") ==> r.city == Some("Marrakech"))
      && (a.None? || (!Occurs(a.value, "Tangier") && !Occurs(a.value, "Marrakech")) ==> r == rows[k])
  {
  }

  // ---------------------------------------------------------------------
  // The derived weighted_avg column (transform.py:54-72)
  // ---------------------------------------------------------------------

  /** Sum of the five segment counts (the overall count is not included). */
  function SegmentCount(c: Counts): int {
    c.families + c.couples + c.solo + c.business + c.groups
  }

  /** Sum of score times count over the five segments. */
  function SegmentWeight(s: Scores, c: Counts): real {
    s.families * c.families as real + s.couples * c.couples as real + s.solo * c.solo as real
    + s.business * c.business as real + s.groups * c.groups as real
  }

  /** The count-weighted mean of the five segment scores; undefined when the
      counts sum to zero. */
  function WeightedAvg(s: Scores, c: Counts): (r: Option<real>)
    ensures r.None? <==> SegmentCount(c) == 0
    ensures r.Some? ==> r.value * SegmentCount(c) as real == SegmentWeight(s, c)
  {
    if SegmentCount(c) == 0 then None
    else Some(SegmentWeight(s, c) / SegmentCount(c) as real)
  }

  function MinSegmentScore(s: Scores): real {
    var a := if s.families < s.couples then s.families else s.couples;
    var b := if a < s.solo then a else s.solo;
    var c := if b < s.business then b else s.business;
    if c < s.groups then c else s.groups
  }

  function MaxSegmentScore(s: Scores): real {
    var a := if s.families > s.couples then s.families else s.couples;
    var b := if a > s.solo then a else s.solo;
    var c := if b > s.business then b else s.business;
    if c > s.groups then c else s.groups
  }

  /** With positive counts the weighted mean lies between the lowest and the
      highest segment score. */
  lemma WeightedAvgBounds(s: Scores, c: Counts)
    requires c.families > 0 && c.couples > 0 && c.solo > 0 && c.business > 0 && c.groups > 0
    ensures WeightedAvg(s, c).Some?
    ensures MinSegmentScore(s) <= WeightedAvg(s, c).value <= MaxSegmentScore(s)
  {
    SegmentScoreRange(s);
    AvgBetween(s, c, MinSegmentScore(s), MaxSegmentScore(s));
  }

  /** With positive counts, bounds on every segment score bound the weighted
      mean. */
  lemma AvgBetween(s: Scores, c: Counts, lo: real, hi: real)
    requires c.families > 0 && c.couples > 0 && c.solo > 0 && c.business > 0 && c.groups > 0
    requires lo <= s.families <= hi && lo <= s.couples <= hi && lo <= s.solo <= hi
    requires lo <= s.business <= hi && lo <= s.groups <= hi
    ensures WeightedAvg(s, c).Some? && lo <= WeightedAvg(s, c).value <= hi
  {
    WeightBetween(s, c, lo, hi);
    QuotientBounds(WeightedAvg(s, c).value, SegmentCount(c) as real, SegmentWeight(s, c), lo, hi);
  }

  lemma WeightBetween(s: Scores, c: Counts, lo: real, hi: real)
    requires c.families > 0 && c.couples > 0 && c.solo > 0 && c.business > 0 && c.groups > 0
    requires lo <= s.families <= hi && lo <= s.couples <= hi && lo <= s.solo <= hi
    requires lo <= s.business <= hi && lo <= s.groups <= hi
    ensures lo * (SegmentCount(c) as real) <= SegmentWeight(s, c) <= hi * (SegmentCount(c) as real)
  {
    var f, cp, so, b, g := c.families as real, c.couples as real, c.solo as real, c.business as real, c.groups as real;
    assert SegmentCount(c) as real == f + cp + so + b + g;
    SumBounds(s.families, s.couples, s.solo, s.business, s.groups, f, cp, so, b, g, lo, hi);
  }

  lemma SegmentScoreRange(s: Scores)
    ensures var lo, hi := MinSegmentScore(s), MaxSegmentScore(s);
      && lo <= s.families <= hi && lo <= s.couples <= hi && lo <= s.solo <= hi
      && lo <= s.business <= hi && lo <= s.groups <= hi
  {
  }

  /** Five values between `lo` and `hi`, weighted by positive weights, sum to
      between `lo` and `hi` times the total weight. */
  lemma SumBounds(x1: real, x2: real, x3: real, x4: real, x5: real,
                  k1: real, k2: real, k3: real, k4: real, k5: real, lo: real, hi: real)
    requires k1 > 0.0 && k2 > 0.0 && k3 > 0.0 && k4 > 0.0 && k5 > 0.0
    requires lo <= x1 <= hi && lo <= x2 <= hi && lo <= x3 <= hi && lo <= x4 <= hi && lo <= x5 <= hi
    ensures lo * (k1 + k2 + k3 + k4 + k5) <= x1 * k1 + x2 * k2 + x3 * k3 + x4 * k4 + x5 * k5
    ensures x1 * k1 + x2 * k2 + x3 * k3 + x4 * k4 + x5 * k5 <= hi * (k1 + k2 + k3 + k4 + k5)
  {
    ScaledBounds(x1, k1, lo, hi);
    ScaledBounds(x2, k2, lo, hi);
    ScaledBounds(x3, k3, lo, hi);
    ScaledBounds(x4, k4, lo, hi);
    ScaledBounds(x5, k5, lo, hi);
    assert lo * (k1 + k2 + k3 + k4 + k5) == lo * k1 + lo * k2 + lo * k3 + lo * k4 + lo * k5;
    assert hi * (k1 + k2 + k3 + k4 + k5) == hi * k1 + hi * k2 + hi * k3 + hi * k4 + hi * k5;
    AddFive(lo * k1, lo * k2, lo * k3, lo * k4, lo * k5, x1 * k1, x2 * k2, x3 * k3, x4 * k4, x5 * k5);
    AddFive(x1 * k1, x2 * k2, x3 * k3, x4 * k4, x5 * k5, hi * k1, hi * k2, hi * k3, hi * k4, hi * k5);
  }

  lemma AddFive(a1: real, a2: real, a3: real, a4: real, a5: real, b1: real, b2: real, b3: real, b4: real, b5: real)
    requires a1 <= b1 && a2 <= b2 && a3 <= b3 && a4 <= b4 && a5 <= b5
    ensures a1 + a2 + a3 + a4 + a5 <= b1 + b2 + b3 + b4 + b5
  {
  }

  lemma ScaledBounds(x: real, k: real, lo: real, hi: real)
    requires k > 0.0 && lo <= x <= hi
    ensures lo * k <= x * k <= hi * k
  {
  }

  lemma QuotientBounds(v: real, n: real, w: real, lo: real, hi: real)
    requires n > 0.0 && v * n == w && lo * n <= w <= hi * n
    ensures lo <= v <= hi
  {
  }

  /** `df.insert(loc=df.columns.get_loc(anchor) + 1, column=name, ...)`:
      `get_loc` raises when the anchor is missing and returns a mask (which
      `insert` rejects) when it is repeated; `insert` refuses a label that
      already exists. */
  function InsertAfter(columns: seq<string>, anchor: string, name: string): (r: Result<seq<string>>)
    ensures r.Success? <==> multiset(columns)[anchor] == 1 && name !in columns
    ensures anchor !in columns ==> r == Failure(KeyError(anchor))
    ensures r.Success? ==> var i := IndexOf(columns, anchor);
      && |r.value| == |columns| + 1
      && r.value[..i + 1] == columns[..i + 1]
      && r.value[i + 1] == name
      && r.value[i + 2..] == columns[i + 1..]
  {
    if anchor !in columns then Failure(KeyError(anchor))
    else if multiset(columns)[anchor] > 1 then Failure(TypeError("loc must be int"))
    else if name in columns then Failure(ValueError("cannot insert " + name + ", already exists"))
    else
      var i := IndexOf(columns, anchor);
      Success(columns[..i + 1] + [name] + columns[i + 1..])
  }

  /** `df.drop(columns=[name])`: every column with that label goes. */
  function DropColumn(columns: seq<string>, name: string): (r: seq<string>)
    ensures name !in r
    ensures forall c :: c in r <==> c in columns && c != name
    ensures IsSubseq(r, columns)
  {
    FilterMembers(columns, c => c != name);
    FilterSubseq(columns, c => c != name);
    Filter(columns, c => c != name)
  }

  /** Inserting a new column keeps every other column, in order: dropping it
      again gives back the original header. */
  lemma InsertThenDrop(columns: seq<string>, anchor: string, name: string)
    requires InsertAfter(columns, anchor, name).Success?
    ensures DropColumn(InsertAfter(columns, anchor, name).value, name) == columns
  {
    var i := IndexOf(columns, anchor);
    var pre, post := columns[..i + 1], columns[i + 1..];
    assert columns == pre + post;
    assert forall k :: 0 <= k < |pre| ==> pre[k] in columns;
    assert forall k :: 0 <= k < |post| ==> post[k] in columns;
    FilterRemoveOne(pre, name, post, c => c != name);
  }

  /** Derives `weighted_avg` for every row and inserts the column right
      after `general_review_count`. */
  function AddWeightedAvg(t: Table): (r: Result<Table>)
    ensures r.Success? <==> InsertAfter(t.columns, "general_review_count", "weighted_avg").Success?
    ensures r.Success? ==> r.value.columns == InsertAfter(t.columns, "general_review_count", "weighted_avg").value
    ensures r.Success? ==> |r.value.rows| == |t.rows|
    ensures r.Success? ==> forall k :: 0 <= k < |t.rows| ==>
              r.value.rows[k] == t.rows[k].(weightedAvg := WeightedAvg(t.rows[k].scores, t.rows[k].counts))
    ensures r.Success? ==> forall x :: x in r.value.rows ==> x.weightedAvg == WeightedAvg(x.scores, x.counts)
  {
    var columns :- InsertAfter(t.columns, "general_review_count", "weighted_avg");
    var rows := seq(|t.rows|, k requires 0 <= k < |t.rows| =>
      t.rows[k].(weightedAvg := WeightedAvg(t.rows[k].scores, t.rows[k].counts)));
    Success(Table(columns, rows))
  }

  // ---------------------------------------------------------------------
  // Advisory count check (transform.py:75-83)
  // ---------------------------------------------------------------------

  /** `df['count_sum'] = ...; df.query(...); df.drop(columns=['count_sum'])`:
      the query's result is never assigned, so only the helper column comes
      and goes. An existing `count_sum` column is overwritten and then
      dropped with it. */
  function CountCheck(t: Table): (r: Table)
    ensures r.rows == t.rows
    ensures "count_sum" !in r.columns
  {
    var withSum := if "count_sum" in t.columns then t.columns else t.columns + ["count_sum"];
    Table(DropColumn(withSum, "count_sum"), t.rows)
  }

  /** The count check leaves the table exactly as it was if and only if it had no
      `count_sum` column of its own. */
  lemma CountCheckNoop(t: Table)
    ensures CountCheck(t) == t <==> "count_sum" !in t.columns
  {
    var keep := (c: string) => c != "count_sum";
    if "count_sum" !in t.columns {
      assert forall k :: 0 <= k < |t.columns| ==> t.columns[k] in t.columns;
      FilterRemoveOne(t.columns, "count_sum", [], keep);
      assert t.columns + ["count_sum"] + [] == t.columns + ["count_sum"];
    }
  }

  // ---------------------------------------------------------------------
  // Quality filters (transform.py:87-111)
  // ---------------------------------------------------------------------

  predicate InOpenRange(x: real, lo: real, hi: real) {
    lo < x < hi
  }

  /** Review Score Range Check: all six scores strictly between 0 and 10. */
  predicate ScoresInRange(r: Row) {
    var s := r.scores;
    && InOpenRange(s.all, 0.0, 10.0) && InOpenRange(s.families, 0.0, 10.0)
    && InOpenRange(s.couples, 0.0, 10.0) && InOpenRange(s.solo, 0.0, 10.0)
    && InOpenRange(s.groups, 0.0, 10.0) && InOpenRange(s.business, 0.0, 10.0)
  }

  /** Review Count Check: all six counts positive. */
  predicate CountsPositive(r: Row) {
    var c := r.counts;
    c.all > 0 && c.families > 0 && c.couples > 0 && c.solo > 0 && c.groups > 0 && c.business > 0
  }

  /** Latitude & Longitude Validity (open intervals). */
  predicate CoordinatesValid(r: Row) {
    InOpenRange(r.latitude, -90.0, 90.0) && InOpenRange(r.longitude, -180.0, 180.0)
  }

  /** Price Validity. */
  predicate PricesValid(r: Row) {
    r.minPrice >= 0.0 && r.maxPrice >= r.minPrice
  }

  /** The four queries, applied one after the other as in the source. */
  function QualityFilter(rows: seq<Row>): (r: seq<Row>)
    ensures IsSubseq(r, rows)
  {
    var a := Filter(rows, ScoresInRange);
    var b := Filter(a, CountsPositive);
    var c := Filter(b, CoordinatesValid);
    var d := Filter(c, PricesValid);
    FilterSubseq(rows, ScoresInRange);
    FilterSubseq(a, CountsPositive);
    FilterSubseq(b, CoordinatesValid);
    FilterSubseq(c, PricesValid);
    IsSubseqTrans(d, c, b);
    IsSubseqTrans(d, b, a);
    IsSubseqTrans(d, a, rows);
    d
  }

  /** A row passes every check. */
  predicate RowValid(r: Row) {
    ScoresInRange(r) && CountsPositive(r) && CoordinatesValid(r) && PricesValid(r)
  }

  /** The chain of queries keeps exactly the rows that pass all four checks,
      in their original order and with their multiplicities. */
  lemma QualityFilterSpec(rows: seq<Row>)
    ensures QualityFilter(rows) == Filter(rows, RowValid)
  {
    var a := Filter(rows, ScoresInRange);
    var b := Filter(a, CountsPositive);
    var c := Filter(b, CoordinatesValid);
    FilterFilter(rows, ScoresInRange, CountsPositive);
    var p1 := (x: Row) => ScoresInRange(x) && CountsPositive(x);
    FilterFilter(rows, p1, CoordinatesValid);
    var p2 := (x: Row) => p1(x) && CoordinatesValid(x);
    FilterFilter(rows, p2, PricesValid);
    var p3 := (x: Row) => p2(x) && PricesValid(x);
    FilterExt(rows, p3, RowValid);
  }

  // ---------------------------------------------------------------------
  // Zone backfill (transform.py:115-150)
  // ---------------------------------------------------------------------

  const ZoneIdentifiers: seq<string> := [
    "Cercle de", "Cercle d",
    "Prefecture de", "Prefecture d",
    "Province de", "Province d",
    "Arrondissement de", "Arrondissement d",
    "cadat de", "cadat d",
    "Pachalik de", "Pachalik d",
    "Commune de", "Commune d"]

  const RegionIndicators: seq<string> := ["Marrakesh", "Province", "Prefecture"]

  /** The part starts with one of the administrative zone prefixes. */
  predicate HasZoneIdentifier(part: string) {
    exists j :: 0 <= j < |ZoneIdentifiers| && ZoneIdentifiers[j] <= part
  }

  /** The part names a region. */
  predicate HasRegionIndicator(part: string) {
    exists j :: 0 <= j < |RegionIndicators| && Contains(part, RegionIndicators[j])
  }

  /** `[p.strip() for p in address.split('  ') if p.strip()]`. */
  function AddressParts(address: string): (parts: seq<string>)
    ensures forall k :: 0 <= k < |parts| ==> |parts[k]| > 0 && IsTrimmed(parts[k])
    ensures forall k :: 0 <= k < |parts| ==> !Occurs(parts[k], "  ")
    ensures FilterChars(Flatten(parts), NotSpace) == FilterChars(address, NotSpace)
  {
    var pieces := Split(address, "  ");
    var stripped := seq(|pieces|, k requires 0 <= k < |pieces| => Strip(pieces[k]));
    forall k | 0 <= k < |stripped| ensures IsTrimmed(stripped[k]) && !Contains(stripped[k], "  ") {
      StripKeepsAbsent(pieces[k], "  ");
    }
    FilterPreserves(stripped, NonEmpty, (p: string) => IsTrimmed(p) && !Contains(p, "  "));
    AddressKeeps(address, pieces, stripped);
    Filter(stripped, NonEmpty)
  }

  /** Splitting on a double space, stripping the pieces and dropping the
      empty ones loses only whitespace. */
  lemma AddressKeeps(address: string, pieces: seq<string>, stripped: seq<string>)
    requires pieces == Split(address, "  ")
    requires |stripped| == |pieces|
    requires forall k :: 0 <= k < |pieces| ==> stripped[k] == Strip(pieces[k])
    ensures FilterChars(Flatten(Filter(stripped, NonEmpty)), NotSpace) == FilterChars(address, NotSpace)
  {
    forall k | 0 <= k < |pieces| ensures FilterChars(pieces[k], NotSpace) == FilterChars(stripped[k], NotSpace) {
      StripKeeps(pieces[k]);
    }
    FlattenDropEmpty(stripped);
    FlattenKeeps(pieces, stripped, NotSpace, NotSpace);
    SpacesVanish("  ");
    JoinKeeps(pieces, "  ", NotSpace);
  }

  /** Stripping cannot create an occurrence. */
  lemma StripKeepsAbsent(s: string, sub: string)
    requires !Occurs(s, sub)
    ensures !Occurs(Strip(s), sub)
  {
    var i := |s| - |TrimLeft(s)|;
    var r := Strip(s);
    if Occurs(r, sub) {
      OccursInInfix(s, i, i + |r|, sub);
    }
  }

  /** The zone found among the parts: the first part starting with a zone
      identifier; failing that, the part before the first part (other than
      the first one) naming a region; failing that, nothing. */
  function ZoneOfParts(parts: seq<string>): (zone: Option<string>)
    ensures forall k ::
              (0 <= k < |parts| && HasZoneIdentifier(parts[k])
               && forall j :: 0 <= j < k ==> !HasZoneIdentifier(parts[j]))
              ==> zone == Some(parts[k])
    ensures (forall k :: 0 <= k < |parts| ==> !HasZoneIdentifier(parts[k])) ==>
              forall i ::
                (0 < i < |parts| && HasRegionIndicator(parts[i])
                 && forall j :: 0 < j < i ==> !HasRegionIndicator(parts[j]))
                ==> zone == Some(parts[i - 1])
    ensures zone.None? <==> (forall k :: 0 <= k < |parts| ==> !HasZoneIdentifier(parts[k]))
                            && (forall i :: 0 < i < |parts| ==> !HasRegionIndicator(parts[i]))
  {
    var k := FindIndex(parts, HasZoneIdentifier);
    if k < |parts| then Some(parts[k])
    else if |parts| == 0 then None
    else
      var i := FindIndex(parts[1..], HasRegionIndicator);
      assert forall j :: 0 < j <= i && j < |parts| ==> parts[j] == parts[1..][j - 1];
      if i < |parts| - 1 then Some(parts[i]) else None
  }

  /** `get_zone_from_address`: `NA` for a missing address. */
  function ZoneFromAddress(address: Option<string>): (zone: Option<string>)
    ensures address.None? ==> zone.None?
    ensures zone.Some? ==> zone.value in AddressParts(address.value)
    ensures zone.Some? ==> |zone.value| > 0 && IsTrimmed(zone.value) && !Occurs(zone.value, "  ")
  {
    match address
    case None => None
    case Some(a) =>
      var parts := AddressParts(a);
      var zone := ZoneOfParts(parts);
      if zone.Some? then
        assert exists k :: 0 <= k < |parts| && parts[k] == zone.value by {
          var k := FindIndex(parts, HasZoneIdentifier);
          if k == |parts| {
            var i := 1 + FindIndex(parts[1..], HasRegionIndicator);
            assert parts[i - 1] == zone.value;
          }
        }
        zone
      else zone
  }

  /** The masked assignment: only rows whose zone is missing are touched, and they
      receive whatever the address yields (possibly still nothing). */
  function BackfillZones(rows: seq<Row>): (r: seq<Row>)
    ensures |r| == |rows|
    ensures forall k :: 0 <= k < |rows| && rows[k].zone.Some? ==> r[k] == rows[k]
    ensures forall k :: 0 <= k < |rows| && rows[k].zone.None? ==>
              r[k] == rows[k].(zone := ZoneFromAddress(rows[k].address))
  {
    seq(|rows|, k requires 0 <= k < |rows| =>
      if rows[k].zone.None? then rows[k].(zone := ZoneFromAddress(rows[k].address)) else rows[k])
  }

  /** Backfilling twice is backfilling once: a zone that was found is not
      looked up again, and one that was not found is not found again. */
  lemma BackfillIdempotent(rows: seq<Row>)
    ensures BackfillZones(BackfillZones(rows)) == BackfillZones(rows)
  {
  }

  // ---------------------------------------------------------------------
  // The whole stage
  // ---------------------------------------------------------------------

  /** `transform()` on the already-read batches, up to the staged table. */
  function TransformBatches(batches: seq<Table>): (r: Result<Table>)
    ensures |batches| == 0 ==> r.Failure? && r.error.ValueError?
  {
    var combined :- Concat(batches);
    var rows :- NormalizeRows(DropDuplicates(combined.rows));
    var fixed :- FixCities(rows);
    var derived :- AddWeightedAvg(Table(combined.columns, fixed));
    var checked := CountCheck(derived);
    Success(Table(checked.columns, BackfillZones(QualityFilter(checked.rows))))
  }

  /** Every staged row passes the quality checks, carries a weighted average
      strictly between 0 and 10, and `weighted_avg` sits right after
      `general_review_count`. */
  lemma TransformOutput(batches: seq<Table>)
    requires TransformBatches(batches).Success?
    ensures var t := TransformBatches(batches).value;
      && (forall k :: 0 <= k < |t.rows| ==> RowValid(t.rows[k]))
      && (forall k :: 0 <= k < |t.rows| ==>
            t.rows[k].weightedAvg.Some? && 0.0 < t.rows[k].weightedAvg.value < 10.0)
      && (exists i :: 0 <= i < |t.columns| - 1 && t.columns[i] == "general_review_count"
            && t.columns[i + 1] == "weighted_avg")
  {
    var combined := Concat(batches).value;
    var rows := NormalizeRows(DropDuplicates(combined.rows)).value;
    var derived := AddWeightedAvg(Table(combined.columns, FixCities(rows).value)).value;
    StagedRows(CountCheck(derived).rows);
    StagedColumns(combined.columns, derived);
  }

  /** A row whose weighted average was derived from its own scores and
      counts, once it passes the quality checks, has that average strictly
      between 0 and 10. */
  lemma StagedRows(rows: seq<Row>)
    requires forall x :: x in rows ==> x.weightedAvg == WeightedAvg(x.scores, x.counts)
    ensures var out := BackfillZones(QualityFilter(rows));
      && (forall k :: 0 <= k < |out| ==> RowValid(out[k]))
      && (forall k :: 0 <= k < |out| ==> out[k].weightedAvg.Some? && 0.0 < out[k].weightedAvg.value < 10.0)
  {
    var kept := QualityFilter(rows);
    QualityFilterSpec(rows);
    FilterMembers(rows, RowValid);
    var out := BackfillZones(kept);
    forall k | 0 <= k < |out|
      ensures RowValid(out[k])
      ensures out[k].weightedAvg.Some? && 0.0 < out[k].weightedAvg.value < 10.0
    {
      var x := kept[k];
      assert x in kept;
      WeightedAvgBounds(x.scores, x.counts);
      assert out[k] == x.(zone := out[k].zone);
    }
  }

  /** After the insertion and the count check, `weighted_avg` still follows
      `general_review_count`. */
  lemma StagedColumns(columns: seq<string>, derived: Table)
    requires InsertAfter(columns, "general_review_count", "weighted_avg").Success?
    requires derived.columns == InsertAfter(columns, "general_review_count", "weighted_avg").value
    ensures var cols := CountCheck(derived).columns;
      exists i :: 0 <= i < |cols| - 1 && cols[i] == "general_review_count" && cols[i + 1] == "weighted_avg"
  {
    var cols := derived.columns;
    var i := IndexOf(columns, "general_review_count");
    assert cols[i] == "general_review_count" && cols[i + 1] == "weighted_avg";
    var withSum := if "count_sum" in cols then cols else cols + ["count_sum"];
    assert withSum[i] == cols[i] && withSum[i + 1] == cols[i + 1];
    FilterAdjacent(withSum, c => c != "count_sum", i);
  }
}

=== FILE: wrappers.dfy ===
/** Failure-compatible wrappers shared by every module of the model.
    `Option` stands for a Python value that may be `None` (or a pandas
    `NA`), `Result` for a computation that may raise. */
module Wrappers {

  datatype Option<+T> = None | Some(value: T) {

    predicate IsFailure() {
      None?
    }

    function PropagateFailure<U>(): Option<U>
      requires None?
    {
      None
    }

    function Extract(): T
      requires Some?
    {
      value
    }

    function GetOr(default: T): T {
      match this
      case Some(v) => v
      case None => default
    }
  }

  /** The Python exceptions the modelled code can raise, by class. */
  datatype Error =
    | KeyError(key: string)
    | ValueError(reason: string)
    | TypeError(reason: string)
    | AttributeError(reason: string)
    | ZeroDivisionError

  datatype Result<+R> = Success(value: R) | Failure(error: Error) {

    predicate IsFailure() {
      Failure?
    }

    function PropagateFailure<U>(): Result<U>
      requires Failure?
    {
      Failure(error)
    }

    function Extract(): R
      requires Success?
    {
      value
    }
  }
}
